=== FILE: README.md ===
# Exhibit package generator — a verified model of its core

The Streamlit exhibit generator builds an immigration exhibit package.
It starts from uploaded PDFs, a list of URLs or a Google Drive folder.
Each file is compressed through a fallback chain of tools (Ghostscript, PyMuPDF, SmallPDF).
Every page of each file is stamped with an exhibit label ("Exhibit A", "Exhibit 2", "Exhibit IV") and "Page k of n".
An optional table of contents goes first, and everything is merged into one PDF.
The results page lists the exhibits ten per page, and up/down buttons reorder them and relabel every entry.

This Dafny project models that core as pure functions over immutable data:

- A document is a sequence of abstract pages plus a byte size.
- A file system is a map from paths to documents; a missing key is a missing file.
- Everything the program gets from outside is a parameter:
  - tool availability and the size a tool produces (`Compressor.Env`);
  - the page layout of a generated table of contents;
  - the byte size of a written document;
  - downloads, Drive listings, Wayback Machine answers, timestamps.

Modules, in dependency order:

| module | file | what it holds |
|---|---|---|
| `Outcomes` | outcomes.dfy | `Option`, `Result`, Python truthiness of optional strings, progress reports |
| `PyStr` | pystr.dfy | `str.find`, `in`, `split`, `join`, `startswith`/`endswith` on `seq<char>` |
| `Decimal` | decimal.dfy | `str(n)` and its inverse |
| `Paths` | paths.dfy | `os.path.basename`, `os.path.join`, `Path.stem`, `Path.parent / name` |
| `Roman` | roman.dfy | `to_roman` and the subtractive reading of a numeral |
| `Labels` | labels.dfy | the three numbering styles and the label of each position |
| `Documents` | documents.dfy | pages, documents, the file system |
| `ExhibitList` | exhibit_list.dfy | the results-page list and the up/down moves |
| `Pagination` | pagination.dfy | ten entries per page, page clamping, Prev/Next |
| `Compressor` | compressor.dfy | presets, the Ghostscript command line, the strategy cascade, batch compression |
| `PdfHandler` | pdf.dfy | stamping, merging, table-of-contents rows |
| `DriveLinks` | drive_links.dfy | share link to direct download URL |
| `GoogleDrive` | google_drive.dfy | folder id, filtered listing, recursive listing, folder download |
| `Archive` | archive.dfy | Wayback Machine results and statistics |
| `ExhibitProcessor` | exhibit_processor.dfy | sources, counting, `process_exhibits` |
| `Pipeline` | pipeline.dfy | the flow shared by the three `generate_exhibits*` drivers |

The drivers take the compression step and the numbering step as function-valued parameters.
`Pipeline.HandlerCompression` and `Pipeline.HandlerNumbering` instantiate them with the handler's own operations.
Two ghost predicates state what the pipeline needs of those steps:
- `CollectsSuccesses`: the compression step returns only successes, each of an existing, non-empty file. A step writes at most one file, so no step removes a file.
- `NamesCopies`: the numbering step removes no file and names the copy of an existing file by its label and path.
`Pipeline.HandlerCollectsSuccesses` and `Pipeline.HandlerNamesCopies` prove that the handler's steps satisfy them.

## Model

| member | source | states |
|---|---|---|
| Roman.ToRoman | app.py:2064-2075 | the numeral reads back (subtractive reading) as the number and uses only the letters MDCLXVI |
| Roman.ToRomanLoop | app.py:2064-2075 | the source's nested loops (emit a symbol `num // val[i]` times, then move on) compute exactly `ToRoman(n)`, whose value is n |
| Roman.EmitRepeated | app.py:2071-2073 | the inner loop leaves `num % val[i]` and emits the prefix of the greedy numeral that covers the rest |
| Roman.GreedyWalk | app.py:2070-2074 | the table positions visited never move back up the table and their values add up to the number |
| Roman.GreedyOrdered | app.py:2070-2074 | the walk visits table positions in non-decreasing order |
| Roman.GreedySum | app.py:2070-2074 | the values of the visited positions add up to the number |
| Roman.RenderReads | app.py:2066-2067 | any ordered walk of the 13-entry table, spelled out, reads back as the sum of its values |
| Roman.RenderChars | app.py:2067 | a spelled walk contains only numeral letters |
| Roman.ToRomanEmptyIffZero | app.py:2068-2070 | the numeral is empty exactly for 0 |
| Roman.ToRomanInjective | app.py:2064-2075 | distinct numbers get distinct numerals |
| PyStr.First | google_drive.py:71 | `s.split(sep)[0]` is the prefix of s that ends where the first sep begins, or all of s when sep does not occur |
| PyStr.Last | google_drive.py:71 | `s.split(sep)[-1]` is a suffix of s free of sep that comes right after an occurrence of sep, or all of s when sep does not occur; when sep occurs it is exactly the text after `LastCut`, the last occurrence of the non-overlapping chain found from the left |
| PyStr.LastCutFound | google_drive.py:71 | `split` makes a cut exactly when sep occurs |
| PyStr.LastCutOccurs | google_drive.py:71 | the last cut `split` makes is an occurrence of sep |
| PyStr.LastPieceAtCut | google_drive.py:71 | the last piece of `split` is all of s without a cut, and the text after the last cut otherwise |
| PyStr.SecondFollowsSep | app.py:233 | `s.split(sep)[1]` stands in s right after the first sep |
| PyStr.SecondEndsAtSep | app.py:233 | `s.split(sep)[1]` runs up to the next sep or to the end of s |
| PyStr.FirstStopsAt | google_drive.py:71 | a prefix cut at a one-character separator is all of s or stops right before that character |
| Decimal.ParseNatToString | app.py:543 | `str(n)` read back with `int` gives n |
| Decimal.NatToStringInjective | app.py:543 | distinct numbers render as distinct strings |
| Labels.StyleOf | app.py:540-545 | "letters" and "numbers" are recognised exactly; every other code means Roman numerals |
| Labels.StyleOfCode | app.py:856-860 | the code stored for each style selects that style again |
| Labels.Label | app.py:540-545 | the label of position i is the character with code 65+i, or the decimal of i+1, or a numeral worth i+1 |
| Labels.LettersDoNotWrap | app.py:541 | position 25 is "Z" and position 26 is "[": letters do not wrap |
| Labels.LabelInjective | app.py:538-545 | in each style, distinct positions get distinct labels |
| Labels.LabelsFor | app.py:538-545 | one label per file, in file order, each the label of its position |
| Labels.LabelsDistinct | app.py:538-545 | the labels of one package are pairwise distinct |
| ExhibitList.Relabel | app.py:1765-1771 | every entry gets the label of its position; number aside, every entry is unchanged |
| ExhibitList.RelabelLabelled | app.py:1765-1771 | relabelling a list that is already labelled changes nothing |
| ExhibitList.RelabelOnlyNeedsContent | app.py:1765-1771 | the labels after a relabel depend only on the order of the entries, not on their old labels |
| ExhibitList.Swap | app.py:1762-1763 | the two positions exchange their entries, every other position keeps its own, and the multiset is unchanged |
| ExhibitList.MoveUp | app.py:1761-1772 | entry k and the one above trade places, every other entry stays, and the list is freshly labelled |
| ExhibitList.MoveDown | app.py:1775-1786 | entry k and the one below trade places, every other entry stays, and the list is freshly labelled |
| ExhibitList.MoveLabelsAreFresh | app.py:1761-1772 | after a move the labels are exactly the labels a fresh numbering of that length gives |
| ExhibitList.MoveDownUndoesMoveUp | app.py:1723-1786 | down is enabled after up, and up then down restores the list up to relabelling |
| ExhibitList.MoveUpUndoesMoveDown | app.py:1723-1786 | up is enabled after down, and down then up restores the list up to relabelling |
| ExhibitList.MoveKeepsExhibits | app.py:1761-1772 | a move neither loses nor duplicates an exhibit: the entries without labels are a permutation of the old ones |
| ExhibitList.Contents | app.py:1765-1771 | the entries with their labels removed, position by position |
| Pagination.TotalPages | app.py:1678-1680 | the page count is the ceiling of n/10, and 1 for an empty list |
| Pagination.ValidPage | app.py:1682-1686 | a page in range is kept and any page out of range becomes 1 |
| Pagination.End | app.py:1715-1716 | the slice ends at the start plus ten or at the end of the list, whichever comes first |
| Pagination.Displayed | app.py:1715-1717 | a valid page shows at most ten entries, at least one for a non-empty list, each the list entry at its start offset |
| Pagination.WindowFits | app.py:1715-1717 | on a valid page the window lies inside the list and is not empty when the list is not |
| Pagination.PageOf | app.py:1715 | the page whose window holds entry i |
| Pagination.EachEntryOnOnePage | app.py:1678-1717 | every entry is shown on exactly one valid page |
| Pagination.Prev | app.py:1692-1694 | "Prev", when enabled, moves to the previous page and stays in range |
| Pagination.Next | app.py:1696-1698 | "Next", when enabled, moves to the next page and stays in range |
| Pagination.PrevUndoesNext | app.py:1692-1698 | after "Next", "Prev" is enabled and returns to the page started from |
| Compressor.ParsePreset | compress_handler.py:77 | exactly the keys "high", "balanced" and "maximum" are found in the preset table |
| Compressor.ParsePresetKey | compress_handler.py:33-61 | every preset's key finds that preset |
| Compressor.ConfigOf | compress_handler.py:33-61 | in every preset the colour and grey resolutions agree and the text resolution is higher |
| Compressor.PresetsOrdered | compress_handler.py:33-61 | stronger presets have lower image resolution and JPEG quality, and never a higher text resolution |
| Compressor.GhostscriptArgs | compress_handler.py:161-183 | the command has 21 words, starts with "gs" and ends with the input path |
| Compressor.OptionValue | compress_handler.py:161-183 | an option value read from the command comes from a word that is the flag followed by that value |
| Compressor.OptionValueAt | compress_handler.py:161-183 | a flag word with no earlier word starting with that flag is the one an option reader finds |
| Compressor.GhostscriptArgsSettings | compress_handler.py:165 | the command passes the preset's PDFSETTINGS |
| Compressor.GhostscriptArgsColorDpi | compress_handler.py:166 | the command passes the preset's colour image resolution |
| Compressor.GhostscriptArgsGrayDpi | compress_handler.py:167 | the command passes the preset's grey image resolution |
| Compressor.GhostscriptArgsMonoDpi | compress_handler.py:168 | the command passes the preset's monochrome resolution |
| Compressor.GhostscriptArgsKeepsText | compress_handler.py:173 | the command always turns off downsampling of monochrome (text) images |
| Compressor.GhostscriptArgsOutput | compress_handler.py:181 | the command writes to the output path |
| Compressor.Strategies | compress_handler.py:107-114 | Ghostscript first, PyMuPDF second, and SmallPDF third exactly when an API key is set |
| Compressor.ReductionMeaning | compress_handler.py:195-196 | the reduction is the saved bytes as a percentage of the original; it is negative exactly when the output grew (nothing prevents that) and zero exactly when the size is unchanged |
| Compressor.RunStrategy | compress_handler.py:146-311 | a strategy returns exactly when its tool is available, the input exists and is non-empty and the tool produced output; it then reports its own name, the sizes and the given output path |
| Compressor.CascadeFirstSuccess | compress_handler.py:116-130 | strategies are tried in order; the last one tried is the first that succeeded; all earlier ones failed or raised; with no winner all were tried |
| Compressor.CascadeFindsFirst | compress_handler.py:116-126 | if strategy k succeeds and none before it does, the cascade stops at k and returns its result |
| Compressor.TempPathNames | compress_handler.py:325-328 | the default output sits in the input's directory and is named "compressed_" plus the input's name |
| Compressor.Compress | compress_handler.py:79-144 | it fails only for a missing input; a pass-through result keeps the input path and size, reports 0.0 and method "none"; a success writes to the chosen output path with the reduction of its sizes |
| Compressor.CompressFirstSuccessWins | compress_handler.py:116-126 | the result is that of the first succeeding strategy, and no later strategy is attempted |
| Compressor.CompressFallbackMeansAllFailed | compress_handler.py:132-144 | the pass-through result comes only after every configured strategy was tried and failed |
| Compressor.CompressMethodIsConfigured | compress_handler.py:107-126 | a success names one of the configured strategies, and names SmallPDF only when a key is set |
| Compressor.LastWrite | compress_handler.py:188-196 | the output path holds a file exactly when one of the strategies run wrote it, with the input's pages and the size of the last writer |
| Compressor.CompressWrite | compress_handler.py:116-130 | `compress` leaves a file at its output path exactly when an attempted strategy got as far as writing, with the input's pages; after a success it is the compressed file with the reported size; nothing for a missing input |
| Compressor.EmptyInputLeavesOutput | compress_handler.py:188-196 | an empty input is passed through, yet the output Ghostscript wrote before dividing by the size stays on disk |
| Compressor.AfterCompress | compress_handler.py:79-144 | only the output path can change and no file is removed; after a success the output holds the input's pages with the compressed size |
| Compressor.Reports | compress_handler.py:362-363 | one progress report per path, numbered from 1, with the total and the file's base name |
| Compressor.CompressDefault | compress_handler.py:79-101 | compression with the default output path, run against the file system as it stands, fails exactly on missing files, and a success leaves its output |
| Compressor.Batch | compress_handler.py:361-366 | each path is compressed against the file system the earlier paths left, including output a failed strategy wrote; the batch fails only on a path missing at that point, never when every path existed at the start, and otherwise gives one result per path |
| Compressor.BatchStep | compress_handler.py:361-366 | when the first path compresses, its result comes first and the rest of the batch runs against the file system it left |
| Compressor.BatchHead | compress_handler.py:361-366 | the first path is compressed against the starting file system |
| Compressor.BatchSeesOwnOutput | compress_handler.py:100-101 | when p compresses to q, the batch [p, q] compresses both, the second against the file system holding q, whether or not q existed before |
| Compressor.BatchSeesStrayOutput | compress_handler.py:188-196 | after an empty p that is passed through, a later path `compressed_<name>` is found, because Ghostscript wrote it before raising |
| Compressor.CompressEach | compress_handler.py:361-366 | the loop, carrying the file system from one path to the next, computes exactly the batch of the reference definition |
| Compressor.CompressBatch | compress_handler.py:340-368 | the batch of `compress` with the default output path; one result per path when it succeeds, which it does whenever every path existed at the start; progress (i+1, n, name) is reported before each attempt; a missing file raises |
| PdfHandler.NewHandler | pdf_handler.py:30-52 | compression is on exactly when requested and available; the preset and key go to the compressor; an unknown preset raises only then |
| PdfHandler.Annotate | pdf_handler.py:84-111 | one output page per input page, in order, each the input page with one overlay added |
| PdfHandler.UnstampAnnotate | pdf_handler.py:84-111 | removing the added overlay gives back the input pages: stamping adds exactly one overlay per page and nothing else |
| PdfHandler.StampsNumberPages | pdf_handler.py:90-103 | page k carries "Exhibit {label}" and "Page {k+1} of {n}", with n this document's own page count |
| PdfHandler.Prepare | pdf_handler.py:65-80 | the document read is the compressed output exactly when compression is on and succeeds, otherwise the original; only `compressed_<name>` can appear or change, even on a pass-through |
| PdfHandler.AnnotationReadsCompressed | pdf_handler.py:70-80 | with compression on and succeeding annotation reads "compressed_<name>", otherwise the original path |
| PdfHandler.AddExhibitNumber | pdf_handler.py:54-126 | a readable file is written as `Exhibit_<label>_<basename>` in the temporary directory with the stamped pages; a failure returns the input path and writes nothing |
| PdfHandler.NumberingKeepsPageCount | pdf_handler.py:84-111 | the numbered exhibit has as many pages as its source |
| PdfHandler.MergedPagesAppend | pdf_handler.py:141-143 | merging a concatenation of lists is concatenating their merges |
| PdfHandler.MergedPageCount | pdf_handler.py:139-149 | the merged page count is the sum of the page counts of the inputs that exist |
| PdfHandler.MergeSkipsMissing | pdf_handler.py:142 | a missing input contributes nothing to the merge |
| PdfHandler.MergePdfs | pdf_handler.py:128-149 | the given output path is returned and written with the pages of the existing inputs, appended in input order; other files are unchanged |
| PdfHandler.TocRows | pdf_handler.py:410-417 | a header row and then one row per exhibit in order: "Exhibit {number}", and the title cut to 50 characters without an ellipsis |
| PdfHandler.TocPagesReadBack | pdf_handler.py:416 | the pages cell reads back as the exhibit's page count |
| PdfHandler.TocInfo | pdf_handler.py:401-405 | the info block holds the visa type, the date and the exhibit count |
| PdfHandler.GenerateTableOfContents | pdf_handler.py:360-438 | the output path is returned and holds the layout of the info block and the rows; no other file changes |
| PdfHandler.Ellipsize | pdf_handler.py:248 | a name over 60 characters becomes its first 60 plus "..."; shorter names are kept |
| PdfHandler.Status | pdf_handler.py:245 | the status is "✓ Generated" exactly when `path` or `pdf_path` is set, and "✗ Failed" otherwise |
| PdfHandler.StatusRows | pdf_handler.py:242-250 | a header row and then one row per exhibit, in order |
| PdfHandler.CaseInfo | pdf_handler.py:208-215 | case id first, "Total Exhibits:" last with a cell that reads back as the number of exhibits, and a beneficiary row second only when a name is given |
| PdfHandler.CaseInfoInsertsOneRow | pdf_handler.py:214-215 | with a beneficiary the table is the plain one with that row inserted at position 1 |
| PdfHandler.Archived | pdf_handler.py:287 | the kept entries are ones with an archive or original URL |
| PdfHandler.ArchivedAppend | pdf_handler.py:287 | the URL filter keeps order |
| PdfHandler.ArchivedSingle | pdf_handler.py:287 | an entry with a URL is kept and one without is dropped |
| PdfHandler.UrlCell | pdf_handler.py:299-300 | a cell is the first min(40, length) characters of the URL followed by "...", and "N/A..." when the key is absent |
| PdfHandler.UrlRows | pdf_handler.py:286-301 | the URL table exists exactly when some entry has a URL, with one row per such entry in order |
| DriveLinks.PatternOf | app.py:232-242 | the patterns are tried in the order "/file/d/", "/open?id=", "/preview?id=", "id="; the one chosen occurs and no earlier one does |
| DriveLinks.PatternIffMarker | app.py:232-245 | a link matches some pattern exactly when it contains "/file/d/" or "id=" |
| DriveLinks.IdFollowsMarker | app.py:232-242 | the id stands right after the first occurrence of its marker, holds none of its pattern's delimiters, and is either all of the text up to the next marker or stops right before one of those delimiters |
| DriveLinks.PrimaryId | app.py:232-242 | an id is read exactly when some pattern matches |
| DriveLinks.FallbackId | app.py:300-313 | the fallback reads an id exactly when the link contains "/file/d/" or "id=" |
| DriveLinks.UcUrl | app.py:300-313 | the standard download URL is absolute and ends with the file id |
| DriveLinks.Absolute | app.py:284-296 | an empty found URL gives the standard one; an absolute one is kept; a relative one keeps its path under an absolute URL |
| DriveLinks.ExtractDownloadUrl | app.py:213-313 | any URL returned is absolute |
| DriveLinks.ExtractFailsIffNoMarker | app.py:244-245 | extraction raises exactly when the link has neither "/file/d/" nor "id=" |
| DriveLinks.ExtractUsesFirstPattern | app.py:232-296 | with a reachable page the id comes from the first matching pattern, and the found URL, made absolute, or the standard URL is returned |
| DriveLinks.UnreachableFallsBack | app.py:300-313 | an unreachable page still yields the standard URL for the fallback id |
| GoogleDrive.ExtractFolderId | google_drive.py:59-76 | the last piece of `split("/folders/")` (after the last non-overlapping "/folders/" found from the left), whole or up to its first '?'; else the last piece of `split("id=")`, whole or up to its first '&'; else the input unchanged |
| GoogleDrive.OverlappingMarkers | google_drive.py:71 | in "x/folders/folders/y" the markers overlap, so the last piece of the split is "folders/y", not "y" |
| GoogleDrive.FolderIdOfShareLink | google_drive.py:69-71 | a share link `<a>/folders/<id>?<query>` gives back the id, for an id free of '/' and '?', a query free of '/', and an `a` not ending in "/folders" |
| GoogleDrive.LastAfterFinalMarker | google_drive.py:71 | after a final "/folders/" followed by no '/', `split("/folders/")[-1]` is exactly the text after that marker |
| GoogleDrive.FirstBeforeQuery | google_drive.py:71 | `split("?")[0]` of `id + "?" + query` is the id when the id holds no '?' |
| GoogleDrive.FolderIdFromLink | google_drive.py:69-76 | the id is a piece of the link's text, or the whole link when it has no marker |
| GoogleDrive.FolderIdIdempotent | google_drive.py:59-76 | extracting again from an extracted id that holds no "id=" gives it back |
| GoogleDrive.FilterItemsMembers | google_drive.py:119-120 | exactly the listed items the filter accepts are kept; an empty filter accepts all |
| GoogleDrive.FilterItemsAppend | google_drive.py:119-127 | filtering keeps listing order |
| GoogleDrive.EmptyFilterKeepsAll | google_drive.py:120 | an empty filter keeps every item |
| GoogleDrive.ListFolderFiles | google_drive.py:78-134 | it raises exactly without a service or when the listing fails; otherwise it returns the listed items the filter keeps, in listing order, the filter defaulting to the five document and image MIME types |
| GoogleDrive.ChildPath | google_drive.py:169 | the path is "{parent}/{name}", or the bare name at the root |
| GoogleDrive.WalkFindsFiles | google_drive.py:166-182 | the recursive listing never emits a folder; every file passes the filter and its path ends with its name |
| GoogleDrive.WalkStaysBelow | google_drive.py:169-180 | below a folder every listed path starts with that folder's path and "/" |
| GoogleDrive.FlatWalkIsFilter | google_drive.py:166-182 | a folder without sub-folders lists at the root what the flat filter keeps, each under its own name |
| GoogleDrive.ListFolderRecursive | google_drive.py:136-191 | it raises exactly without a service, never lists a folder, and otherwise returns the walk of the folder's tree from the root path "" with the given filter, or none |
| GoogleDrive.DownloadsAppend | google_drive.py:263-271 | downloaded files keep listing order |
| GoogleDrive.DownloadsMembers | google_drive.py:263-271 | a file is in the result exactly when it was listed and its download succeeded, with the path it was saved to |
| GoogleDrive.AllDownloadsKept | google_drive.py:263-273 | when every download succeeds, nothing is lost |
| GoogleDrive.FolderListing | google_drive.py:254-258 | recursively, every file of the tree with its path; otherwise the default-filtered items of the folder, without a path |
| GoogleDrive.DownloadFolder | google_drive.py:243-273 | it fails exactly when the listing fails; otherwise it holds the successful downloads of the listed files in listing order, never more than were listed |
| GoogleDrive.DownloadFolderMembers | google_drive.py:260-273 | a file is in the download exactly when it was listed and its download succeeded, with its saved path; when every download succeeds, every listed file is there |
| Archive.ArchiveUrl | archive_handler.py:18-65 | any answer is a success with a snapshot URL under the base; a raised request is a failure with no snapshot and the error; the original URL is kept |
| Archive.SnapshotUrl | archive_handler.py:43-48 | the snapshot is the base plus the Content-Location header, or else the base plus "/web/{timestamp}/{url}" |
| Archive.ArchiveMultiple | archive_handler.py:67-99 | one result per URL, in order, and, with a callback, the report (idx+1, n, url) for each |
| Archive.CheckExisting | archive_handler.py:101-133 | a snapshot URL is returned exactly when the closest snapshot is marked available |
| Archive.ArchiveUrlSmart | archive_handler.py:135-163 | an existing snapshot is used, with success and `used_existing` true; otherwise the fresh result with `used_existing` false |
| Outcomes.CountAppend | archive_handler.py:176 | counting the elements that satisfy a predicate distributes over concatenation |
| Outcomes.CountPartition | exhibit_processor.py:137-138 | when every element satisfies exactly one of two predicates, the two counts add up to the length |
| Outcomes.CountAll | exhibit_processor.py:137 | the count is the length exactly when every element satisfies the predicate |
| Archive.GetStatistics | archive_handler.py:165-185 | the total is the number of results, successful is the number of results marked successful, and failed is the rest |
| Archive.SuccessRateMeaning | archive_handler.py:178 | the rate lies between 0 and 100, is 0 without results, and is the share of successes in percent |
| Archive.BatchSuccesses | archive_handler.py:84-99 | the successes of a batch are exactly the saves that got an answer |
| Archive.BatchStatistics | archive_handler.py:165-185 | the statistics of a batch count as successful exactly the saves that got an answer, and the rest as failed |
| ExhibitProcessor.AddFromFile | exhibit_processor.py:55-64 | one file source is appended; an empty title becomes the file's base name |
| ExhibitProcessor.UrlTitle | exhibit_processor.py:68-69 | the default title is the URL's last '/' segment, or "webpage" when that is empty |
| ExhibitProcessor.AddFromUrl | exhibit_processor.py:66-75 | one URL source is appended with a non-empty title |
| ExhibitProcessor.Clear | exhibit_processor.py:77-79 | after clearing the count is 0 |
| ExhibitProcessor.CountTracksChanges | exhibit_processor.py:55-83 | each add increments the count, and clearing forgets every earlier source |
| ExhibitProcessor.Generate | exhibit_processor.py:106-120 | a generated exhibit has the letter of its position and copies title, URL, archive URL and file path from its source |
| ExhibitProcessor.CountsPartition | exhibit_processor.py:137-138 | every generated exhibit counts once, as a success or as a failure |
| ExhibitProcessor.AllSuccessful | exhibit_processor.py:137-138 | when all exhibits succeed none count as failed |
| ExhibitProcessor.ProcessExhibits | exhibit_processor.py:85-149 | one generated exhibit per source in order; the counts partition the total; no TOC or combined path; progress before each source |
| ExhibitProcessor.ProcessedPackage | exhibit_processor.py:100-149 | processing never fails an exhibit, and the letters within a package are distinct |
| Paths.LastIndexOfSpec | app.py:554 | the index found holds the character and none follows; none found means the character is absent |
| Paths.LastIndexOfUnique | app.py:554 | a position holding the character with none after it is the one found |
| Paths.SplitPath | app.py:554 | a path is its directory prefix, empty or ending in '/', followed by a base name without '/' |
| Paths.BaseNameAfterPrefix | pdf_handler.py:114-117 | a name without '/' after a directory prefix is the base name of the result |
| Paths.JoinPath | pdf_handler.py:114-117 | joining onto an absolute name gives that name; otherwise the result starts with the directory and ends with the name |
| Paths.JoinPathBaseName | pdf_handler.py:114-117 | the base name of a joined file name is that name |
| Paths.Stem | app.py:553 | the stem is the name up to its last dot when that dot is neither the first nor the last character, and the whole name otherwise |
| Paths.SiblingNames | compress_handler.py:325-328 | the sibling sits in the same directory, named by the prefix followed by the base name |
| Pipeline.ObtainedMembers | app.py:469-483 | a path is obtained exactly when its download succeeded |
| Pipeline.ObtainedAppend | app.py:469-483 | obtained files keep source order |
| Pipeline.NothingObtained | app.py:485-487 | nothing is obtained exactly when every download failed |
| Pipeline.CompressionOf | pdf_handler.py:70 | the drivers compress exactly when the handler has a compressor |
| Pipeline.HandlerCompressionMeaning | app.py:499-511 | a missing file is skipped and leaves nothing; exactly the successful compressions are collected; every compressed file leaves what `compress` leaves on disk, success or not |
| Pipeline.HandlerCollectsSuccesses | app.py:499-511 | the handler's compression step collects only successes of existing, non-empty files |
| Pipeline.CompressAll | app.py:496-516 | the loop collects at most one result per file |
| Pipeline.CompressAllSucceeds | app.py:499-511 | every collected result is a success with a positive original size, and no file is removed |
| Pipeline.FailureShiftsResults | app.py:499-511 | a file without a result leaves no entry in the collected results; the later files run against what its turn left on disk |
| Pipeline.SuccessLeadsResults | app.py:499-511 | a file with a result contributes the first collected result |
| Pipeline.CompressionPhase | app.py:496-516 | without compression nothing is collected and no file changes |
| Pipeline.AvgReduction | app.py:519-520 | the average is 0 for a zero total, and otherwise the saved share of the total in percent, at most 100 |
| Pipeline.Stats | app.py:519-528 | statistics exist exactly when something was collected, and then hold the totals and the first result's method |
| Pipeline.SumOriginalPositive | app.py:520 | a positive first original size makes the total positive |
| Pipeline.AverageReduction | app.py:519-520 | for collected results the total original size is positive, so the average never takes the zero-total branch |
| Pipeline.PageCount | app.py:2055-2062 | an unreadable file has 0 pages, a readable one its number of pages |
| Pipeline.CompressionInfoAt | app.py:559-564 | exhibit i shows compression details exactly when the i-th collected result exists and succeeded, and then shows that result's reduction and method |
| Pipeline.HandlerNamesCopies | pdf_handler.py:54-126 | the handler's numbering removes no file and names the copy of an existing file `Exhibit_<label>_<name>` |
| Pipeline.NumberFrom | app.py:538-549 | one numbered path and one page count per file |
| Pipeline.NumberFromShift | app.py:538-549 | numbering from i continues as numbering from i+1 on the file system the first step left |
| Pipeline.NumberFromHead | app.py:546-556 | the first numbered path is the copy made for the first file, and its page count is read from the original path after that copy was written |
| Pipeline.NumberFromKeeps | app.py:538-549 | numbering removes no file |
| Pipeline.NumberFromNames | app.py:538-549 | the copy made for an existing file k is named from label k and path k |
| Pipeline.NumberFromTail | app.py:538-549 | the same, for files after the first |
| Pipeline.ListEntries | app.py:538-566 | one entry per file, labelled by position, with the stem of its path as title, its base name, its page count and the compression details of the same index |
| Pipeline.FileList | app.py:574-581 | with a table of contents it comes first, and the numbered files follow in label order |
| Pipeline.WithToc | app.py:574-581 | the table of contents is written only when requested, and no file is removed |
| Pipeline.MergePhase | app.py:584-606 | a package is produced exactly when merging is on and, where the driver checks, every file exists; it holds the pages of the existing inputs |
| Pipeline.PackagePages | app.py:584-606 | the package holds the pages of its files, in order |
| Pipeline.Assemble | app.py:492-606 | the list is labelled by position and shows the compression details of the same index; the merged files are the TOC and the numbered files in order |
| Pipeline.RunKeepsFiles | app.py:492-606 | a run removes no file |
| Pipeline.NumberedInOrder | app.py:538-549 | numbered file k is the copy named from label k and path k |
| Pipeline.GenerateFromDownloads | app.py:469-487 | the run stops only when nothing was downloaded, and lists one exhibit per obtained file |
| Pipeline.GenerateFromUploads | app.py:1897-1917 | no files, or compression with a missing file, stops the run; otherwise one exhibit per file |
| Pipeline.FirstExhibitShowsSecondResult | app.py:559-564 | when the first file yields no result, exhibit A shows the details of the second file's compression |

## Left out

- Labels.Label: letter labels are modelled for the first 0xD800 − 65 positions only. Python's `chr(65 + i)` goes on into the surrogate block, which is not a Dafny `char`.
- Paths: `pathlib` normalisation (repeated or trailing slashes, "." parts) is not modelled; paths are plain strings split at the last '/'.
- Compressor.ReductionMeaning, Compressor.RunStrategy and Compressor.Compress: `reduction_percent` is the exact `real` reduction. The program stores `round(reduction, 2)` in that result field (compress_handler.py:203, 247, 308), and the rounded value reaches the per-exhibit `reduction` (app.py:560-564); floating-point rounding is not modelled. `format_bytes` (compress_handler.py:331-337) is not modelled either.
- Compressor.RunStrategy: what each tool does to the bytes is an oracle (`Env.produced`). Availability of Ghostscript and PyMuPDF, and the SmallPDF HTTP exchange, are parameters. A strategy never reports `success: False` without raising, because none of the three does.
- Compressor.AfterCompress: a compressed file keeps its pages. That PyMuPDF and Ghostscript preserve pages is assumed as part of the oracle.
- Compressor.CompressBatch: progress is derived from the number of attempted paths, not by a call per iteration; the observable reports are the same. It takes an already parsed preset, so the constructor's KeyError on an unknown key appears only in Compressor.ParsePreset and PdfHandler.NewHandler.
- Pipeline: the compression step and the numbering step are parameters; the handler's steps are the instantiations. Page layout of a written table of contents and the byte size of any written document are oracles.
- Pipeline.PageCount: reading a PDF that exists never fails in the model; an unreadable existing file is not modelled.
- Pipeline.NumberFrom: a numbering failure inside a readable file (a reportlab or PyPDF2 error) is not modelled; only a missing file makes `add_exhibit_number` return its input.
- Pipeline.CompressionInfoAt: exhibit i takes the i-th *collected* result. After a failed compression this pairs an exhibit with a later file's result. This is the code as written; the model keeps it and proves it with Pipeline.FirstExhibitShowsSecondResult.
- The three drivers' downloads: `download_pdf_from_url`, `get_filename_from_url`, the HTML scraping of `downloadUrl` (app.py:266-281) and the virus-scan page (app.py:345-353) are network I/O. A download is an `Option` of the saved path.
- DriveLinks.ExtractDownloadUrl: the HTML-unescaping of a scraped URL is not modelled. The scraped URL is a parameter.
- The Drive wiring in app.py (OAuth, `list_folder_files_public`, the moving of downloaded files into the working directory) uses methods that google_drive.py does not define.
- GoogleDrive: authentication, the `files().list` and `export_media`/`get_media` calls, and the MIME handling inside `download_file` are oracles. A listing is a `Result`, a folder tree is a `Listing`, a download is a `Result` of the saved path. A sub-folder whose listing raises contributes nothing, as in the source.
- PdfHandler: `url_to_pdf` always returns `None` and does nothing else. `generate_toc` is modelled through its tables (case info, status rows, archived URLs), not its reportlab layout. A URL key that is present with value `None` is read like an absent key; the source would raise a TypeError on it.
- PdfHandler.TocRows: the pages cell is modelled for entries that have a page count. The drivers always set `pages`, so the '-' default never shows.
- Temporary files that the drivers leave behind (compressed copies, numbered copies) are not cleaned up in the model either. The model does not track the temporary directory's lifetime.
- Archive: the HTTP requests, the JSON body of the availability endpoint and the one-second delay between saves are oracles or left out. Timestamps are parameters.
- ExhibitProcessor.ProcessExhibits: the `except` branch of `process_exhibits` cannot be reached, because building a `GeneratedExhibit` does not raise. Every exhibit is a success, as ExhibitProcessor.ProcessedPackage states.
- The Streamlit interface is presentation: session state, status texts, progress bars, tabs, the "Go to page" number input and the ZIP upload. The "Reset to Original Order" button sorts on `_original_index`, which no driver sets, so it never changes the order.

=== FILE: archive.dfy ===
/** The Wayback Machine handler: saving a URL, saving a list of URLs
    with progress reports, preferring an existing snapshot, and the
    statistics over a list of results. The HTTP calls and the clock are
    oracles: each save call either answers (with or without a
    `Content-Location` header) or raises, and the timestamps are given. */
module Archive {
  import opened Outcomes
  import PyStr

  const BaseUrl: string := "https://web.archive.org"

  /** What the save request did. */
  datatype SaveResponse = Answered(contentLocation: Option<string>) | Raised(reason: string)

  /** One save call: its response, the 14-digit timestamp used for a
      constructed snapshot URL, and the ISO time of the result. */
  datatype SaveCall = SaveCall(response: SaveResponse, timestamp: string, now: string)

  /** An archive result; `error` and `usedExisting` are keys that only
      some results carry. */
  datatype ArchiveResult = ArchiveResult(
    originalUrl: string,
    archiveUrl: Option<string>,
    archivedAt: string,
    success: bool,
    error: Option<string>,
    usedExisting: Option<bool>)

  /** `archive_url`: any answer is a success, with the snapshot URL taken
      from the header or built from the timestamp; a raised request is a
      failure without a snapshot URL. */
  function ArchiveUrl(url: string, call: SaveCall): (r: ArchiveResult)
    ensures r.originalUrl == url && r.archivedAt == call.now && r.usedExisting.None?
    ensures r.success <==> call.response.Answered?
    ensures r.success <==> r.archiveUrl.Some?
    ensures r.success ==> PyStr.StartsWith(r.archiveUrl.value, BaseUrl) && r.error.None?
    ensures !r.success ==> r.error == Some(call.response.reason)
  {
    match call.response
    case Raised(reason) => ArchiveResult(url, None, call.now, false, Some(reason), None)
    case Answered(location) =>
      var snapshot :=
        if location.Some? then BaseUrl + location.value
        else BaseUrl + "/web/" + call.timestamp + "/" + url;
      assert snapshot[..|BaseUrl|] == BaseUrl;
      ArchiveResult(url, Some(snapshot), call.now, true, None, None)
  }

  /** The snapshot URL is the base followed by the header when there is
      one, and otherwise the base, "/web/", the timestamp and the original
      URL. */
  lemma {:induction false} SnapshotUrl(url: string, call: SaveCall)
    requires call.response.Answered?
    ensures call.response.contentLocation.Some? ==>
      ArchiveUrl(url, call).archiveUrl.value == BaseUrl + call.response.contentLocation.value
    ensures call.response.contentLocation.None? ==>
      var a := ArchiveUrl(url, call).archiveUrl.value;
      PyStr.StartsWith(a, BaseUrl + "/web/" + call.timestamp + "/") && PyStr.EndsWith(a, "/" + url)
  {
    var a := ArchiveUrl(url, call).archiveUrl.value;
    if call.response.contentLocation.None? {
      var p := BaseUrl + "/web/" + call.timestamp + "/";
      assert a == p + url;
      assert a[..|p|] == p;
      assert a[|a| - |"/" + url|..] == "/" + url;
    }
  }

  /** `archive_multiple_urls`: one result per URL in order, and, when a
      callback is given, one report (idx + 1, n, url) before each. */
  function ArchiveMultiple(urls: seq<string>, calls: nat -> SaveCall, reportProgress: bool)
    : (r: (seq<ArchiveResult>, seq<Progress>))
    ensures |r.0| == |urls|
    ensures forall i :: 0 <= i < |urls| ==> r.0[i] == ArchiveUrl(urls[i], calls(i))
    ensures reportProgress ==> |r.1| == |urls| && forall i :: 0 <= i < |urls| ==> r.1[i] == Progress(i + 1, |urls|, urls[i])
    ensures !reportProgress ==> r.1 == []
  {
    (seq(|urls|, i requires 0 <= i < |urls| => ArchiveUrl(urls[i], calls(i))),
     if reportProgress then seq(|urls|, i requires 0 <= i < |urls| => Progress(i + 1, |urls|, urls[i])) else [])
  }

  /** What the availability endpoint said. */
  datatype Availability = Snapshot(available: bool, url: string) | NoSnapshot | Unanswered

  /** `check_existing_archive`: the closest snapshot's URL when it is
      marked available; `None` otherwise, including on errors. */
  function CheckExisting(a: Availability): (r: Option<string>)
    ensures r.Some? <==> a.Snapshot? && a.available
    ensures r.Some? ==> r.value == a.url
  {
    if a.Snapshot? && a.available then Some(a.url) else None
  }

  /** `archive_url_smart`: an existing snapshot is used as is; otherwise a
      fresh save, marked as not reusing one. */
  function ArchiveUrlSmart(url: string, availability: Availability, call: SaveCall): (r: ArchiveResult)
    ensures r.originalUrl == url && r.usedExisting.Some?
    ensures r.usedExisting.value <==> Truthy(CheckExisting(availability))
    ensures r.usedExisting.value ==> r.success && r.archiveUrl == CheckExisting(availability)
    ensures !r.usedExisting.value ==> r == ArchiveUrl(url, call).(usedExisting := Some(false))
  {
    var existing := CheckExisting(availability);
    if Truthy(existing) then ArchiveResult(url, existing, call.now, true, None, Some(true))
    else ArchiveUrl(url, call).(usedExisting := Some(false))
  }

  /** A result counted as successful by `get_statistics`. */
  predicate Saved(r: ArchiveResult)
  {
    r.success
  }

  datatype Statistics = Statistics(total: nat, successful: nat, failed: nat, successRate: real)

  /** `get_statistics`. */
  function GetStatistics(results: seq<ArchiveResult>): (s: Statistics)
    ensures s.total == |results| && s.successful <= s.total
    ensures s.successful + s.failed == s.total
    ensures s.successful == Count(results, Saved)
  {
    var total := |results|;
    var ok := Count(results, Saved);
    Statistics(total, ok, total - ok, if total > 0 then (ok as real) / (total as real) * 100.0 else 0.0)
  }

  /** The success rate is a percentage: 0 for no results, 100 exactly when
      every result succeeded, and the successful share otherwise. */
  lemma {:induction false} SuccessRateMeaning(results: seq<ArchiveResult>)
    ensures var s := GetStatistics(results);
      0.0 <= s.successRate <= 100.0 &&
      (|results| == 0 ==> s.successRate == 0.0) &&
      (|results| > 0 ==> s.successRate * (|results| as real) == 100.0 * (s.successful as real))
  {
    var s := GetStatistics(results);
    if |results| > 0 {
      var t := |results| as real;
      var k := s.successful as real;
      assert k / t <= 1.0;
    }
  }

  /** How many of the first `i` save calls got an answer. */
  function Answers(calls: nat -> SaveCall, i: nat): (n: nat)
    ensures n <= i
  {
    if i == 0 then 0 else Answers(calls, i - 1) + (if calls(i - 1).response.Answered? then 1 else 0)
  }

  /** Statistics over a batch count exactly the saves that got an answer. */
  lemma {:induction false} BatchSuccesses(urls: seq<string>, calls: nat -> SaveCall, i: nat)
    requires i <= |urls|
    ensures Count(ArchiveMultiple(urls, calls, false).0[..i], Saved) == Answers(calls, i)
    decreases i
  {
    var rs := ArchiveMultiple(urls, calls, false).0;
    if i > 0 {
      BatchSuccesses(urls, calls, i - 1);
      assert rs[..i] == rs[..i - 1] + [rs[i - 1]];
      CountAppend(rs[..i - 1], [rs[i - 1]], Saved);
      assert Count([rs[i - 1]], Saved) == if rs[i - 1].success then 1 else 0;
    }
  }

  /** `get_statistics` over a whole batch reports as successful exactly
      the saves that got an answer, and the rest as failed. */
  lemma {:induction false} BatchStatistics(urls: seq<string>, calls: nat -> SaveCall)
    ensures var s := GetStatistics(ArchiveMultiple(urls, calls, false).0);
      s.successful == Answers(calls, |urls|) && s.failed == |urls| - Answers(calls, |urls|)
  {
    var rs := ArchiveMultiple(urls, calls, false).0;
    BatchSuccesses(urls, calls, |urls|);
    assert rs[..|urls|] == rs;
  }
}

=== FILE: compressor.dfy ===
/** The PDF compressor: quality presets, the Ghostscript command line,
    the three compression strategies tried in a fixed order with the
    first success winning, the pass-through result when all of them
    fail, and batch compression.

    The external tools are an oracle (`Env`): whether Ghostscript and
    PyMuPDF are present, and, per strategy and input path, the size of
    the file the tool writes (absent when the tool fails). A compressed
    file keeps the pages of its input. */
module Compressor {
  import opened Outcomes
  import opened Documents
  import Paths
  import Decimal
  import PyStr

  datatype Preset = High | Balanced | Maximum

  /** Key of a preset in the preset table. */
  function PresetKey(p: Preset): string
  {
    match p
    case High => "high"
    case Balanced => "balanced"
    case Maximum => "maximum"
  }

  /** Looking a key up in the preset table; an unknown key is a lookup
      error in the constructor. */
  function ParsePreset(key: string): (r: Option<Preset>)
    ensures r.Some? ==> PresetKey(r.value) == key
    ensures key in {"high", "balanced", "maximum"} <==> r.Some?
  {
    if key == "high" then Some(High)
    else if key == "balanced" then Some(Balanced)
    else if key == "maximum" then Some(Maximum)
    else None
  }

  lemma {:induction false} ParsePresetKey(p: Preset)
    ensures ParsePreset(PresetKey(p)) == Some(p)
  {
    match p
    case High =>
    case Balanced =>
    case Maximum =>
  }

  datatype PresetConfig = PresetConfig(
    name: string,
    gsSettings: string,
    colorDpi: nat,
    grayDpi: nat,
    monoDpi: nat,
    jpegQuality: nat)

  /** The preset table. */
  function ConfigOf(p: Preset): (c: PresetConfig)
    ensures c.colorDpi == c.grayDpi && c.colorDpi < c.monoDpi
  {
    match p
    case High => PresetConfig("High Quality (USCIS Recommended)", "/printer", 200, 200, 300, 85)
    case Balanced => PresetConfig("Balanced", "/ebook", 150, 150, 300, 80)
    case Maximum => PresetConfig("Maximum Compression", "/screen", 100, 100, 200, 75)
  }

  /** Stronger compression never raises image resolution or JPEG quality. */
  lemma {:induction false} PresetsOrdered()
    ensures ConfigOf(Maximum).colorDpi < ConfigOf(Balanced).colorDpi < ConfigOf(High).colorDpi
    ensures ConfigOf(Maximum).jpegQuality < ConfigOf(Balanced).jpegQuality < ConfigOf(High).jpegQuality
    ensures ConfigOf(Maximum).monoDpi <= ConfigOf(Balanced).monoDpi == ConfigOf(High).monoDpi
  {
  }

  /** The Ghostscript command line for one input and output path. */
  function GhostscriptArgs(c: PresetConfig, input: string, output: string): (args: seq<string>)
    ensures |args| == 21 && args[0] == "gs" && args[|args| - 1] == input
  {
    ["gs",
     "-sDEVICE=pdfwrite",
     "-dCompatibilityLevel=1.4",
     "-dPDFSETTINGS=" + c.gsSettings,
     "-dColorImageResolution=" + Decimal.NatToString(c.colorDpi),
     "-dGrayImageResolution=" + Decimal.NatToString(c.grayDpi),
     "-dMonoImageResolution=" + Decimal.NatToString(c.monoDpi),
     "-dColorImageDownsampleType=/Bicubic",
     "-dGrayImageDownsampleType=/Bicubic",
     "-dDownsampleColorImages=true",
     "-dDownsampleGrayImages=true",
     "-dDownsampleMonoImages=false",
     "-dCompressPages=true",
     "-dOptimize=true",
     "-dEmbedAllFonts=true",
     "-dSubsetFonts=true",
     "-dNOPAUSE",
     "-dQUIET",
     "-dBATCH",
     "-sOutputFile=" + output,
     input]
  }

  /** How a command-line reader sees an option: the text after `flag` in
      the first argument that starts with it. */
  function OptionValue(args: seq<string>, flag: string): (r: Option<string>)
    ensures r.Some? ==> exists k :: 0 <= k < |args| && args[k] == flag + r.value
  {
    if |args| == 0 then None
    else if PyStr.StartsWith(args[0], flag) then
      assert args[0] == flag + args[0][|flag|..];
      Some(args[0][|flag|..])
    else
      var r := OptionValue(args[1..], flag);
      if r.Some? then
        assert args[1..][0] == args[1];
        Some(r.value)
      else None
  }

  lemma {:induction false} OptionValueAt(args: seq<string>, flag: string, k: nat, v: string)
    requires k < |args| && args[k] == flag + v
    requires forall j :: 0 <= j < k ==> !PyStr.StartsWith(args[j], flag)
    ensures OptionValue(args, flag) == Some(v)
    decreases k
  {
    assert (flag + v)[..|flag|] == flag;
    if k > 0 {
      OptionValueAt(args[1..], flag, k - 1, v);
    } else {
      assert args[0][|flag|..] == v;
    }
  }

  /** `a` does not start with `p`: they differ at position `i`, or `a`
      ends first. */
  lemma {:induction false} NotPrefixAt(a: string, p: string, i: nat)
    requires i < |p| && (i >= |a| || a[i] != p[i])
    ensures !PyStr.StartsWith(a, p)
  {
  }

  /** The command line passes the preset's Ghostscript setting. */
  lemma {:induction false} GhostscriptArgsSettings(c: PresetConfig, input: string, output: string)
    ensures OptionValue(GhostscriptArgs(c, input, output), "-dPDFSETTINGS=") == Some(c.gsSettings)
  {
    var args := GhostscriptArgs(c, input, output);
    var flag := "-dPDFSETTINGS=";
    forall j | 0 <= j < 3
      ensures !PyStr.StartsWith(args[j], flag)
    {
      if j == 0 {
        NotPrefixAt(args[j], flag, 0);
      } else if j == 1 {
        NotPrefixAt(args[j], flag, 1);
      } else {
        NotPrefixAt(args[j], flag, 2);
      }
    }
    OptionValueAt(args, flag, 3, c.gsSettings);
  }

  /** The command line passes the preset's colour image resolution. */
  lemma {:induction false} GhostscriptArgsColorDpi(c: PresetConfig, input: string, output: string)
    ensures OptionValue(GhostscriptArgs(c, input, output), "-dColorImageResolution=") == Some(Decimal.NatToString(c.colorDpi))
  {
    var args := GhostscriptArgs(c, input, output);
    var flag := "-dColorImageResolution=";
    forall j | 0 <= j < 4
      ensures !PyStr.StartsWith(args[j], flag)
    {
      if j == 0 {
        NotPrefixAt(args[j], flag, 0);
      } else if j == 1 {
        NotPrefixAt(args[j], flag, 1);
      } else if j == 2 {
        NotPrefixAt(args[j], flag, 4);
      } else {
        NotPrefixAt(args[j], flag, 2);
      }
    }
    OptionValueAt(args, flag, 4, Decimal.NatToString(c.colorDpi));
  }

  /** The command line passes the preset's grey image resolution. */
  lemma {:induction false} GhostscriptArgsGrayDpi(c: PresetConfig, input: string, output: string)
    ensures OptionValue(GhostscriptArgs(c, input, output), "-dGrayImageResolution=") == Some(Decimal.NatToString(c.grayDpi))
  {
    var args := GhostscriptArgs(c, input, output);
    var flag := "-dGrayImageResolution=";
    forall j | 0 <= j < 5
      ensures !PyStr.StartsWith(args[j], flag)
    {
      if j == 0 {
        NotPrefixAt(args[j], flag, 0);
      } else if j == 1 {
        NotPrefixAt(args[j], flag, 1);
      } else if j == 2 {
        NotPrefixAt(args[j], flag, 2);
      } else if j == 3 {
        NotPrefixAt(args[j], flag, 2);
      } else {
        NotPrefixAt(args[j], flag, 2);
      }
    }
    OptionValueAt(args, flag, 5, Decimal.NatToString(c.grayDpi));
  }

  /** The command line passes the preset's monochrome (text) resolution. */
  lemma {:induction false} GhostscriptArgsMonoDpi(c: PresetConfig, input: string, output: string)
    ensures OptionValue(GhostscriptArgs(c, input, output), "-dMonoImageResolution=") == Some(Decimal.NatToString(c.monoDpi))
  {
    var args := GhostscriptArgs(c, input, output);
    var flag := "-dMonoImageResolution=";
    forall j | 0 <= j < 6
      ensures !PyStr.StartsWith(args[j], flag)
    {
      if j == 0 {
        NotPrefixAt(args[j], flag, 0);
      } else if j == 1 {
        NotPrefixAt(args[j], flag, 1);
      } else if j == 2 {
        NotPrefixAt(args[j], flag, 2);
      } else if j == 3 {
        NotPrefixAt(args[j], flag, 2);
      } else if j == 4 {
        NotPrefixAt(args[j], flag, 2);
      } else {
        NotPrefixAt(args[j], flag, 2);
      }
    }
    OptionValueAt(args, flag, 6, Decimal.NatToString(c.monoDpi));
  }

  /** The command line passes an instruction never to downsample monochrome (text) images. */
  lemma {:induction false} GhostscriptArgsKeepsText(c: PresetConfig, input: string, output: string)
    ensures OptionValue(GhostscriptArgs(c, input, output), "-dDownsampleMonoImages=") == Some("false")
  {
    var args := GhostscriptArgs(c, input, output);
    var flag := "-dDownsampleMonoImages=";
    forall j | 0 <= j < 11
      ensures !PyStr.StartsWith(args[j], flag)
    {
      if j == 0 {
        NotPrefixAt(args[j], flag, 0);
      } else if j == 1 {
        NotPrefixAt(args[j], flag, 1);
      } else if j < 9 {
        NotPrefixAt(args[j], flag, 2);
      } else {
        NotPrefixAt(args[j], flag, 12);
      }
    }
    OptionValueAt(args, flag, 11, "false");
  }

  /** The command line writes to the output path. */
  lemma {:induction false} GhostscriptArgsOutput(c: PresetConfig, input: string, output: string)
    ensures OptionValue(GhostscriptArgs(c, input, output), "-sOutputFile=") == Some(output)
  {
    var args := GhostscriptArgs(c, input, output);
    var flag := "-sOutputFile=";
    forall j | 0 <= j < 19
      ensures !PyStr.StartsWith(args[j], flag)
    {
      if j == 0 {
        NotPrefixAt(args[j], flag, 0);
      } else if j == 1 {
        NotPrefixAt(args[j], flag, 2);
      } else {
        assert args[j][1] == 'd';
        NotPrefixAt(args[j], flag, 1);
      }
    }
    OptionValueAt(args, flag, 19, output);
  }

  datatype Strategy = Ghostscript | PyMuPdf | SmallPdf

  function StrategyName(s: Strategy): string
  {
    match s
    case Ghostscript => "ghostscript"
    case PyMuPdf => "pymupdf"
    case SmallPdf => "smallpdf"
  }

  /** The compressor's configuration: a preset and an optional SmallPDF key. */
  datatype Settings = Settings(preset: Preset, apiKey: Option<string>)

  /** Strategies in the order they are tried: Ghostscript, then PyMuPDF,
      then SmallPDF only when an API key is set. */
  function Strategies(st: Settings): (r: seq<Strategy>)
    ensures |r| >= 2 && r[0] == Ghostscript && r[1] == PyMuPdf
    ensures SmallPdf in r <==> Truthy(st.apiKey)
    ensures |r| == if Truthy(st.apiKey) then 3 else 2
  {
    [Ghostscript, PyMuPdf] + if Truthy(st.apiKey) then [SmallPdf] else []
  }

  /** Oracle for the tools: availability, and the size each strategy's
      output file has for a given input path (absent: the tool fails). */
  datatype Env = Env(gsAvailable: bool, pymupdfInstalled: bool, produced: map<(Strategy, string), nat>)

  /** The result dictionary of a compression. */
  datatype CompressionResult = CompressionResult(
    success: bool,
    outputPath: string,
    originalSize: nat,
    compressedSize: nat,
    reductionPercent: real,
    methodName: string,
    qualityPreset: Option<string>,
    error: Option<string>)

  /** One strategy either raises or returns a result dictionary. */
  datatype Attempt = Raised(reason: string) | Returned(result: CompressionResult)

  /** `(1 - compressed / original) * 100`: the share of bytes saved, in
      percent. */
  function Reduction(original: nat, compressed: nat): real
    requires original > 0
  {
    (1.0 - (compressed as real) / (original as real)) * 100.0
  }

  /** The reduction is the saved bytes as a percentage of the original,
      is at most 100, and is negative exactly when the output grew:
      nothing stops a negative reduction (100 bytes compressed to 150
      report -50%). */
  lemma {:induction false} ReductionMeaning(original: nat, compressed: nat)
    requires original > 0
    ensures Reduction(original, compressed) * (original as real) == 100.0 * ((original as real) - (compressed as real))
    ensures Reduction(original, compressed) < 0.0 <==> compressed > original
    ensures Reduction(original, compressed) == 0.0 <==> compressed == original
    ensures Reduction(original, compressed) <= 100.0
  {
    var o, c := original as real, compressed as real;
    assert (1.0 - c / o) * 100.0 * o == 100.0 * (o - c);
  }

  /** Whether a strategy gets past its first check: Ghostscript must be
      installed, PyMuPDF importable, and SmallPDF needs an API key. */
  predicate Available(s: Strategy, st: Settings, env: Env)
  {
    match s
    case Ghostscript => env.gsAvailable
    case PyMuPdf => env.pymupdfInstalled
    case SmallPdf => Truthy(st.apiKey)
  }

  function UnavailableReason(s: Strategy): string
  {
    match s
    case Ghostscript => "Ghostscript not available"
    case PyMuPdf => "PyMuPDF not installed (pip install PyMuPDF)"
    case SmallPdf => "SmallPDF API key not provided"
  }

  /** Whether strategy `s` gets as far as writing its output: the tool is
      there, the input exists and the tool produced a file. Every strategy
      writes before it divides by the input's size. */
  predicate Writes(s: Strategy, st: Settings, env: Env, fs: FileSystem, input: string)
  {
    Available(s, st, env) && input in fs && (s, input) in env.produced
  }

  /** One strategy on one file. It raises when the tool is unavailable,
      when the input is missing, when the tool itself fails, and when the
      input is empty (the reduction divides by its size). */
  function RunStrategy(s: Strategy, st: Settings, env: Env, fs: FileSystem, input: string, output: string): (a: Attempt)
    ensures a.Returned? <==> Writes(s, st, env, fs, input) && fs[input].size > 0
    ensures a.Returned? ==>
      a.result.success && a.result.outputPath == output &&
      a.result.methodName == StrategyName(s) &&
      a.result.originalSize == fs[input].size &&
      a.result.compressedSize == env.produced[(s, input)]
  {
    if !Available(s, st, env) then Raised(UnavailableReason(s))
    else if input !in fs then Raised("No such file: " + input)
    else if (s, input) !in env.produced then Raised(StrategyName(s) + " failed")
    else if fs[input].size == 0 then Raised("division by zero")
    else
      var original := fs[input].size;
      var compressed := env.produced[(s, input)];
      Returned(CompressionResult(
        true, output, original, compressed, Reduction(original, compressed), StrategyName(s),
        Some(if s == SmallPdf then "recommended" else PresetKey(st.preset)), None))
  }

  predicate Succeeded(a: Attempt)
  {
    a.Returned? && a.result.success
  }

  /** One strategy at a time on a fixed input and output. */
  function Runner(st: Settings, env: Env, fs: FileSystem, input: string, output: string): Strategy -> Attempt
  {
    s => RunStrategy(s, st, env, fs, input, output)
  }

  /** Trying `list` in order with `run`: the strategies attempted, and
      the result of the first one that succeeded, if any. */
  function Cascade(list: seq<Strategy>, run: Strategy -> Attempt): (r: (seq<Strategy>, Option<CompressionResult>))
  {
    if |list| == 0 then ([], None)
    else
      var a := run(list[0]);
      if Succeeded(a) then ([list[0]], Some(a.result))
      else
        var rest := Cascade(list[1..], run);
        ([list[0]] + rest.0, rest.1)
  }

  /** The cascade stops at the first success: the attempted strategies
      are a prefix of the list, every attempt before the last failed, the
      winner is the last one attempted, and without a winner every
      strategy was attempted and failed. */
  lemma {:induction false} CascadeFirstSuccess(list: seq<Strategy>, run: Strategy -> Attempt)
    ensures var (tried, winner) := Cascade(list, run);
      |tried| <= |list| && tried == list[..|tried|] &&
      (winner.Some? ==>
        |tried| > 0 && run(tried[|tried| - 1]) == Returned(winner.value) && winner.value.success) &&
      (winner.None? ==> tried == list) &&
      (forall j :: 0 <= j < |tried| - 1 ==> !Succeeded(run(tried[j]))) &&
      (winner.None? && |tried| > 0 ==> !Succeeded(run(tried[|tried| - 1])))
    decreases |list|
  {
    if |list| > 0 && !Succeeded(run(list[0])) {
      var rest := Cascade(list[1..], run);
      CascadeFirstSuccess(list[1..], run);
      var tried := [list[0]] + rest.0;
      assert forall j :: 1 <= j < |tried| ==> tried[j] == rest.0[j - 1];
      assert list == [list[0]] + list[1..];
    }
  }

  /** A strategy that succeeds after all earlier ones failed is the winner. */
  lemma {:induction false} CascadeFindsFirst(list: seq<Strategy>, run: Strategy -> Attempt, k: nat)
    requires k < |list| && Succeeded(run(list[k]))
    requires forall j :: 0 <= j < k ==> !Succeeded(run(list[j]))
    ensures Cascade(list, run) == (list[..k + 1], Some(run(list[k]).result))
    decreases k
  {
    if k > 0 {
      assert !Succeeded(run(list[0]));
      assert list[1..][k - 1] == list[k];
      assert forall j :: 0 <= j < k - 1 ==> list[1..][j] == list[j + 1];
      CascadeFindsFirst(list[1..], run, k - 1);
      var rest := Cascade(list[1..], run);
      assert Cascade(list, run) == ([list[0]] + rest.0, rest.1);
      assert [list[0]] + list[1..][..k] == list[..k + 1];
    } else {
      assert list[..1] == [list[0]];
    }
  }

  /** The default output path: the input's directory, with the file name
      prefixed by "compressed_". */
  function TempPath(input: string): string
  {
    Paths.Sibling(input, "compressed_")
  }

  lemma {:induction false} TempPathNames(input: string)
    ensures Paths.BaseName(TempPath(input)) == "compressed_" + Paths.BaseName(input)
    ensures Paths.DirPrefix(TempPath(input)) == Paths.DirPrefix(input)
  {
    Paths.SiblingNames(input, "compressed_");
  }

  /** Where a compression writes: the given output path unless it is
      empty or missing. */
  function OutputPathFor(input: string, output: Option<string>): string
  {
    if Truthy(output) then output.value else TempPath(input)
  }

  /** The pass-through result when every strategy failed. */
  function Fallback(input: string, size: nat): CompressionResult
  {
    CompressionResult(false, input, size, size, 0.0, "none", None, Some("All compression methods failed"))
  }

  /** `compress(input_path, output_path)`. It raises only when no strategy
      succeeds and the input is missing (reading its size fails). */
  function Compress(st: Settings, env: Env, fs: FileSystem, input: string, output: Option<string>): (r: Result<CompressionResult>)
    ensures r.Err? <==> input !in fs
    ensures r.Ok? && !r.value.success ==>
      r.value.outputPath == input && r.value.methodName == "none" &&
      r.value.originalSize == fs[input].size && r.value.compressedSize == fs[input].size &&
      r.value.reductionPercent == 0.0 && r.value.error == Some("All compression methods failed")
    ensures r.Ok? && r.value.success ==>
      r.value.outputPath == OutputPathFor(input, output) &&
      r.value.originalSize == fs[input].size && r.value.originalSize > 0 &&
      r.value.reductionPercent == Reduction(r.value.originalSize, r.value.compressedSize)
  {
    var out := OutputPathFor(input, output);
    var list := Strategies(st);
    var run := Runner(st, env, fs, input, out);
    CascadeFirstSuccess(list, run);
    var (_, winner) := Cascade(list, run);
    match winner
    case Some(res) => Ok(res)
    case None =>
      if input in fs then Ok(Fallback(input, fs[input].size))
      else Err("No such file: " + input)
  }

  /** The strategies `compress` attempts, in order. */
  function Attempted(st: Settings, env: Env, fs: FileSystem, input: string, output: Option<string>): seq<Strategy>
  {
    Cascade(Strategies(st), Runner(st, env, fs, input, OutputPathFor(input, output))).0
  }

  /** First success wins: if strategy `k` succeeds and all before it
      fail, `compress` returns its result and attempts nothing after it. */
  lemma {:induction false} CompressFirstSuccessWins(st: Settings, env: Env, fs: FileSystem, input: string, output: Option<string>, k: nat)
    requires k < |Strategies(st)|
    requires Succeeded(RunStrategy(Strategies(st)[k], st, env, fs, input, OutputPathFor(input, output)))
    requires forall j :: 0 <= j < k ==> !Succeeded(RunStrategy(Strategies(st)[j], st, env, fs, input, OutputPathFor(input, output)))
    ensures Compress(st, env, fs, input, output) == Ok(RunStrategy(Strategies(st)[k], st, env, fs, input, OutputPathFor(input, output)).result)
    ensures Attempted(st, env, fs, input, output) == Strategies(st)[..k + 1]
  {
    CascadeFindsFirst(Strategies(st), Runner(st, env, fs, input, OutputPathFor(input, output)), k);
  }

  /** The pass-through result comes only after every strategy was
      attempted and failed. */
  lemma {:induction false} CompressFallbackMeansAllFailed(st: Settings, env: Env, fs: FileSystem, input: string, output: Option<string>)
    requires Compress(st, env, fs, input, output).Ok? && !Compress(st, env, fs, input, output).value.success
    ensures Attempted(st, env, fs, input, output) == Strategies(st)
    ensures forall j :: 0 <= j < |Strategies(st)| ==>
      !Succeeded(RunStrategy(Strategies(st)[j], st, env, fs, input, OutputPathFor(input, output)))
  {
    CascadeFirstSuccess(Strategies(st), Runner(st, env, fs, input, OutputPathFor(input, output)));
  }

  /** A successful compression names one of the configured strategies;
      SmallPDF can only win when an API key is set. */
  lemma {:induction false} CompressMethodIsConfigured(st: Settings, env: Env, fs: FileSystem, input: string, output: Option<string>)
    requires Compress(st, env, fs, input, output).Ok? && Compress(st, env, fs, input, output).value.success
    ensures exists s :: s in Strategies(st) && Compress(st, env, fs, input, output).value.methodName == StrategyName(s)
    ensures Compress(st, env, fs, input, output).value.methodName == "smallpdf" ==> Truthy(st.apiKey)
  {
    var out := OutputPathFor(input, output);
    CascadeFirstSuccess(Strategies(st), Runner(st, env, fs, input, out));
    var (tried, winner) := Cascade(Strategies(st), Runner(st, env, fs, input, out));
    var s := tried[|tried| - 1];
    assert s in Strategies(st);
  }

  /** What a compression leaves on disk: nothing, or one file at a path. */
  type Write = Option<(string, Doc)>

  /** The file system with a write carried out. */
  function Apply(fs: FileSystem, w: Write): (fs': FileSystem)
    ensures fs.Keys <= fs'.Keys
    ensures w.Some? ==> w.value.0 in fs' && fs'[w.value.0] == w.value.1
    ensures forall p :: p in fs' ==> p in fs || (w.Some? && p == w.value.0)
    ensures forall p :: p in fs && (w.None? || p != w.value.0) ==> fs'[p] == fs[p]
  {
    if w.Some? then fs[w.value.0 := w.value.1] else fs
  }

  /** What the strategies `tried` leave at `output` after running in
      order: each one that writes replaces the file there with one of the
      input's pages and its own size, so the last writer decides. */
  function LastWrite(tried: seq<Strategy>, st: Settings, env: Env, fs: FileSystem, input: string, output: string)
    : (w: Write)
    ensures w.Some? <==> exists j :: 0 <= j < |tried| && Writes(tried[j], st, env, fs, input)
    ensures w.Some? ==> w.value.0 == output && w.value.1.pages == fs[input].pages
    ensures |tried| > 0 && Writes(tried[|tried| - 1], st, env, fs, input) ==>
      w == Some((output, Doc(fs[input].pages, env.produced[(tried[|tried| - 1], input)])))
    decreases |tried|
  {
    if |tried| == 0 then None
    else
      var last := tried[|tried| - 1];
      var before := tried[..|tried| - 1];
      assert forall j :: 0 <= j < |before| ==> before[j] == tried[j];
      if Writes(last, st, env, fs, input) then Some((output, Doc(fs[input].pages, env.produced[(last, input)])))
      else LastWrite(before, st, env, fs, input, output)
  }

  /** The file `compress` leaves behind: the output of the last strategy
      it attempted that got as far as writing. A success leaves the
      compressed file; a pass-through leaves nothing unless a strategy
      wrote before it raised (an empty input divides by zero after the
      write). */
  function CompressWrite(st: Settings, env: Env, fs: FileSystem, input: string, output: Option<string>): (w: Write)
    ensures input !in fs ==> w.None?
    ensures w.Some? <==> exists s :: s in Attempted(st, env, fs, input, output) && Writes(s, st, env, fs, input)
    ensures w.Some? ==> w.value.0 == OutputPathFor(input, output) && w.value.1.pages == fs[input].pages
    ensures Compress(st, env, fs, input, output).Ok? && Compress(st, env, fs, input, output).value.success ==>
      var res := Compress(st, env, fs, input, output).value;
      w == Some((res.outputPath, Doc(fs[input].pages, res.compressedSize)))
  {
    var out := OutputPathFor(input, output);
    var run := Runner(st, env, fs, input, out);
    CascadeFirstSuccess(Strategies(st), run);
    var tried := Attempted(st, env, fs, input, output);
    assert forall j :: 0 <= j < |tried| ==> tried[j] in tried;
    LastWrite(tried, st, env, fs, input, out)
  }

  /** The file system after `compress`: only its output path can change,
      and a success leaves the compressed file there. */
  function AfterCompress(st: Settings, env: Env, fs: FileSystem, input: string, output: Option<string>): (fs': FileSystem)
    ensures fs.Keys <= fs'.Keys
    ensures forall p :: p in fs' ==> p in fs || p == OutputPathFor(input, output)
    ensures forall p :: p in fs && p != OutputPathFor(input, output) ==> fs'[p] == fs[p]
    ensures Compress(st, env, fs, input, output).Ok? && Compress(st, env, fs, input, output).value.success ==>
      var res := Compress(st, env, fs, input, output).value;
      res.outputPath in fs' && fs'[res.outputPath] == Doc(fs[input].pages, res.compressedSize)
  {
    Apply(fs, CompressWrite(st, env, fs, input, output))
  }

  /** An empty input makes every strategy that writes raise afterwards:
      `compress` passes the input through, yet the output Ghostscript
      wrote stays behind. */
  lemma {:induction false} EmptyInputLeavesOutput(st: Settings, env: Env, fs: FileSystem, input: string, output: Option<string>)
    requires input in fs && fs[input].size == 0
    requires Writes(Ghostscript, st, env, fs, input)
    ensures Compress(st, env, fs, input, output) == Ok(Fallback(input, 0))
    ensures CompressWrite(st, env, fs, input, output).Some?
    ensures OutputPathFor(input, output) in AfterCompress(st, env, fs, input, output)
    ensures AfterCompress(st, env, fs, input, output)[OutputPathFor(input, output)].pages == fs[input].pages
  {
    var out := OutputPathFor(input, output);
    var run := Runner(st, env, fs, input, out);
    CascadeFirstSuccess(Strategies(st), run);
    var (tried, winner) := Cascade(Strategies(st), run);
    assert Strategies(st)[0] == Ghostscript;
    assert Ghostscript in tried;
  }

  /** The progress reports for `paths`, one per path, numbered from 1. */
  function Reports(paths: seq<string>, total: nat): (r: seq<Progress>)
    ensures |r| == |paths|
    ensures forall i :: 0 <= i < |paths| ==> r[i] == Progress(i + 1, total, Paths.BaseName(paths[i]))
  {
    seq(|paths|, i requires 0 <= i < |paths| => Progress(i + 1, total, Paths.BaseName(paths[i])))
  }

  /** One compression run against the file system as it stands: its
      result and the file it leaves behind. */
  type CompressCall = (FileSystem, string) -> (Result<CompressionResult>, Write)

  /** A run that, like `compress`, fails exactly on missing files. */
  ghost predicate FailsOnlyOnMissing(compress: CompressCall)
  {
    forall fs: FileSystem, p: string :: compress(fs, p).0.Err? <==> p !in fs
  }

  /** A run that, like `compress`, leaves its output after a success. */
  ghost predicate LeavesItsOutput(compress: CompressCall)
  {
    forall fs: FileSystem, p: string :: compress(fs, p).0.Ok? && compress(fs, p).0.value.success ==>
      compress(fs, p).1.Some? && compress(fs, p).1.value.0 == compress(fs, p).0.value.outputPath
  }

  /** `compress` with the default output path. */
  function CompressDefault(st: Settings, env: Env): (compress: CompressCall)
    ensures FailsOnlyOnMissing(compress) && LeavesItsOutput(compress)
  {
    (fs, p) => (Compress(st, env, fs, p, None), CompressWrite(st, env, fs, p, None))
  }

  /** The outcome of a batch that already collected `done` before running
      into `rest`, the outcome of the remaining paths. */
  function After(done: seq<CompressionResult>, rest: (Result<seq<CompressionResult>>, nat)): (Result<seq<CompressionResult>>, nat)
  {
    (if rest.0.Ok? then Ok(done + rest.0.value) else rest.0, |done| + rest.1)
  }

  lemma {:induction false} AfterAfter(done: seq<CompressionResult>, res: CompressionResult, rest: (Result<seq<CompressionResult>>, nat))
    ensures After(done, After([res], rest)) == After(done + [res], rest)
  {
    if rest.0.Ok? {
      assert done + ([res] + rest.0.value) == (done + [res]) + rest.0.value;
    }
  }

  /** Reference definition of a batch: compress the first path against the
      current file system, let a success write its output, and go on with
      the rest against the updated file system. A missing file ends the
      batch with its error. The second component counts the attempts. */
  function Batch(compress: CompressCall, fs: FileSystem, paths: seq<string>)
    : (r: (Result<seq<CompressionResult>>, nat))
    requires FailsOnlyOnMissing(compress)
    ensures r.1 <= |paths|
    ensures r.0.Ok? ==> r.1 == |paths| && |r.0.value| == |paths|
    ensures r.0.Err? ==> r.1 > 0 && paths[r.1 - 1] !in fs
    ensures (forall i :: 0 <= i < |paths| ==> paths[i] in fs) ==> r.0.Ok?
    decreases |paths|
  {
    if |paths| == 0 then (Ok([]), 0)
    else
      var (r, w) := compress(fs, paths[0]);
      match r
      case Err(e) => (Err(e), 1)
      case Ok(res) => After([res], Batch(compress, Apply(fs, w), paths[1..]))
  }

  /** The first path is compressed against the file system the batch
      starts from. */
  lemma {:induction false} BatchHead(compress: CompressCall, fs: FileSystem, paths: seq<string>)
    requires FailsOnlyOnMissing(compress)
    requires |paths| > 0 && Batch(compress, fs, paths).0.Ok?
    ensures compress(fs, paths[0]).0 == Ok(Batch(compress, fs, paths).0.value[0])
  {
  }

  /** A later path sees the files the earlier ones wrote: when `p`
      compresses successfully to `q`, the batch `[p, q]` compresses both,
      whether or not `q` existed before. */
  lemma {:induction false} BatchSeesOwnOutput(compress: CompressCall, fs: FileSystem, p: string)
    requires FailsOnlyOnMissing(compress) && LeavesItsOutput(compress)
    requires compress(fs, p).0.Ok? && compress(fs, p).0.value.success
    ensures var (r, w) := compress(fs, p);
      var q := r.value.outputPath;
      Batch(compress, fs, [p, q]).0 == Ok([r.value, compress(Apply(fs, w), q).0.value])
  {
    var (r, w) := compress(fs, p);
    var fs1 := Apply(fs, w);
    var q := r.value.outputPath;
    assert [p, q][1..] == [q];
    assert q in fs1;
    var (r2, w2) := compress(fs1, q);
    assert [q][1..] == [];
    assert Batch(compress, Apply(fs1, w2), []).0 == Ok([]);
    assert [r2.value] + [] == [r2.value];
    assert Batch(compress, fs1, [q]).0 == Ok([r2.value]);
    assert Batch(compress, fs, [p, q]) == After([r.value], Batch(compress, fs1, [q]));
    assert [r.value] + [r2.value] == [r.value, r2.value];
  }

  /** The output an empty file leaves behind is there for the rest of the
      batch: after an empty `p` whose Ghostscript run wrote
      `compressed_<name>`, a later path of that name is found, although
      `p` itself was only passed through. */
  lemma {:induction false} BatchSeesStrayOutput(st: Settings, env: Env, fs: FileSystem, p: string)
    requires p in fs && fs[p].size == 0
    requires Writes(Ghostscript, st, env, fs, p)
    ensures Batch(CompressDefault(st, env), fs, [p, TempPath(p)]).0.Ok?
    ensures Batch(CompressDefault(st, env), fs, [p, TempPath(p)]).0.value[0] == Fallback(p, 0)
  {
    var compress := CompressDefault(st, env);
    EmptyInputLeavesOutput(st, env, fs, p, None);
    var (r, w) := compress(fs, p);
    var fs1 := Apply(fs, w);
    assert r == Ok(Fallback(p, 0));
    assert TempPath(p) in fs1;
    assert [p, TempPath(p)][1..] == [TempPath(p)];
    assert Batch(compress, fs1, [TempPath(p)]).0.Ok?;
  }

  /** One step of a batch whose first path compresses: its result comes
      first, and the rest runs against what it left on disk. */
  lemma {:induction false} BatchStep(compress: CompressCall, fs: FileSystem, paths: seq<string>)
    requires FailsOnlyOnMissing(compress)
    requires |paths| > 0 && compress(fs, paths[0]).0.Ok?
    ensures Batch(compress, fs, paths) ==
      After([compress(fs, paths[0]).0.value], Batch(compress, Apply(fs, compress(fs, paths[0]).1), paths[1..]))
  {
  }

  /** Compress each path in order against the file system the earlier
      compressions left, until one is missing: the results, or the error
      of the first missing path, and how many paths were attempted. */
  method CompressEach(compress: CompressCall, fs: FileSystem, paths: seq<string>)
    returns (out: Result<seq<CompressionResult>>, attempted: nat)
    requires FailsOnlyOnMissing(compress)
    ensures (out, attempted) == Batch(compress, fs, paths)
  {
    var results: seq<CompressionResult> := [];
    var cur := fs;
    var i := 0;
    assert paths[0..] == paths;
    var whole := Batch(compress, fs, paths);
    assert whole.0.Ok? ==> [] + whole.0.value == whole.0.value;
    while i < |paths|
      invariant 0 <= i <= |paths| && |results| == i
      invariant Batch(compress, fs, paths) == After(results, Batch(compress, cur, paths[i..]))
    {
      var (r, w) := compress(cur, paths[i]);
      var next := Apply(cur, w);
      assert paths[i..][0] == paths[i] && paths[i..][1..] == paths[i + 1..];
      if r.Err? {
        return Err(r.msg), i + 1;
      }
      BatchStep(compress, cur, paths[i..]);
      AfterAfter(results, r.value, Batch(compress, next, paths[i + 1..]));
      cur := next;
      results := results + [r.value];
      i := i + 1;
    }
    assert paths[i..] == [] && results + [] == results;
    return Ok(results), i;
  }

  /** `compress_pdf_batch`: compress each path in order, reporting
      progress before each one. Each compression sees the files the
      earlier ones wrote. A missing file makes `compress` raise, which
      ends the batch with that error, after its own report. */
  method CompressBatch(st: Settings, env: Env, fs: FileSystem, paths: seq<string>, reportProgress: bool)
    returns (out: Result<seq<CompressionResult>>, progress: seq<Progress>)
    ensures out == Batch(CompressDefault(st, env), fs, paths).0
    ensures out.Ok? ==> |out.value| == |paths|
    ensures (forall i :: 0 <= i < |paths| ==> paths[i] in fs) ==> out.Ok?
    ensures reportProgress ==> |progress| <= |paths| && progress == Reports(paths[..|progress|], |paths|)
    ensures reportProgress && out.Ok? ==> |progress| == |paths|
    ensures reportProgress && out.Err? ==> |progress| > 0 && paths[|progress| - 1] !in fs
    ensures !reportProgress ==> progress == []
  {
    var attempted;
    var compress := CompressDefault(st, env);
    out, attempted := CompressEach(compress, fs, paths);
    if reportProgress {
      progress := Reports(paths[..attempted], |paths|);
      assert |progress| == attempted && paths[..|progress|] == paths[..attempted];
    } else {
      progress := [];
    }
  }
}

=== FILE: decimal.dfy ===
/** Python's `str(n)` for a non-negative integer, and its inverse.
    The inverse is not called by the program; it is the partner that shows
    the rendering loses nothing, so distinct numbers get distinct text. */
module Decimal {
  import opened Outcomes

  predicate IsDigit(c: char)
  {
    '0' <= c <= '9'
  }

  function DigitChar(d: nat): (c: char)
    requires d < 10
    ensures IsDigit(c) && (c as int) - ('0' as int) == d
  {
    ('0' as int + d) as char
  }

  function DigitValue(c: char): nat
    requires IsDigit(c)
  {
    (c as int) - ('0' as int)
  }

  /** `str(n)`: shortest decimal form, most significant digit first. */
  function NatToString(n: nat): (r: string)
    ensures 1 <= |r|
    ensures forall i :: 0 <= i < |r| ==> IsDigit(r[i])
    ensures 1 < |r| ==> r[0] != '0'
    ensures n < 10 <==> |r| == 1
  {
    if n < 10 then [DigitChar(n)]
    else NatToString(n / 10) + [DigitChar(n % 10)]
  }

  /** Value of a string of digits read most significant first. */
  function DigitsValue(s: string): nat
    requires forall i :: 0 <= i < |s| ==> IsDigit(s[i])
  {
    if |s| == 0 then 0
    else DigitsValue(s[..|s| - 1]) * 10 + DigitValue(s[|s| - 1])
  }

  /** `int(s)` restricted to plain non-empty digit strings. */
  function ParseNat(s: string): Option<nat>
  {
    if 1 <= |s| && forall i :: 0 <= i < |s| ==> IsDigit(s[i])
    then Some(DigitsValue(s))
    else None
  }

  /** Reading the rendering back gives the number. */
  lemma {:induction false} ParseNatToString(n: nat)
    ensures ParseNat(NatToString(n)) == Some(n)
  {
    var r := NatToString(n);
    if n < 10 {
      assert DigitsValue(r) == DigitsValue(r[..0]) * 10 + DigitValue(r[0]);
    } else {
      ParseNatToString(n / 10);
      assert r[..|r| - 1] == NatToString(n / 10);
      assert DigitsValue(r) == DigitsValue(NatToString(n / 10)) * 10 + n % 10;
    }
  }

  /** Distinct numbers render as distinct strings. */
  lemma {:induction false} NatToStringInjective(a: nat, b: nat)
    requires NatToString(a) == NatToString(b)
    ensures a == b
  {
    ParseNatToString(a);
    ParseNatToString(b);
  }
}

=== FILE: documents.dfy ===
/** Abstract documents. A PDF is a sequence of pages plus a byte size;
    a page is its original content (an opaque number) with the text
    overlays stamped onto it. The file system maps paths to documents;
    a path that is absent does not exist. */
module Documents {

  /** Text drawn over a page: the "Exhibit X" header and the
      "Page k of n" footer. */
  datatype Overlay = Overlay(header: string, footer: string)

  datatype Page = Page(content: nat, overlays: seq<Overlay>)

  datatype Doc = Doc(pages: seq<Page>, size: nat)

  type FileSystem = map<string, Doc>

  /** Total number of pages of the documents at `paths` that exist. */
  function PagesOf(fs: FileSystem, paths: seq<string>): nat
  {
    if |paths| == 0 then 0
    else (if paths[0] in fs then |fs[paths[0]].pages| else 0) + PagesOf(fs, paths[1..])
  }
}

=== FILE: drive_links.dfy ===
/** Turning a Google Drive share link into a direct download URL: the
    file id is cut out of the link by the first of four patterns that
    occurs, the file's page is fetched to look for an embedded download
    URL, and every failure on the way falls back to the standard
    `uc?export=download` URL. The page fetch and the pattern search in its
    HTML are an oracle (`PageFetch`). */
module DriveLinks {
  import opened Outcomes
  import opened PyStr

  /** The link shapes, in the order they are tried. */
  datatype IdPattern = FilePath | OpenQuery | PreviewQuery | IdQuery

  function Marker(p: IdPattern): (r: string)
    ensures r != ""
  {
    match p
    case FilePath => "/file/d/"
    case OpenQuery => "/open?id="
    case PreviewQuery => "/preview?id="
    case IdQuery => "id="
  }

  /** The first pattern, in priority order, whose marker occurs in `url`. */
  function PatternOf(url: string): (r: Option<IdPattern>)
    ensures r.Some? ==> Contains(url, Marker(r.value))
    ensures r != Some(FilePath) ==> !Contains(url, "/file/d/")
    ensures r.Some? && r.value.IdQuery? ==> !Contains(url, "/open?id=") && !Contains(url, "/preview?id=")
    ensures r == Some(PreviewQuery) ==> !Contains(url, "/open?id=")
    ensures r.None? ==> !Contains(url, "id=")
  {
    if Contains(url, "/file/d/") then Some(FilePath)
    else if Contains(url, "/open?id=") then Some(OpenQuery)
    else if Contains(url, "/preview?id=") then Some(PreviewQuery)
    else if Contains(url, "id=") then Some(IdQuery)
    else None
  }

  /** The query markers all end in "id=", so a link matches some pattern
      exactly when it contains "/file/d/" or "id=". */
  lemma {:induction false} PatternIffMarker(url: string)
    ensures PatternOf(url).Some? <==> Contains(url, "/file/d/") || Contains(url, "id=")
  {
    if Contains(url, "/open?id=") {
      assert "/open?" + "id=" == "/open?id=";
      ContainsTail(url, "/open?", "id=");
    }
    if Contains(url, "/preview?id=") {
      assert "/preview?" + "id=" == "/preview?id=";
      ContainsTail(url, "/preview?", "id=");
    }
  }

  /** The id cut from the text after the first marker: up to the first
      '/' and then '?' for file paths, up to the first '&' for the query
      forms, and additionally up to the first '#' for a bare "id=". */
  function IdAfter(url: string, p: IdPattern): (id: string)
    requires Contains(url, Marker(p))
  {
    var after := Second(url, Marker(p));
    match p
    case FilePath => First(First(after, "/"), "?")
    case OpenQuery => First(after, "&")
    case PreviewQuery => First(after, "&")
    case IdQuery => First(First(after, "&"), "#")
  }

  /** The characters at which the id of each pattern is cut. */
  function Delimiters(p: IdPattern): set<char>
  {
    match p
    case FilePath => {'/', '?'}
    case OpenQuery => {'&'}
    case PreviewQuery => {'&'}
    case IdQuery => {'&', '#'}
  }

  /** The id stands right after its marker in the link, holds none of its
      delimiters, and is either all of the text up to the next marker or
      stops right before one of its delimiters. */
  lemma {:induction false} IdFollowsMarker(url: string, p: IdPattern)
    requires Contains(url, Marker(p))
    ensures OccursAt(url, Marker(p) + IdAfter(url, p), Find(url, Marker(p)).value)
    ensures p.FilePath? ==> !Contains(IdAfter(url, p), "/") && !Contains(IdAfter(url, p), "?")
    ensures !p.FilePath? ==> !Contains(IdAfter(url, p), "&")
    ensures p.IdQuery? ==> !Contains(IdAfter(url, p), "#")
    ensures StartsWith(Second(url, Marker(p)), IdAfter(url, p))
    ensures |IdAfter(url, p)| < |Second(url, Marker(p))| ==>
      Second(url, Marker(p))[|IdAfter(url, p)|] in Delimiters(p)
  {
    var m := Marker(p);
    var after := Second(url, m);
    var id := IdAfter(url, p);
    SecondFollowsSep(url, m);
    match p
    case FilePath =>
      var a := First(after, "/");
      StartsWithTrans(after, a, id);
      PrefixKeepsFree(a, id, "/");
      FirstStopsAt(after, '/');
      FirstStopsAt(a, '?');
      OccursShorter(url, m, after, id, Find(url, m).value);
    case OpenQuery =>
      FirstStopsAt(after, '&');
      OccursShorter(url, m, after, id, Find(url, m).value);
    case PreviewQuery =>
      FirstStopsAt(after, '&');
      OccursShorter(url, m, after, id, Find(url, m).value);
    case IdQuery =>
      var a := First(after, "&");
      StartsWithTrans(after, a, id);
      PrefixKeepsFree(a, id, "&");
      FirstStopsAt(after, '&');
      FirstStopsAt(a, '#');
      OccursShorter(url, m, after, id, Find(url, m).value);
  }

  /** The id read first, by the pattern of highest priority. */
  function PrimaryId(url: string): (r: Option<string>)
    ensures r.Some? <==> PatternOf(url).Some?
  {
    match PatternOf(url)
    case None => None
    case Some(p) => Some(IdAfter(url, p))
  }

  /** The id read again after a failure: only the "/file/d/" and the bare
      "id=" patterns are tried, and an empty id is accepted. */
  function FallbackId(url: string): (r: Option<string>)
    ensures r.Some? <==> Contains(url, "/file/d/") || Contains(url, "id=")
  {
    if Contains(url, "/file/d/") then Some(IdAfter(url, FilePath))
    else if Contains(url, "id=") then Some(IdAfter(url, IdQuery))
    else None
  }

  const DriveHost: string := "https://drive.google.com"

  /** The standard direct download URL of a file id. */
  function UcUrl(id: string): (r: string)
    ensures StartsWith(r, "http") && EndsWith(r, "&id=" + id)
  {
    var r := DriveHost + "/uc?export=download&id=" + id;
    assert r[|r| - |"&id=" + id|..] == "&id=" + id;
    r
  }

  /** What fetching the file's page yields: the page was reachable (via
      the view or the open URL) and held a download URL, or none; or
      neither URL answered. */
  datatype PageFetch = Fetched(downloadUrl: Option<string>) | Unreachable

  /** Make a found download URL absolute; an empty or unusable one is
      replaced by the standard URL. */
  function Absolute(found: Option<string>, id: string): (r: string)
    ensures StartsWith(r, "http")
    ensures !Truthy(found) ==> r == UcUrl(id)
    ensures Truthy(found) && StartsWith(found.value, "http") ==> r == found.value
    ensures Truthy(found) && !StartsWith(found.value, "http") && StartsWith(found.value, "/") ==>
      EndsWith(r, found.value)
  {
    if !Truthy(found) then UcUrl(id)
    else
      var u := found.value;
      if StartsWith(u, "http") then u
      else if StartsWith(u, "//") then
        var r := "https:" + u;
        assert r[..4] == "http";
        assert r[|r| - |u|..] == u;
        r
      else if StartsWith(u, "/") then
        var r := DriveHost + u;
        assert r[..4] == "http";
        assert r[|r| - |u|..] == u;
        r
      else UcUrl(id)
  }

  /** `extract_drive_download_url`. */
  function ExtractDownloadUrl(url: string, fetch: PageFetch): (r: Result<string>)
    ensures r.Ok? ==> StartsWith(r.value, "http")
  {
    var primary := PrimaryId(url);
    if primary.Some? && primary.value != "" && fetch.Fetched? then
      Ok(Absolute(fetch.downloadUrl, primary.value))
    else
      match FallbackId(url)
      case None => Err("Error extracting download URL")
      case Some(id) => Ok(UcUrl(id))
  }

  /** A link yields a URL exactly when it contains "/file/d/" or "id=";
      no other link shape is understood. */
  lemma {:induction false} ExtractFailsIffNoMarker(url: string, fetch: PageFetch)
    ensures ExtractDownloadUrl(url, fetch).Err? <==> !Contains(url, "/file/d/") && !Contains(url, "id=")
  {
    PatternIffMarker(url);
  }

  /** When the page is reachable and the first pattern gives a non-empty
      id, that id is used; a page without a download URL gives the
      standard URL for it. */
  lemma {:induction false} ExtractUsesFirstPattern(url: string, p: IdPattern)
    requires PatternOf(url) == Some(p) && IdAfter(url, p) != ""
    ensures ExtractDownloadUrl(url, Fetched(None)) == Ok(UcUrl(IdAfter(url, p)))
    ensures forall u :: ExtractDownloadUrl(url, Fetched(Some(u))) == Ok(Absolute(Some(u), IdAfter(url, p)))
  {
  }

  /** An unreachable page still yields the standard URL, for the id of the
      "/file/d/" or bare "id=" pattern. */
  lemma {:induction false} UnreachableFallsBack(url: string)
    requires Contains(url, "/file/d/") || Contains(url, "id=")
    ensures ExtractDownloadUrl(url, Unreachable) == Ok(UcUrl(FallbackId(url).value))
  {
  }
}

=== FILE: exhibit_list.dfy ===
/** The list of numbered exhibits shown on the results page, and the
    up/down reordering that swaps two neighbours and then re-derives every
    label from its new position. */
module ExhibitList {
  import opened Outcomes
  import opened Labels

  /** Compression details kept for an exhibit: reduction in percent and
      the name of the strategy that produced it. */
  datatype CompressionInfo = CompressionInfo(reduction: real, methodName: string)

  /** One entry of the exhibit list (`exhibit_info` in the drivers). */
  datatype ExhibitInfo = ExhibitInfo(
    number: string,
    title: string,
    filename: string,
    pages: nat,
    compression: Option<CompressionInfo>)

  /** Every entry carries the label of its position. */
  predicate Labelled(list: seq<ExhibitInfo>, style: Style)
    requires Labelable(style, |list|)
  {
    forall i :: 0 <= i < |list| ==> list[i].number == Label(style, i)
  }

  /** The entry without its label: what a move must carry along. */
  function Content(e: ExhibitInfo): ExhibitInfo
  {
    e.(number := "")
  }

  /** Re-derive every label from its position, leaving all else alone. */
  function Relabel(list: seq<ExhibitInfo>, style: Style): (r: seq<ExhibitInfo>)
    requires Labelable(style, |list|)
    ensures |r| == |list| && Labelled(r, style)
    ensures forall i :: 0 <= i < |list| ==> Content(r[i]) == Content(list[i])
  {
    seq(|list|, i requires 0 <= i < |list| => list[i].(number := Label(style, i)))
  }

  /** Relabelling an already labelled list changes nothing. */
  lemma {:induction false} RelabelLabelled(list: seq<ExhibitInfo>, style: Style)
    requires Labelable(style, |list|) && Labelled(list, style)
    ensures Relabel(list, style) == list
  {
    var r := Relabel(list, style);
    forall i | 0 <= i < |list|
      ensures r[i] == list[i]
    {
      assert r[i].number == list[i].number;
      assert Content(r[i]) == Content(list[i]);
    }
  }

  /** Two lists with the same contents in the same order relabel alike. */
  lemma {:induction false} RelabelOnlyNeedsContent(a: seq<ExhibitInfo>, b: seq<ExhibitInfo>, style: Style)
    requires |a| == |b| && Labelable(style, |a|)
    requires forall i :: 0 <= i < |a| ==> Content(a[i]) == Content(b[i])
    ensures Relabel(a, style) == Relabel(b, style)
  {
    var ra, rb := Relabel(a, style), Relabel(b, style);
    forall i | 0 <= i < |a|
      ensures ra[i] == rb[i]
    {
      assert Content(ra[i]) == Content(rb[i]);
    }
  }

  /** Exchange the entries at positions `a` and `b`. */
  function Swap<T>(s: seq<T>, a: nat, b: nat): (r: seq<T>)
    requires a < |s| && b < |s|
    ensures |r| == |s| && r[a] == s[b] && r[b] == s[a]
    ensures forall j :: 0 <= j < |s| && j != a && j != b ==> r[j] == s[j]
    ensures multiset(r) == multiset(s)
  {
    s[a := s[b]][b := s[a]]
  }

  /** The "up" button is disabled for the first entry. */
  predicate CanMoveUp(k: nat, total: nat)
  {
    k < total && k != 0
  }

  /** The "down" button is disabled for the last entry. */
  predicate CanMoveDown(k: nat, total: nat)
  {
    k < total && k != total - 1
  }

  /** Swap the entry at `k` with the one above it, then relabel all. */
  function MoveUp(list: seq<ExhibitInfo>, k: nat, style: Style): (r: seq<ExhibitInfo>)
    requires CanMoveUp(k, |list|) && Labelable(style, |list|)
    ensures |r| == |list| && Labelled(r, style)
    ensures Content(r[k - 1]) == Content(list[k]) && Content(r[k]) == Content(list[k - 1])
    ensures forall j :: 0 <= j < |list| && j != k && j != k - 1 ==> Content(r[j]) == Content(list[j])
  {
    Relabel(Swap(list, k, k - 1), style)
  }

  /** Swap the entry at `k` with the one below it, then relabel all. */
  function MoveDown(list: seq<ExhibitInfo>, k: nat, style: Style): (r: seq<ExhibitInfo>)
    requires CanMoveDown(k, |list|) && Labelable(style, |list|)
    ensures |r| == |list| && Labelled(r, style)
    ensures Content(r[k + 1]) == Content(list[k]) && Content(r[k]) == Content(list[k + 1])
    ensures forall j :: 0 <= j < |list| && j != k && j != k + 1 ==> Content(r[j]) == Content(list[j])
  {
    Relabel(Swap(list, k, k + 1), style)
  }

  /** After a move the labels are exactly a fresh labelling of the new order. */
  lemma {:induction false} MoveLabelsAreFresh(list: seq<ExhibitInfo>, k: nat, style: Style)
    requires CanMoveUp(k, |list|) && Labelable(style, |list|)
    ensures forall i :: 0 <= i < |list| ==> MoveUp(list, k, style)[i].number == LabelsFor(style, |list|)[i]
  {
  }

  /** Moving an entry up and then down again restores the order; only the
      labels are refreshed. */
  lemma {:induction false} MoveDownUndoesMoveUp(list: seq<ExhibitInfo>, k: nat, style: Style)
    requires CanMoveUp(k, |list|) && Labelable(style, |list|)
    ensures CanMoveDown(k - 1, |list|)
    ensures MoveDown(MoveUp(list, k, style), k - 1, style) == Relabel(list, style)
  {
    var up := MoveUp(list, k, style);
    var back := Swap(up, k - 1, k);
    forall j | 0 <= j < |list|
      ensures Content(back[j]) == Content(list[j])
    {
      if j == k {
        assert back[k] == up[k - 1];
      } else if j == k - 1 {
        assert back[k - 1] == up[k];
      } else {
        assert back[j] == up[j];
      }
    }
    RelabelOnlyNeedsContent(back, list, style);
  }

  /** Moving an entry down and then up again restores the order. */
  lemma {:induction false} MoveUpUndoesMoveDown(list: seq<ExhibitInfo>, k: nat, style: Style)
    requires CanMoveDown(k, |list|) && Labelable(style, |list|)
    ensures CanMoveUp(k + 1, |list|)
    ensures MoveUp(MoveDown(list, k, style), k + 1, style) == Relabel(list, style)
  {
    var down := MoveDown(list, k, style);
    var back := Swap(down, k + 1, k);
    forall j | 0 <= j < |list|
      ensures Content(back[j]) == Content(list[j])
    {
      if j == k {
        assert back[k] == down[k + 1];
      } else if j == k + 1 {
        assert back[k + 1] == down[k];
      } else {
        assert back[j] == down[j];
      }
    }
    RelabelOnlyNeedsContent(back, list, style);
  }

  /** A move neither loses nor duplicates an exhibit. */
  lemma {:induction false} MoveKeepsExhibits(list: seq<ExhibitInfo>, k: nat, style: Style)
    requires CanMoveUp(k, |list|) && Labelable(style, |list|)
    ensures multiset(Contents(MoveUp(list, k, style))) == multiset(Contents(list))
  {
    var r := MoveUp(list, k, style);
    var sw := Swap(Contents(list), k, k - 1);
    forall j | 0 <= j < |list|
      ensures Contents(r)[j] == sw[j]
    {
      if j == k {
        assert Content(r[k]) == Content(list[k - 1]);
      } else if j == k - 1 {
        assert Content(r[k - 1]) == Content(list[k]);
      } else {
        assert Content(r[j]) == Content(list[j]);
      }
    }
    assert Contents(r) == sw;
  }

  /** The entries of a list without their labels. */
  function Contents(list: seq<ExhibitInfo>): (r: seq<ExhibitInfo>)
    ensures |r| == |list| && forall i :: 0 <= i < |list| ==> r[i] == Content(list[i])
  {
    seq(|list|, i requires 0 <= i < |list| => Content(list[i]))
  }
}

=== FILE: exhibit_processor.dfy ===
/** The exhibit processor: a list of exhibit sources (files or URLs),
    and the processing step that gives every source a letter and turns it
    into a generated exhibit, with the package statistics. */
module ExhibitProcessor {
  import opened Outcomes
  import Paths
  import PyStr
  import Decimal
  import Labels

  /** Where an exhibit comes from. */
  datatype ExhibitSource = ExhibitSource(
    url: Option<string>,
    title: string,
    description: Option<string>,
    archived: bool,
    archiveUrl: Option<string>,
    filePath: Option<string>)

  datatype GeneratedExhibit = GeneratedExhibit(
    exhibitLetter: string,
    originalUrl: Option<string>,
    archiveUrl: Option<string>,
    pdfUrl: Option<string>,
    pdfPath: Option<string>,
    title: string,
    success: bool,
    error: Option<string>)

  datatype ExhibitPackage = ExhibitPackage(
    caseId: string,
    exhibits: seq<GeneratedExhibit>,
    tableOfContentsPath: Option<string>,
    combinedPdfPath: Option<string>,
    totalExhibits: nat,
    successfulExhibits: nat,
    failedExhibits: nat,
    generatedAt: string)

  /** The processor's state: its sources, in the order they were added. */
  datatype Processor = Processor(exhibits: seq<ExhibitSource>)

  const Empty: Processor := Processor([])

  /** `add_exhibit_from_file`: one source is appended; an empty title
      defaults to the file's base name. */
  function AddFromFile(p: Processor, filePath: string, title: string): (r: Processor)
    ensures |r.exhibits| == |p.exhibits| + 1 && r.exhibits[..|p.exhibits|] == p.exhibits
    ensures var s := r.exhibits[|p.exhibits|];
      s.filePath == Some(filePath) && s.url.None? && s.archiveUrl.None? && !s.archived &&
      (title != "" ==> s.title == title) &&
      (title == "" ==> s.title == Paths.BaseName(filePath))
  {
    var t := if title != "" then title else Paths.BaseName(filePath);
    Processor(p.exhibits + [ExhibitSource(None, t, None, false, None, Some(filePath))])
  }

  /** The default title of a URL exhibit: its last '/'-separated segment,
      or "webpage" when that is empty. */
  function UrlTitle(url: string): (t: string)
    ensures t != ""
    ensures t != "webpage" ==> PyStr.EndsWith(url, t) && !PyStr.Contains(t, "/")
    ensures !PyStr.Contains(url, "/") && url != "" ==> t == url
  {
    var last := PyStr.Last(url, "/");
    if last != "" then last else "webpage"
  }

  /** `add_exhibit_from_url`: one source is appended, never with an empty
      title. */
  function AddFromUrl(p: Processor, url: string, title: string): (r: Processor)
    ensures |r.exhibits| == |p.exhibits| + 1 && r.exhibits[..|p.exhibits|] == p.exhibits
    ensures var s := r.exhibits[|p.exhibits|];
      s.url == Some(url) && s.filePath.None? && s.archiveUrl.None? && s.title != "" &&
      (title != "" ==> s.title == title) &&
      (title == "" ==> s.title == UrlTitle(url))
  {
    var t := if title != "" then title else UrlTitle(url);
    Processor(p.exhibits + [ExhibitSource(Some(url), t, None, false, None, None)])
  }

  /** `clear_exhibits`. */
  function Clear(p: Processor): (r: Processor)
    ensures ExhibitCount(r) == 0
  {
    Empty
  }

  /** `get_exhibit_count`. */
  function ExhibitCount(p: Processor): (n: nat)
  {
    |p.exhibits|
  }

  /** Counting follows every change: adding increments, clearing resets,
      and clearing forgets everything added before. */
  lemma {:induction false} CountTracksChanges(p: Processor, path: string, url: string, title: string)
    ensures ExhibitCount(AddFromFile(p, path, title)) == ExhibitCount(p) + 1
    ensures ExhibitCount(AddFromUrl(p, url, title)) == ExhibitCount(p) + 1
    ensures AddFromUrl(Clear(p), url, title) == AddFromUrl(Empty, url, title)
    ensures AddFromFile(Clear(p), path, title) == AddFromFile(Empty, path, title)
  {
  }

  /** The generated exhibit for the source at position `idx`; building the
      record cannot raise, so the failure branch of `process_exhibits` is never
      taken. */
  function Generate(source: ExhibitSource, idx: nat): (g: GeneratedExhibit)
    requires Labels.Labelable(Labels.Letters, idx + 1)
    ensures g.success && g.error.None? && g.pdfUrl.None?
    ensures g.exhibitLetter == Labels.Label(Labels.Letters, idx)
    ensures g.title == source.title && g.originalUrl == source.url
    ensures g.archiveUrl == source.archiveUrl && g.pdfPath == source.filePath
  {
    GeneratedExhibit(Labels.Label(Labels.Letters, idx), source.url, source.archiveUrl, None, source.filePath, source.title, true, None)
  }

  /** The exhibits `process_exhibits` counts as successful and as failed. */
  predicate Succeeded(g: GeneratedExhibit)
  {
    g.success
  }

  predicate Unsucceeded(g: GeneratedExhibit)
  {
    !g.success
  }

  /** Every exhibit is counted once, as a success or as a failure. */
  lemma {:induction false} CountsPartition(gs: seq<GeneratedExhibit>)
    ensures Outcomes.Count(gs, Succeeded) + Outcomes.Count(gs, Unsucceeded) == |gs|
  {
    CountPartition(gs, Succeeded, Unsucceeded);
  }

  /** With every exhibit a success, none is counted as failed. */
  lemma {:induction false} AllSuccessful(gs: seq<GeneratedExhibit>)
    requires forall i :: 0 <= i < |gs| ==> gs[i].success
    ensures Outcomes.Count(gs, Succeeded) == |gs| && Outcomes.Count(gs, Unsucceeded) == 0
  {
    CountAll(gs, Succeeded);
    CountsPartition(gs);
  }

  /** The progress message before source `idx`. */
  function Stage(idx: nat, n: nat): (r: Progress)
    ensures r.current == idx + 1 && r.total == n
  {
    Progress(idx + 1, n, "Processing exhibit " + Decimal.NatToString(idx + 1))
  }

  /** `process_exhibits`: one generated exhibit per source, in order,
      lettered from 'A'; the package has no table of contents or combined
      document yet. With a callback, one report per source. */
  function ProcessExhibits(p: Processor, caseId: string, now: string, reportProgress: bool)
    : (r: (ExhibitPackage, seq<Progress>))
    requires Labels.Labelable(Labels.Letters, |p.exhibits|)
    ensures var pkg := r.0;
      pkg.caseId == caseId && pkg.generatedAt == now &&
      pkg.tableOfContentsPath.None? && pkg.combinedPdfPath.None? &&
      |pkg.exhibits| == |p.exhibits| == pkg.totalExhibits &&
      pkg.successfulExhibits + pkg.failedExhibits == pkg.totalExhibits
    ensures forall i :: 0 <= i < |p.exhibits| ==> r.0.exhibits[i] == Generate(p.exhibits[i], i)
    ensures reportProgress ==> |r.1| == |p.exhibits| && forall i :: 0 <= i < |p.exhibits| ==> r.1[i] == Stage(i, |p.exhibits|)
    ensures !reportProgress ==> r.1 == []
  {
    var n := |p.exhibits|;
    var gs := seq(n, i requires 0 <= i < n => Generate(p.exhibits[i], i));
    CountsPartition(gs);
    var progress := if reportProgress then seq(n, i requires 0 <= i < n => Stage(i, n)) else [];
    (ExhibitPackage(caseId, gs, None, None, n, Outcomes.Count(gs, Succeeded), Outcomes.Count(gs, Unsucceeded), now), progress)
  }

  /** Processing never fails an exhibit, and the letters of a package are
      pairwise distinct. */
  lemma {:induction false} ProcessedPackage(p: Processor, caseId: string, now: string, i: nat, j: nat)
    requires Labels.Labelable(Labels.Letters, |p.exhibits|)
    requires i < j < |p.exhibits|
    ensures var pkg := ProcessExhibits(p, caseId, now, false).0;
      pkg.successfulExhibits == pkg.totalExhibits && pkg.failedExhibits == 0 &&
      pkg.exhibits[i].exhibitLetter != pkg.exhibits[j].exhibitLetter
  {
    var pkg := ProcessExhibits(p, caseId, now, false).0;
    AllSuccessful(pkg.exhibits);
    if pkg.exhibits[i].exhibitLetter == pkg.exhibits[j].exhibitLetter {
      Labels.LabelInjective(Labels.Letters, i, j);
    }
  }
}

=== FILE: google_drive.dfy ===
/** The Google Drive handler: reading a folder id out of a link, listing
    a folder with a MIME-type filter, listing a folder tree with the path
    of every file, and downloading a folder while skipping the files that
    fail. The Drive service is an oracle: a listing per folder id (flat or
    as a tree) and a download per file. */
module GoogleDrive {
  import opened Outcomes
  import opened PyStr

  /** `extract_folder_id`: the last piece of `split("/folders/")` up to
      the first '?', else the last piece of `split("id=")` up to the first
      '&', else the input itself (taken to be an id already). The last
      piece follows the last of the non-overlapping markers found from
      the left. The id is the whole text after the marker, or stops right
      before its delimiter. */
  function ExtractFolderId(url: string): (r: string)
    ensures Contains(url, "/folders/") ==>
      StartsWith(Last(url, "/folders/"), r) && !Contains(r, "?") && !Contains(r, "/folders/") &&
      (|r| < |Last(url, "/folders/")| ==> Last(url, "/folders/")[|r|] == '?')
    ensures !Contains(url, "/folders/") && Contains(url, "id=") ==>
      StartsWith(Last(url, "id="), r) && !Contains(r, "&") && !Contains(r, "id=") && !Contains(r, "/folders/") &&
      (|r| < |Last(url, "id=")| ==> Last(url, "id=")[|r|] == '&')
    ensures !Contains(url, "/folders/") && !Contains(url, "id=") ==> r == url
  {
    if Contains(url, "/folders/") then
      var tail := Last(url, "/folders/");
      var r := First(tail, "?");
      PrefixKeepsFree(tail, r, "/folders/");
      FirstStopsAt(tail, '?');
      r
    else if Contains(url, "id=") then
      var tail := Last(url, "id=");
      var r := First(tail, "&");
      PrefixKeepsFree(tail, r, "id=");
      SuffixKeepsFree(url, tail, "/folders/");
      PrefixKeepsFree(tail, r, "/folders/");
      FirstStopsAt(tail, '&');
      r
    else url
  }

  /** The folder id is a suffix-part of the link: everything it holds
      comes from the link's text after the last cut of the split. */
  lemma {:induction false} FolderIdFromLink(url: string)
    ensures Contains(url, "/folders/") || Contains(url, "id=") ==> exists k :: 0 <= k <= |url| && StartsWith(url[k..], ExtractFolderId(url))
    ensures !Contains(url, "/folders/") && !Contains(url, "id=") ==> ExtractFolderId(url) == url
  {
    if Contains(url, "/folders/") || Contains(url, "id=") {
      var sep := if Contains(url, "/folders/") then "/folders/" else "id=";
      var tail := Last(url, sep);
      var k := |url| - |tail|;
      assert url[k..] == tail;
      assert StartsWith(url[k..], ExtractFolderId(url));
    }
  }

  /** The only '/' characters of "/folders/" are its first and last. */
  lemma {:induction false} SlashesOfMarker(d: nat)
    requires d < 9 && "/folders/"[d] == '/'
    ensures d == 0 || d == 8
  {
  }

  /** In `a + "/folders/" + b` with no '/' in `b`, an occurrence of
      "/folders/" ending after the start of the marker at `|a|` ends where
      that marker ends, unless `a` ends in "/folders". */
  lemma {:induction false} MarkerEnd(a: string, b: string, n: nat)
    requires forall k :: 0 <= k < |b| ==> b[k] != '/'
    requires !EndsWith(a, "/folders")
    requires |a| < n <= |a| + 9 + |b| && 9 <= n
    requires (a + "/folders/" + b)[n - 9..n] == "/folders/"
    ensures n == |a| + 9
  {
    var m := "/folders/";
    var s := a + m + b;
    var w := s[n - 9..n];
    assert s[n - 1] == w[8];
    if n - 1 < |a| + 9 {
      var d := |a| + 9 - n;
      assert s[|a|] == m[0];
      assert s[|a|] == w[d];
      SlashesOfMarker(d);
      if d == 8 {
        OverlapEndsWith(a, s, n);
      }
    }
  }

  lemma {:induction false} OverlapEndsWith(a: string, s: string, n: nat)
    requires StartsWith(s, a) && n == |a| + 1 && 9 <= n <= |s|
    requires s[n - 9..n] == "/folders/"
    ensures EndsWith(a, "/folders")
  {
    assert a[|a| - 8..] == s[n - 9..n][..8];
  }

  /** After a final "/folders/" that is followed by no '/', the split
      keeps exactly the text after it, provided the text before does not
      end in "/folders" (which would make the two markers overlap). */
  lemma {:induction false} LastAfterFinalMarker(a: string, b: string)
    requires forall k :: 0 <= k < |b| ==> b[k] != '/'
    requires !EndsWith(a, "/folders")
    ensures Last(a + "/folders/" + b, "/folders/") == b
  {
    var m := "/folders/";
    var s := a + m + b;
    assert s[|a|..|a| + 9] == m;
    ContainsWitness(s, m, |a|);
    var r := Last(s, m);
    var n := |s| - |r|;
    assert r == s[n..];
    assert s[n - 9..n] == s[..n][n - 9..];
    if n <= |a| {
      assert r[|a| - n..|a| - n + 9] == s[|a|..|a| + 9];
      ContainsWitness(r, m, |a| - n);
    }
    MarkerEnd(a, b, n);
    assert r == s[|a| + 9..];
  }

  /** When "/folders/" overlaps itself the split does not cut at the last
      occurrence: in "x/folders/folders/y" the second marker starts inside
      the first, so the last piece is "folders/y", not "y". */
  lemma {:induction false} OverlappingMarkers()
    ensures Last("x/folders/folders/y", "/folders/") == "folders/y"
  {
    var s := "x/folders/folders/y";
    var m := "/folders/";
    var rest := s[10..];
    assert rest == "folders/y";
    assert s[0..9][0] == 'x' != m[0];
    assert s[1..10] == m;
    assert !OccursAt(s, m, 0) && OccursAt(s, m, 1);
    assert Find(s, m) == Some(1);
    assert rest[0..9][0] == 'f' != m[0];
    assert !OccursAt(rest, m, 0);
    assert Find(rest, m) == None;
    assert LastCut(s, m) == Some(1);
  }

  /** The text before the first '?' of `id + "?" + query` is `id` when
      `id` holds no '?'. */
  lemma {:induction false} FirstBeforeQuery(id: string, query: string)
    requires forall k :: 0 <= k < |id| ==> id[k] != '?'
    ensures First(id + "?" + query, "?") == id
  {
    var b := id + "?" + query;
    var r := First(b, "?");
    FirstStopsAt(b, '?');
    assert b[|id|] == '?';
    if |r| > |id| {
      assert r[|id|] == '?';
      ContainsChar(r, '?');
    }
  }

  /** A folder share link built from an id, `a/folders/<id>?<query>`,
      gives that id back, for an id and query free of '/' and an id free
      of '?'. */
  lemma {:induction false} FolderIdOfShareLink(a: string, id: string, query: string)
    requires forall k :: 0 <= k < |id| ==> id[k] != '/' && id[k] != '?'
    requires forall k :: 0 <= k < |query| ==> query[k] != '/'
    requires !EndsWith(a, "/folders")
    ensures ExtractFolderId(a + "/folders/" + id + "?" + query) == id
  {
    var b := id + "?" + query;
    assert a + "/folders/" + id + "?" + query == a + "/folders/" + b;
    var s := a + "/folders/" + b;
    assert s[|a|..|a| + 9] == "/folders/";
    ContainsWitness(s, "/folders/", |a|);
    LastAfterFinalMarker(a, b);
    FirstBeforeQuery(id, query);
  }

  /** Reading the id of an extracted id gives it back, unless the id
      itself holds an "id=" (possible after "/folders/"). */
  lemma {:induction false} FolderIdIdempotent(url: string)
    requires !Contains(ExtractFolderId(url), "id=")
    ensures ExtractFolderId(ExtractFolderId(url)) == ExtractFolderId(url)
  {
  }

  /** A Drive item as the listing reports it. */
  datatype Item = Item(id: string, name: string, mimeType: string, size: nat, createdTime: Option<string>)

  const FolderMime: string := "application/vnd.google-apps.folder"

  /** The MIME types `list_folder_files` keeps when given no filter. */
  const DefaultTypes: seq<string> := [
    "application/pdf",
    "application/vnd.google-apps.document",
    "application/vnd.openxmlformats-officedocument.wordprocessingml.document",
    "image/jpeg",
    "image/png"]

  /** An empty (or absent) filter keeps everything. */
  predicate Keeps(types: seq<string>, item: Item)
  {
    |types| == 0 || item.mimeType in types
  }

  /** The items the filter keeps, in listing order. */
  function FilterItems(types: seq<string>, items: seq<Item>): (r: seq<Item>)
    ensures |r| <= |items|
  {
    if |items| == 0 then []
    else (if Keeps(types, items[0]) then [items[0]] else []) + FilterItems(types, items[1..])
  }

  /** Exactly the items of the listing that pass the filter are kept. */
  lemma {:induction false} FilterItemsMembers(types: seq<string>, items: seq<Item>, x: Item)
    ensures x in FilterItems(types, items) <==> x in items && Keeps(types, x)
    decreases |items|
  {
    if |items| > 0 {
      FilterItemsMembers(types, items[1..], x);
      assert items == [items[0]] + items[1..];
    }
  }

  /** Filtering keeps order: it distributes over concatenation. */
  lemma {:induction false} FilterItemsAppend(types: seq<string>, a: seq<Item>, b: seq<Item>)
    ensures FilterItems(types, a + b) == FilterItems(types, a) + FilterItems(types, b)
    decreases |a|
  {
    if |a| > 0 {
      assert (a + b)[1..] == a[1..] + b;
      FilterItemsAppend(types, a[1..], b);
    } else {
      assert a + b == b;
    }
  }

  /** With no filter every item is kept. */
  lemma {:induction false} EmptyFilterKeepsAll(items: seq<Item>)
    ensures FilterItems([], items) == items
    decreases |items|
  {
    if |items| > 0 {
      EmptyFilterKeepsAll(items[1..]);
      assert items == [items[0]] + items[1..];
    }
  }

  /** `list_folder_files`: an error without a service or when the listing
      fails; otherwise the items of the folder that the filter (by default
      the five document and image types) keeps. */
  function ListFolderFiles(service: bool, url: string, fileTypes: Option<seq<string>>, list: string -> Result<seq<Item>>)
    : (r: Result<seq<Item>>)
    ensures r.Err? <==> !service || list(ExtractFolderId(url)).Err?
    ensures r.Ok? ==> |r.value| <= |list(ExtractFolderId(url)).value|
    ensures r.Ok? && fileTypes.None? ==> forall i :: 0 <= i < |r.value| ==> r.value[i].mimeType in DefaultTypes
    ensures r.Ok? ==> r.value == FilterItems(if fileTypes.Some? then fileTypes.value else DefaultTypes, list(ExtractFolderId(url)).value)
  {
    if !service then Err("Not authenticated with Google Drive")
    else
      match list(ExtractFolderId(url))
      case Err(e) => Err(e)
      case Ok(items) =>
        var types := if fileTypes.Some? then fileTypes.value else DefaultTypes;
        var kept := FilterItems(types, items);
        assert forall i :: 0 <= i < |kept| ==> Keeps(types, kept[i]) by {
          forall i | 0 <= i < |kept|
            ensures Keeps(types, kept[i])
          {
            FilterItemsMembers(types, items, kept[i]);
          }
        }
        Ok(kept)
  }

  // ---------------------------------------------------------------
  // Recursive listing.

  /** A folder's listing as the service returns it: every entry with the
      listing of its own contents (meaningful for folders only), or a
      failure. */
  datatype Listing = Unlisted | Listed(entries: seq<Entry>)
  datatype Entry = Entry(item: Item, contents: Listing)

  /** A file found in the tree, with its path below the root folder. */
  datatype Found = Found(item: Item, path: string)

  /** "{parent}/{name}", or the bare name at the root. */
  function ChildPath(parent: string, name: string): (r: string)
    ensures EndsWith(r, name)
    ensures parent == "" ==> r == name
    ensures parent != "" ==> StartsWith(r, parent + "/")
  {
    if parent != "" then
      var r := parent + "/" + name;
      assert r[|r| - |name|..] == name;
      assert r[..|parent + "/"|] == parent + "/";
      r
    else name
  }

  /** `_recurse_folder`: files of a listing in order, each folder replaced
      by the files below it; a listing that fails contributes nothing. */
  function Walk(l: Listing, path: string, types: seq<string>): (r: seq<Found>)
    decreases l, 1, 0
  {
    if l.Unlisted? then [] else WalkFrom(l, 0, path, types)
  }

  function WalkFrom(l: Listing, i: nat, path: string, types: seq<string>): (r: seq<Found>)
    requires l.Listed? && i <= |l.entries|
    decreases l, 0, |l.entries| - i
  {
    if i == |l.entries| then []
    else
      var e := l.entries[i];
      var here :=
        if e.item.mimeType == FolderMime then Walk(e.contents, ChildPath(path, e.item.name), types)
        else if Keeps(types, e.item) then [Found(e.item, ChildPath(path, e.item.name))]
        else [];
      here + WalkFrom(l, i + 1, path, types)
  }

  /** Everything found is a file (never a folder) that passes the filter,
      and its path ends with its name. */
  predicate FoundWell(f: Found, types: seq<string>)
  {
    f.item.mimeType != FolderMime && Keeps(types, f.item) && EndsWith(f.path, f.item.name)
  }

  lemma {:induction false} WalkFindsFiles(l: Listing, path: string, types: seq<string>)
    ensures forall k :: 0 <= k < |Walk(l, path, types)| ==> FoundWell(Walk(l, path, types)[k], types)
    decreases l, 1, 0
  {
    if l.Listed? {
      WalkFromFindsFiles(l, 0, path, types);
    }
  }

  lemma {:induction false} WalkFromFindsFiles(l: Listing, i: nat, path: string, types: seq<string>)
    requires l.Listed? && i <= |l.entries|
    ensures forall k :: 0 <= k < |WalkFrom(l, i, path, types)| ==> FoundWell(WalkFrom(l, i, path, types)[k], types)
    decreases l, 0, |l.entries| - i
  {
    if i < |l.entries| {
      var e := l.entries[i];
      if e.item.mimeType == FolderMime {
        WalkFindsFiles(e.contents, ChildPath(path, e.item.name), types);
      }
      WalkFromFindsFiles(l, i + 1, path, types);
    }
  }

  /** Below a non-empty path, every path found extends it. */
  lemma {:induction false} WalkStaysBelow(l: Listing, path: string, types: seq<string>)
    requires path != ""
    ensures forall k :: 0 <= k < |Walk(l, path, types)| ==> StartsWith(Walk(l, path, types)[k].path, path + "/")
    decreases l, 1, 0
  {
    if l.Listed? {
      WalkFromStaysBelow(l, 0, path, types);
    }
  }

  lemma {:induction false} WalkFromStaysBelow(l: Listing, i: nat, path: string, types: seq<string>)
    requires path != "" && l.Listed? && i <= |l.entries|
    ensures forall k :: 0 <= k < |WalkFrom(l, i, path, types)| ==> StartsWith(WalkFrom(l, i, path, types)[k].path, path + "/")
    decreases l, 0, |l.entries| - i
  {
    if i < |l.entries| {
      var e := l.entries[i];
      var child := ChildPath(path, e.item.name);
      if e.item.mimeType == FolderMime {
        WalkStaysBelow(e.contents, child, types);
        forall k | 0 <= k < |Walk(e.contents, child, types)|
          ensures StartsWith(Walk(e.contents, child, types)[k].path, path + "/")
        {
          StartsWithTrans(Walk(e.contents, child, types)[k].path, child, path + "/");
        }
      }
      WalkFromStaysBelow(l, i + 1, path, types);
    }
  }

  /** The items of a listing, ignoring sub-listings. */
  function Items(entries: seq<Entry>): (r: seq<Item>)
    ensures |r| == |entries|
  {
    seq(|entries|, k requires 0 <= k < |entries| => entries[k].item)
  }

  /** A folder without sub-folders lists, at the root, exactly what the
      flat listing keeps, each under its own name. */
  lemma {:induction false} FlatWalkIsFilter(l: Listing, i: nat, types: seq<string>)
    requires l.Listed? && i <= |l.entries|
    requires forall k :: 0 <= k < |l.entries| ==> l.entries[k].item.mimeType != FolderMime
    ensures |WalkFrom(l, i, "", types)| == |FilterItems(types, Items(l.entries)[i..])|
    ensures forall k :: 0 <= k < |WalkFrom(l, i, "", types)| ==>
      WalkFrom(l, i, "", types)[k] == Found(FilterItems(types, Items(l.entries)[i..])[k], FilterItems(types, Items(l.entries)[i..])[k].name)
    decreases |l.entries| - i
  {
    var items := Items(l.entries)[i..];
    if i < |l.entries| {
      FlatWalkIsFilter(l, i + 1, types);
      assert items[1..] == Items(l.entries)[i + 1..];
    }
  }

  /** `list_folder_recursive`: without a service an error; otherwise the
      files of the tree below the folder. No default filter applies here:
      with none, every file is listed. */
  function ListFolderRecursive(service: bool, url: string, fileTypes: Option<seq<string>>, tree: string -> Listing)
    : (r: Result<seq<Found>>)
    ensures r.Err? <==> !service
    ensures r.Ok? ==> forall k :: 0 <= k < |r.value| ==> r.value[k].item.mimeType != FolderMime
    ensures r.Ok? ==> r.value == Walk(tree(ExtractFolderId(url)), "", if fileTypes.Some? then fileTypes.value else [])
  {
    if !service then Err("Not authenticated with Google Drive")
    else
      var types := if fileTypes.Some? then fileTypes.value else [];
      var found := Walk(tree(ExtractFolderId(url)), "", types);
      WalkFindsFiles(tree(ExtractFolderId(url)), "", types);
      Ok(found)
  }

  // ---------------------------------------------------------------
  // Downloading a folder.

  /** A listed file: its path below the root when listed recursively. */
  datatype FileInfo = FileInfo(item: Item, path: Option<string>)

  /** A downloaded file: the listing entry plus where it was saved. */
  datatype Downloaded = Downloaded(info: FileInfo, localPath: string)

  /** The files whose download succeeded, in listing order. */
  function Downloads(files: seq<FileInfo>, download: Item -> Result<string>): (r: seq<Downloaded>)
    ensures |r| <= |files|
  {
    if |files| == 0 then []
    else
      (match download(files[0].item)
       case Err(_) => []
       case Ok(p) => [Downloaded(files[0], p)]) + Downloads(files[1..], download)
  }

  /** Failed downloads are skipped, the rest kept in order with the path
      each was saved to. */
  lemma {:induction false} DownloadsAppend(a: seq<FileInfo>, b: seq<FileInfo>, download: Item -> Result<string>)
    ensures Downloads(a + b, download) == Downloads(a, download) + Downloads(b, download)
    decreases |a|
  {
    if |a| > 0 {
      assert (a + b)[1..] == a[1..] + b;
      DownloadsAppend(a[1..], b, download);
    } else {
      assert a + b == b;
    }
  }

  lemma {:induction false} DownloadsMembers(files: seq<FileInfo>, download: Item -> Result<string>, d: Downloaded)
    ensures d in Downloads(files, download) <==> d.info in files && download(d.info.item) == Ok(d.localPath)
    decreases |files|
  {
    if |files| > 0 {
      DownloadsMembers(files[1..], download, d);
      assert files == [files[0]] + files[1..];
    }
  }

  /** When every download succeeds, nothing is lost. */
  lemma {:induction false} AllDownloadsKept(files: seq<FileInfo>, download: Item -> Result<string>)
    requires forall k :: 0 <= k < |files| ==> download(files[k].item).Ok?
    ensures |Downloads(files, download)| == |files|
    decreases |files|
  {
    if |files| > 0 {
      AllDownloadsKept(files[1..], download);
    }
  }

  /** The files `download_folder` goes on to download: the recursive
      listing with each file's path, or the flat listing with the default
      filter and no path. */
  function FolderListing(
    service: bool, url: string, recursive: bool,
    list: string -> Result<seq<Item>>, tree: string -> Listing)
    : (r: Result<seq<FileInfo>>)
    ensures r.Err? <==> !service || (!recursive && list(ExtractFolderId(url)).Err?)
    ensures r.Ok? && recursive ==>
      var found := ListFolderRecursive(service, url, None, tree).value;
      |r.value| == |found| &&
      forall k :: 0 <= k < |found| ==> r.value[k] == FileInfo(found[k].item, Some(found[k].path))
    ensures r.Ok? && !recursive ==>
      var items := ListFolderFiles(service, url, None, list).value;
      |r.value| == |items| &&
      forall k :: 0 <= k < |items| ==> r.value[k] == FileInfo(items[k], None) && items[k].mimeType in DefaultTypes
  {
    if recursive then
      match ListFolderRecursive(service, url, None, tree)
      case Err(e) => Err(e)
      case Ok(found) => Ok(seq(|found|, k requires 0 <= k < |found| => FileInfo(found[k].item, Some(found[k].path))))
    else
      match ListFolderFiles(service, url, None, list)
      case Err(e) => Err(e)
      case Ok(items) => Ok(seq(|items|, k requires 0 <= k < |items| => FileInfo(items[k], None)))
  }

  /** `download_folder`: list the folder (recursively or not), then
      download each listed file in order, skipping failures. */
  function DownloadFolder(
    service: bool, url: string, recursive: bool,
    list: string -> Result<seq<Item>>, tree: string -> Listing, download: Item -> Result<string>)
    : (r: Result<seq<Downloaded>>)
    ensures r.Err? <==> !service || (!recursive && list(ExtractFolderId(url)).Err?)
    ensures r.Ok? ==> FolderListing(service, url, recursive, list, tree).Ok?
    ensures r.Ok? ==> |r.value| <= |FolderListing(service, url, recursive, list, tree).value|
    ensures r.Ok? ==> r.value == Downloads(FolderListing(service, url, recursive, list, tree).value, download)
  {
    match FolderListing(service, url, recursive, list, tree)
    case Err(e) => Err(e)
    case Ok(files) => Ok(Downloads(files, download))
  }

  /** A folder download holds exactly the listed files whose download
      succeeded, each with the path it was saved to; when every download
      succeeds, it holds one entry per listed file. */
  lemma {:induction false} DownloadFolderMembers(
    service: bool, url: string, recursive: bool,
    list: string -> Result<seq<Item>>, tree: string -> Listing, download: Item -> Result<string>, d: Downloaded)
    requires DownloadFolder(service, url, recursive, list, tree, download).Ok?
    ensures var files := FolderListing(service, url, recursive, list, tree).value;
      d in DownloadFolder(service, url, recursive, list, tree, download).value <==>
        d.info in files && download(d.info.item) == Ok(d.localPath)
    ensures var files := FolderListing(service, url, recursive, list, tree).value;
      (forall k :: 0 <= k < |files| ==> download(files[k].item).Ok?) ==>
        |DownloadFolder(service, url, recursive, list, tree, download).value| == |files|
  {
    var files := FolderListing(service, url, recursive, list, tree).value;
    DownloadsMembers(files, download, d);
    if forall k :: 0 <= k < |files| ==> download(files[k].item).Ok? {
      AllDownloadsKept(files, download);
    }
  }
}

=== FILE: labels.dfy ===
/** Exhibit labels: the three numbering styles ("letters", "numbers",
    "roman") and the label each
    position receives. A label depends only on the style and the 0-based
    position of the exhibit, never on its content. */
module Labels {
  import opened Outcomes
  import Decimal
  import Roman

  /** The three numbering codes. */
  datatype Style = Letters | Numbers | Romans

  /** The code stored for a style ("letters", "numbers", "roman"). */
  function StyleCode(s: Style): string
  {
    match s
    case Letters => "letters"
    case Numbers => "numbers"
    case Romans => "roman"
  }

  /** How the drivers read a numbering code: "letters" and "numbers" are
      recognised, anything else falls through to Roman numerals. */
  function StyleOf(code: string): (s: Style)
    ensures s == Letters <==> code == StyleCode(Letters)
    ensures s == Numbers <==> code == StyleCode(Numbers)
    ensures code == StyleCode(Romans) ==> s == Romans
  {
    if code == "letters" then Letters
    else if code == "numbers" then Numbers
    else Romans
  }

  lemma {:induction false} StyleOfCode(s: Style)
    ensures StyleOf(StyleCode(s)) == s
  {
    match s
    case Letters =>
    case Numbers =>
    case Romans =>
  }

  /** `chr(65 + i)` is only a Dafny character below the surrogate block,
      so letter labels are modelled for the first `LetterLimit` positions. */
  const LetterLimit: nat := 0xD800 - 65

  predicate Labelable(style: Style, count: nat)
  {
    style == Letters ==> count <= LetterLimit
  }

  /** The label of the exhibit at 0-based position `i`. Letters are the raw
      character with code 65 + i and do not wrap after 'Z'. */
  function Label(style: Style, i: nat): (r: string)
    requires Labelable(style, i + 1)
    ensures r != ""
    ensures style == Letters ==> |r| == 1 && r[0] as int == 65 + i
    ensures style == Numbers ==> Decimal.ParseNat(r) == Some(i + 1)
    ensures style == Romans ==> Roman.RomanValue(r) == i + 1
  {
    match style
    case Letters => [(65 + i) as char]
    case Numbers =>
      Decimal.ParseNatToString(i + 1);
      Decimal.NatToString(i + 1)
    case Romans => Roman.ToRoman(i + 1)
  }

  /** The 27th letter label is '[', the character after 'Z'. */
  lemma {:induction false} LettersDoNotWrap()
    ensures Label(Letters, 25) == "Z"
    ensures Label(Letters, 26) == "["
  {
  }

  /** Distinct positions get distinct labels in every style. */
  lemma {:induction false} LabelInjective(style: Style, i: nat, j: nat)
    requires Labelable(style, i + 1) && Labelable(style, j + 1)
    requires Label(style, i) == Label(style, j)
    ensures i == j
  {
    match style
    case Letters =>
      assert Label(style, i)[0] == Label(style, j)[0];
    case Numbers =>
    case Romans =>
  }

  /** One label per position, in position order. */
  function LabelsFor(style: Style, n: nat): (r: seq<string>)
    requires Labelable(style, n)
    ensures |r| == n
    ensures forall i :: 0 <= i < n ==> r[i] == Label(style, i)
  {
    seq(n, i requires 0 <= i < n => Label(style, i))
  }

  /** The labels of a package are pairwise distinct. */
  lemma {:induction false} LabelsDistinct(style: Style, n: nat, i: nat, j: nat)
    requires Labelable(style, n)
    requires i < n && j < n && i != j
    ensures LabelsFor(style, n)[i] != LabelsFor(style, n)[j]
  {
    if LabelsFor(style, n)[i] == LabelsFor(style, n)[j] {
      LabelInjective(style, i, j);
    }
  }
}

=== FILE: outcomes.dfy ===
/** Values shared by every module of the model. `Option` stands for
    Python's `Optional` / `None`, `Result` for a call that either returns
    a value or raises an exception with a message, and `Progress` for one
    call of a progress callback. */
module Outcomes {

  datatype Option<+T> = None | Some(value: T)

  datatype Result<+T> = Ok(value: T) | Err(msg: string)

  /** Python truthiness of an optional string: `None` and `""` are falsy. */
  predicate Truthy(s: Option<string>)
  {
    s.Some? && s.value != ""
  }

  /** One call of a progress callback: (current, total, item). */
  datatype Progress = Progress(current: nat, total: nat, name: string)

  /** How many elements of `s` satisfy `p`, as `sum(1 for x in s if p(x))`. */
  function Count<T>(s: seq<T>, p: T -> bool): (n: nat)
    ensures n <= |s|
  {
    if |s| == 0 then 0 else (if p(s[0]) then 1 else 0) + Count(s[1..], p)
  }

  /** Counting distributes over concatenation. */
  lemma {:induction false} CountAppend<T>(a: seq<T>, b: seq<T>, p: T -> bool)
    ensures Count(a + b, p) == Count(a, p) + Count(b, p)
    decreases |a|
  {
    if |a| > 0 {
      assert (a + b)[1..] == a[1..] + b;
      CountAppend(a[1..], b, p);
    } else {
      assert a + b == b;
    }
  }

  /** Every element satisfies `p` or `q` and none both: the two counts
      add up to the length. */
  lemma {:induction false} CountPartition<T>(s: seq<T>, p: T -> bool, q: T -> bool)
    requires forall k :: 0 <= k < |s| ==> (p(s[k]) <==> !q(s[k]))
    ensures Count(s, p) + Count(s, q) == |s|
    decreases |s|
  {
    if |s| > 0 {
      CountPartition(s[1..], p, q);
    }
  }

  /** The count is the length exactly when every element satisfies `p`. */
  lemma {:induction false} CountAll<T>(s: seq<T>, p: T -> bool)
    ensures Count(s, p) == |s| <==> forall k :: 0 <= k < |s| ==> p(s[k])
    decreases |s|
  {
    if |s| > 0 {
      CountAll(s[1..], p);
      if Count(s, p) == |s| {
        assert p(s[0]);
      }
    }
  }
}

=== FILE: pagination.dfy ===
/** Paging of the exhibit list on the results page: ten entries per page,
    a page number that is reset when out of range, the slice shown, and
    the previous/next buttons. */
module Pagination {

  const ItemsPerPage: nat := 10

  /** Number of pages for `n` entries: the ceiling of n / 10, and one
      (empty) page when there are none. */
  function TotalPages(n: nat): (r: nat)
    ensures r >= 1
    ensures n > 0 ==> (r - 1) * ItemsPerPage < n <= r * ItemsPerPage
    ensures n == 0 ==> r == 1
  {
    if n > 0 then (n + ItemsPerPage - 1) / ItemsPerPage else 1
  }

  /** The stored page number as the page is redrawn: one past the last
      page or below the first sends the view back to page 1. */
  function ValidPage(page: int, total: nat): (r: nat)
    requires total >= 1
    ensures 1 <= r <= total
    ensures 1 <= page <= total ==> r == page
    ensures !(1 <= page <= total) ==> r == 1
  {
    if page > total then 1
    else if page < 1 then 1
    else page
  }

  /** First index shown on `page`. */
  function Start(page: nat): nat
    requires page >= 1
  {
    (page - 1) * ItemsPerPage
  }

  /** One past the last index shown on `page` of `n` entries. */
  function End(page: nat, n: nat): (r: nat)
    requires page >= 1
    ensures r <= n && r <= Start(page) + ItemsPerPage
    ensures Start(page) + ItemsPerPage <= n ==> r == Start(page) + ItemsPerPage
  {
    if Start(page) + ItemsPerPage < n then Start(page) + ItemsPerPage else n
  }

  /** The entries shown on a valid page: `list[start:end]`. */
  function Displayed<T>(list: seq<T>, page: nat): (r: seq<T>)
    requires 1 <= page <= TotalPages(|list|)
    ensures |r| <= ItemsPerPage
    ensures |list| > 0 ==> |r| > 0
    ensures forall j :: 0 <= j < |r| ==> Start(page) + j < |list| && r[j] == list[Start(page) + j]
  {
    WindowFits(|list|, page);
    list[Start(page)..End(page, |list|)]
  }

  /** On a valid page the window lies inside the list and, for a
      non-empty list, shows at least one entry. */
  lemma {:induction false} WindowFits(n: nat, page: nat)
    requires 1 <= page <= TotalPages(n)
    ensures Start(page) <= End(page, n)
    ensures n > 0 ==> Start(page) < End(page, n)
  {
    if n > 0 {
      assert (page - 1) * ItemsPerPage <= (TotalPages(n) - 1) * ItemsPerPage;
    }
  }

  /** The page holding entry `i`. */
  function PageOf(i: nat): (p: nat)
    ensures p >= 1 && Start(p) <= i < Start(p) + ItemsPerPage
  {
    i / ItemsPerPage + 1
  }

  /** Every entry is shown on exactly one valid page. */
  lemma {:induction false} EachEntryOnOnePage(n: nat, i: nat, page: nat)
    requires i < n
    ensures 1 <= PageOf(i) <= TotalPages(n)
    ensures Start(PageOf(i)) <= i < End(PageOf(i), n)
    ensures page >= 1 && Start(page) <= i < End(page, n) ==> page == PageOf(i)
  {
    var p := PageOf(i);
    assert (p - 1) * ItemsPerPage <= i;
  }

  /** "Prev" is disabled on the first page, "Next" on the last. */
  predicate PrevEnabled(page: nat)
  {
    page != 1
  }

  predicate NextEnabled(page: nat, total: nat)
  {
    page != total
  }

  /** The page after pressing "Prev" on a drawn page. */
  function Prev(page: nat, total: nat): (r: nat)
    requires 1 <= page <= total && PrevEnabled(page)
    ensures 1 <= r <= total && r + 1 == page
  {
    page - 1
  }

  /** The page after pressing "Next" on a drawn page. */
  function Next(page: nat, total: nat): (r: nat)
    requires 1 <= page <= total && NextEnabled(page, total)
    ensures 1 <= r <= total && r == page + 1
  {
    page + 1
  }

  /** "Next" then "Prev" returns to the same page. */
  lemma {:induction false} PrevUndoesNext(page: nat, total: nat)
    requires 1 <= page <= total && NextEnabled(page, total)
    ensures PrevEnabled(Next(page, total))
    ensures Prev(Next(page, total), total) == page
  {
  }
}

=== FILE: paths.dfy ===
/** POSIX path text operations used by the program: `os.path.basename`,
    `os.path.join` with two arguments, `pathlib.Path.stem`, and the
    "same directory, new name" construction of `Path(p).parent / name`.
    Paths are plain strings; no normalisation is performed. */
module Paths {
  import opened Outcomes

  /** Index of the last occurrence of `c` in `s` (Python `s.rfind(c)`). */
  function LastIndexOf(s: string, c: char): (r: Option<nat>)
    ensures r.Some? ==> r.value < |s|
  {
    if |s| == 0 then None
    else if s[|s| - 1] == c then Some(|s| - 1)
    else LastIndexOf(s[..|s| - 1], c)
  }

  /** `LastIndexOf` finds `c`, finds no `c` after it, and finds nothing
      only when `c` does not occur. */
  lemma {:induction false} LastIndexOfSpec(s: string, c: char)
    ensures var r := LastIndexOf(s, c);
      (r.Some? ==> s[r.value] == c && forall j :: r.value < j < |s| ==> s[j] != c) &&
      (r.None? ==> c !in s)
    decreases |s|
  {
    if |s| > 0 && s[|s| - 1] != c {
      var t := s[..|s| - 1];
      LastIndexOfSpec(t, c);
      assert s == t + [s[|s| - 1]];
    }
  }

  /** Any position holding `c` with no `c` after it is the one `LastIndexOf` finds. */
  lemma {:induction false} LastIndexOfUnique(s: string, c: char, i: nat)
    requires i < |s| && s[i] == c
    requires forall j :: i < j < |s| ==> s[j] != c
    ensures LastIndexOf(s, c) == Some(i)
    decreases |s|
  {
    if i < |s| - 1 {
      var t := s[..|s| - 1];
      assert forall j :: i < j < |t| ==> t[j] != c;
      LastIndexOfUnique(t, c, i);
    }
  }

  /** `os.path.basename(p)`: the text after the last '/'. */
  function BaseName(p: string): (r: string)
    ensures |r| <= |p|
  {
    match LastIndexOf(p, '/')
    case None => p
    case Some(i) => p[i + 1..]
  }

  /** Everything up to and including the last '/', so that
      `p == DirPrefix(p) + BaseName(p)`. */
  function DirPrefix(p: string): (r: string)
    ensures |r| <= |p|
  {
    match LastIndexOf(p, '/')
    case None => ""
    case Some(i) => p[..i + 1]
  }

  /** A path splits into its directory prefix, which is empty or ends in
      '/', and its basename, which holds no '/'. */
  lemma {:induction false} SplitPath(p: string)
    ensures p == DirPrefix(p) + BaseName(p)
    ensures DirPrefix(p) == "" || DirPrefix(p)[|DirPrefix(p)| - 1] == '/'
    ensures '/' !in BaseName(p)
  {
    LastIndexOfSpec(p, '/');
    match LastIndexOf(p, '/')
    case None =>
    case Some(i) =>
      assert p == p[..i + 1] + p[i + 1..];
  }

  /** A name without '/' placed after a directory prefix is the basename. */
  lemma {:induction false} BaseNameAfterPrefix(d: string, n: string)
    requires '/' !in n
    requires d == "" || d[|d| - 1] == '/'
    ensures BaseName(d + n) == n
    ensures DirPrefix(d + n) == d
  {
    var s := d + n;
    if d == "" {
      assert s == n;
      LastIndexOfSpec(n, '/');
    } else {
      assert forall j :: |d| - 1 < j < |s| ==> s[j] == n[j - |d|];
      LastIndexOfUnique(s, '/', |d| - 1);
      assert s[|d|..] == n;
      assert s[..|d|] == d;
    }
  }

  /** `os.path.join(a, b)` for two POSIX components: an absolute `b`
      replaces `a`, otherwise a '/' is inserted unless `a` is empty or
      already ends with one. */
  function JoinPath(a: string, b: string): (r: string)
    ensures |b| > 0 && b[0] == '/' ==> r == b
    ensures !(|b| > 0 && b[0] == '/') ==> |r| >= |a| + |b| && r[..|a|] == a && r[|r| - |b|..] == b
  {
    if |b| > 0 && b[0] == '/' then b
    else if a == "" || a[|a| - 1] == '/' then a + b
    else a + "/" + b
  }

  /** Joining a plain file name onto a directory yields a path whose
      basename is that name. */
  lemma {:induction false} JoinPathBaseName(a: string, b: string)
    requires '/' !in b
    ensures BaseName(JoinPath(a, b)) == b
  {
    if a == "" || a[|a| - 1] == '/' {
      BaseNameAfterPrefix(a, b);
    } else {
      BaseNameAfterPrefix(a + "/", b);
      assert a + "/" + b == (a + "/") + b;
    }
  }

  /** `pathlib.Path(p).stem`: the name without its last suffix, where a
      leading dot or a trailing dot does not start a suffix. The stem
      either stops at a dot that is neither the first nor the last
      character of the name and has no dot after it, or it is the whole
      name, and then every inner dot is followed by a dot at the end. */
  function Stem(p: string): (r: string)
    ensures |r| <= |BaseName(p)| && BaseName(p)[..|r|] == r
    ensures r == BaseName(p) ||
      (0 < |r| < |BaseName(p)| - 1 && BaseName(p)[|r|] == '.' &&
       forall j :: |r| < j < |BaseName(p)| ==> BaseName(p)[j] != '.')
    ensures r == BaseName(p) ==>
      forall i :: 0 < i < |BaseName(p)| - 1 && BaseName(p)[i] == '.' ==> BaseName(p)[|BaseName(p)| - 1] == '.'
  {
    var name := BaseName(p);
    LastIndexOfSpec(name, '.');
    match LastIndexOf(name, '.')
    case Some(i) =>
      if 0 < i < |name| - 1 then name[..i] else name
    case None => name
  }

  /** `Path(p).parent / (prefix + Path(p).name)`: a sibling of `p` whose
      name is `p`'s name with `prefix` in front. */
  function Sibling(p: string, prefix: string): (r: string)
    ensures |r| == |p| + |prefix|
  {
    SplitPath(p);
    DirPrefix(p) + (prefix + BaseName(p))
  }

  /** The sibling lives in the same directory and is named by the prefix
      followed by the original name. */
  lemma {:induction false} SiblingNames(p: string, prefix: string)
    requires '/' !in prefix
    ensures BaseName(Sibling(p, prefix)) == prefix + BaseName(p)
    ensures DirPrefix(Sibling(p, prefix)) == DirPrefix(p)
  {
    SplitPath(p);
    BaseNameAfterPrefix(DirPrefix(p), prefix + BaseName(p));
  }
}

=== FILE: pdf.dfy ===
/** The PDF handler: stamping exhibit labels and page numbers onto a
    document (after an optional compression), merging documents, and the
    rows of the two table-of-contents layouts.

    Writing a file is modelled as updating the file system; the byte
    size of a written document and the pages a table of contents is laid
    out on are oracles (`sizeOf`, `layout`). */
module PdfHandler {
  import opened Outcomes
  import opened Documents
  import Compressor
  import Paths
  import Decimal
  import PyStr
  import opened ExhibitList

  /** A handler: the temporary directory, and the compressor settings
      when compression is enabled. */
  datatype Handler = Handler(tempDir: string, compression: Option<Compressor.Settings>)

  /** The constructor: compression is on only when requested and the
      compressor module is importable; an unknown preset key is then a
      lookup error. */
  function NewHandler(tempDir: string, enable: bool, compressorPresent: bool, presetKey: string, apiKey: Option<string>)
    : (r: Result<Handler>)
    ensures r.Err? <==> enable && compressorPresent && Compressor.ParsePreset(presetKey).None?
    ensures r.Ok? ==> r.value.tempDir == tempDir
    ensures r.Ok? ==> (r.value.compression.Some? <==> enable && compressorPresent)
    ensures r.Ok? && r.value.compression.Some? ==>
      Compressor.PresetKey(r.value.compression.value.preset) == presetKey &&
      r.value.compression.value.apiKey == apiKey
  {
    if enable && compressorPresent then
      match Compressor.ParsePreset(presetKey)
      case None => Err("KeyError: " + presetKey)
      case Some(p) => Ok(Handler(tempDir, Some(Compressor.Settings(p, apiKey))))
    else Ok(Handler(tempDir, None))
  }

  /** The overlay of page `k` (0-based) of an `n`-page exhibit. */
  function Stamp(lbl: string, k: nat, n: nat): Overlay
  {
    Overlay("Exhibit " + lbl, "Page " + Decimal.NatToString(k + 1) + " of " + Decimal.NatToString(n))
  }

  /** Every page gets its own stamp; contents and order are kept. */
  function Annotate(pages: seq<Page>, lbl: string): (r: seq<Page>)
    ensures |r| == |pages|
    ensures forall k :: 0 <= k < |pages| ==>
      r[k].content == pages[k].content &&
      r[k].overlays == pages[k].overlays + [Stamp(lbl, k, |pages|)]
  {
    seq(|pages|, k requires 0 <= k < |pages| =>
      Page(pages[k].content, pages[k].overlays + [Stamp(lbl, k, |pages|)]))
  }

  /** Drop the topmost overlay of every page. */
  function Unstamp(pages: seq<Page>): (r: seq<Page>)
    ensures |r| == |pages|
  {
    seq(|pages|, k requires 0 <= k < |pages| =>
      var o := pages[k].overlays;
      Page(pages[k].content, if |o| == 0 then o else o[..|o| - 1]))
  }

  /** Stamping adds exactly one overlay per page and nothing else:
      removing it gives the original pages back. */
  lemma {:induction false} UnstampAnnotate(pages: seq<Page>, lbl: string)
    ensures Unstamp(Annotate(pages, lbl)) == pages
  {
    var a := Annotate(pages, lbl);
    var u := Unstamp(a);
    forall k | 0 <= k < |pages|
      ensures u[k] == pages[k]
    {
      var o := a[k].overlays;
      assert o[..|o| - 1] == pages[k].overlays;
    }
  }

  /** Every page of an exhibit carries its lbl, and the footers count
      the pages from 1 to n. */
  lemma {:induction false} StampsNumberPages(pages: seq<Page>, lbl: string, k: nat)
    requires k < |pages|
    ensures var top := Annotate(pages, lbl)[k].overlays[|pages[k].overlays|];
      top.header == "Exhibit " + lbl &&
      top.footer == "Page " + Decimal.NatToString(k + 1) + " of " + Decimal.NatToString(|pages|)
  {
  }

  /** Where a numbered exhibit is written: `Exhibit_<label>_<name>` in the
      temporary directory. */
  function NumberedPath(tempDir: string, lbl: string, pdfPath: string): string
  {
    Paths.JoinPath(tempDir, "Exhibit_" + lbl + "_" + Paths.BaseName(pdfPath))
  }

  /** The document annotation reads, and the file system after the
      optional compression step: the compressed output when compression is
      enabled and succeeds, the original otherwise. `None` when compressing
      raised. Only `compressed_<name>` can appear, even when compression
      falls back to the original. */
  function Prepare(h: Handler, env: Compressor.Env, fs: FileSystem, pdfPath: string)
    : (r: Option<(string, FileSystem)>)
    ensures r.None? <==> h.compression.Some? && pdfPath !in fs
    ensures r.Some? && pdfPath in fs ==> r.value.0 in r.value.1 && r.value.1[r.value.0].pages == fs[pdfPath].pages
    ensures r.Some? && pdfPath !in fs ==> r.value == (pdfPath, fs)
    ensures r.Some? && r.value.0 != pdfPath ==>
      h.compression.Some? && r.value.0 == Compressor.TempPath(pdfPath) &&
      Compressor.Compress(h.compression.value, env, fs, pdfPath, None).value.success
    ensures r.Some? ==> forall p :: p in fs && p != Compressor.TempPath(pdfPath) ==> p in r.value.1 && r.value.1[p] == fs[p]
    ensures r.Some? ==> fs.Keys <= r.value.1.Keys
    ensures r.Some? ==> forall p :: p in r.value.1 ==> p in fs || p == Compressor.TempPath(pdfPath)
  {
    match h.compression
    case None => Some((pdfPath, fs))
    case Some(st) =>
      match Compressor.Compress(st, env, fs, pdfPath, None)
      case Err(_) => None
      case Ok(res) =>
        Compressor.TempPathNames(pdfPath);
        var fs1 := Compressor.AfterCompress(st, env, fs, pdfPath, None);
        if res.success then Some((res.outputPath, fs1)) else Some((pdfPath, fs1))
  }

  /** With compression enabled and succeeding, annotation reads the
      compressed file; otherwise it reads the original. */
  lemma {:induction false} AnnotationReadsCompressed(h: Handler, env: Compressor.Env, fs: FileSystem, pdfPath: string)
    requires pdfPath in fs
    ensures h.compression.Some? && Compressor.Compress(h.compression.value, env, fs, pdfPath, None).value.success ==>
      Prepare(h, env, fs, pdfPath).value.0 == Compressor.TempPath(pdfPath)
    ensures h.compression.None? || !Compressor.Compress(h.compression.value, env, fs, pdfPath, None).value.success ==>
      Prepare(h, env, fs, pdfPath).value.0 == pdfPath
  {
  }

  /** `add_exhibit_number`: the path of the numbered exhibit and the file
      system afterwards. Any failure returns the original path. */
  function AddExhibitNumber(h: Handler, env: Compressor.Env, fs: FileSystem, sizeOf: seq<Page> -> nat, pdfPath: string, lbl: string)
    : (r: (string, FileSystem))
    ensures pdfPath !in fs ==> r.0 == pdfPath && r.1 == fs
    ensures pdfPath in fs ==>
      r.0 == NumberedPath(h.tempDir, lbl, pdfPath) && r.0 in r.1 &&
      r.1[r.0].pages == Annotate(fs[pdfPath].pages, lbl)
    ensures forall p :: p in fs && p != r.0 && p != Compressor.TempPath(pdfPath) ==> p in r.1 && r.1[p] == fs[p]
    ensures fs.Keys <= r.1.Keys
  {
    match Prepare(h, env, fs, pdfPath)
    case None => (pdfPath, fs)
    case Some((working, fs1)) =>
      if working !in fs1 then (pdfPath, fs1)
      else
        var out := NumberedPath(h.tempDir, lbl, pdfPath);
        var pages := Annotate(fs1[working].pages, lbl);
        (out, fs1[out := Doc(pages, sizeOf(pages))])
  }

  /** A numbered exhibit has exactly as many pages as its source. */
  lemma {:induction false} NumberingKeepsPageCount(h: Handler, env: Compressor.Env, fs: FileSystem, sizeOf: seq<Page> -> nat, pdfPath: string, lbl: string)
    requires pdfPath in fs
    ensures var (out, fs') := AddExhibitNumber(h, env, fs, sizeOf, pdfPath, lbl);
      |fs'[out].pages| == |fs[pdfPath].pages|
  {
  }

  /** Pages of the documents at `paths` that exist, in order. */
  function MergedPages(fs: FileSystem, paths: seq<string>): (r: seq<Page>)
  {
    if |paths| == 0 then []
    else (if paths[0] in fs then fs[paths[0]].pages else []) + MergedPages(fs, paths[1..])
  }

  /** Merging concatenations is concatenating merges. */
  lemma {:induction false} MergedPagesAppend(fs: FileSystem, a: seq<string>, b: seq<string>)
    ensures MergedPages(fs, a + b) == MergedPages(fs, a) + MergedPages(fs, b)
    decreases |a|
  {
    if |a| > 0 {
      assert (a + b)[1..] == a[1..] + b;
      MergedPagesAppend(fs, a[1..], b);
    } else {
      assert a + b == b;
    }
  }

  /** The merged page count is the sum over the inputs that exist. */
  lemma {:induction false} MergedPageCount(fs: FileSystem, paths: seq<string>)
    ensures |MergedPages(fs, paths)| == PagesOf(fs, paths)
    decreases |paths|
  {
    if |paths| > 0 {
      MergedPageCount(fs, paths[1..]);
    }
  }

  /** Missing inputs contribute nothing. */
  lemma {:induction false} MergeSkipsMissing(fs: FileSystem, a: seq<string>, p: string, b: seq<string>)
    requires p !in fs
    ensures MergedPages(fs, a + [p] + b) == MergedPages(fs, a + b)
  {
    MergedPagesAppend(fs, a + [p], b);
    MergedPagesAppend(fs, a, [p]);
    MergedPagesAppend(fs, a, b);
    assert MergedPages(fs, [p]) == [];
  }

  /** `merge_pdfs`: append the existing inputs in order, write the result
      to `output` and return `output`. */
  function MergePdfs(fs: FileSystem, sizeOf: seq<Page> -> nat, paths: seq<string>, output: string): (r: (string, FileSystem))
    ensures r.0 == output && output in r.1
    ensures r.1[output].pages == MergedPages(fs, paths)
    ensures |r.1[output].pages| == PagesOf(fs, paths)
    ensures forall p :: p in fs && p != output ==> p in r.1 && r.1[p] == fs[p]
  {
    MergedPageCount(fs, paths);
    var pages := MergedPages(fs, paths);
    (output, fs[output := Doc(pages, sizeOf(pages))])
  }

  // ---------------------------------------------------------------
  // `generate_table_of_contents`: the layout used by the drivers.

  const TocHeader: seq<string> := ["Exhibit", "Title", "Pages"]
  const TitleWidth: nat := 50

  /** The table row of one exhibit. */
  function TocRow(e: ExhibitInfo): seq<string>
  {
    ["Exhibit " + e.number, PyStr.Take(e.title, TitleWidth), Decimal.NatToString(e.pages)]
  }

  /** The table: a header row, then one row per exhibit in list order,
      with the title cut to its first 50 characters (no ellipsis) and the
      page count in decimal. */
  function TocRows(list: seq<ExhibitInfo>): (r: seq<seq<string>>)
    ensures |r| == |list| + 1 && r[0] == TocHeader
    ensures forall i :: 0 <= i < |list| ==> (
      |r[i + 1]| == 3 &&
      r[i + 1][0] == "Exhibit " + list[i].number &&
      PyStr.StartsWith(list[i].title, r[i + 1][1]) &&
      |r[i + 1][1]| == (if |list[i].title| <= TitleWidth then |list[i].title| else TitleWidth))
  {
    [TocHeader] + seq(|list|, i requires 0 <= i < |list| => TocRow(list[i]))
  }

  /** The page column reads back as each exhibit's page count. */
  lemma {:induction false} TocPagesReadBack(list: seq<ExhibitInfo>, i: nat)
    requires i < |list|
    ensures Decimal.ParseNat(TocRows(list)[i + 1][2]) == Some(list[i].pages)
  {
    Decimal.ParseNatToString(list[i].pages);
  }

  /** The info block: visa type, generation date and the exhibit count. */
  function TocInfo(visaType: string, date: string, list: seq<ExhibitInfo>): (r: seq<(string, string)>)
    ensures |r| == 3 && r[0] == ("Visa Type:", visaType) && r[1] == ("Generated:", date)
    ensures r[2].0 == "Total Exhibits:" && Decimal.ParseNat(r[2].1) == Some(|list|)
  {
    Decimal.ParseNatToString(|list|);
    [("Visa Type:", visaType), ("Generated:", date), ("Total Exhibits:", Decimal.NatToString(|list|))]
  }

  /** Writing the table of contents to `output`; its pages come from the
      layout oracle. */
  function GenerateTableOfContents(
    fs: FileSystem, sizeOf: seq<Page> -> nat,
    layout: (seq<(string, string)>, seq<seq<string>>) -> seq<Page>,
    list: seq<ExhibitInfo>, visaType: string, date: string, output: string)
    : (r: (string, FileSystem))
    ensures r.0 == output && output in r.1
    ensures r.1[output].pages == layout(TocInfo(visaType, date, list), TocRows(list))
    ensures forall p :: p in fs && p != output ==> p in r.1 && r.1[p] == fs[p]
  {
    var pages := layout(TocInfo(visaType, date, list), TocRows(list));
    (output, fs[output := Doc(pages, sizeOf(pages))])
  }

  // ---------------------------------------------------------------
  // `generate_toc`: the layout with a status column and archived URLs.

  /** An exhibit as `generate_toc` reads it; an absent key is `None`. */
  datatype TocEntry = TocEntry(
    number: string,
    name: string,
    path: Option<string>,
    pdfPath: Option<string>,
    archiveUrl: Option<string>,
    originalUrl: Option<string>)

  const NameWidth: nat := 60
  const UrlWidth: nat := 40

  /** A name longer than 60 characters becomes its first 60 and "...". */
  function Ellipsize(s: string): (r: string)
    ensures |s| <= NameWidth ==> r == s
    ensures |s| > NameWidth ==> |r| == NameWidth + 3 && r[..NameWidth] == s[..NameWidth] && r[NameWidth..] == "..."
  {
    if |s| > NameWidth then s[..NameWidth] + "..." else s
  }

  const Generated: string := "✓ Generated"
  const Failed: string := "✗ Failed"

  /** The status cell: generated exactly when a path is set. */
  function Status(e: TocEntry): (r: string)
    ensures r == Generated <==> Truthy(e.path) || Truthy(e.pdfPath)
    ensures r == Generated || r == Failed
  {
    if Truthy(e.path) || Truthy(e.pdfPath) then Generated else Failed
  }

  /** The exhibit table: header, then one row per exhibit in order. */
  function StatusRows(entries: seq<TocEntry>): (r: seq<seq<string>>)
    ensures |r| == |entries| + 1 && r[0] == ["Exhibit", "Title/Description", "Status"]
    ensures forall i :: 0 <= i < |entries| ==>
      r[i + 1] == ["Exhibit " + entries[i].number, Ellipsize(entries[i].name), Status(entries[i])]
  {
    [["Exhibit", "Title/Description", "Status"]] +
    seq(|entries|, i requires 0 <= i < |entries| =>
      ["Exhibit " + entries[i].number, Ellipsize(entries[i].name), Status(entries[i])])
  }

  /** The case information table: case id, date and the number of
      exhibits; a beneficiary row is inserted at position 1 when a name is
      given. */
  function CaseInfo(caseName: string, date: string, entries: seq<TocEntry>, beneficiary: Option<string>): (r: seq<seq<string>>)
    ensures |r| == if Truthy(beneficiary) then 4 else 3
    ensures r[0] == ["Case ID:", caseName]
    ensures |r[|r| - 1]| == 2 && r[|r| - 1][0] == "Total Exhibits:"
    ensures Decimal.ParseNat(r[|r| - 1][1]) == Some(|entries|)
    ensures Truthy(beneficiary) ==> r[1] == ["Beneficiary:", beneficiary.value]
  {
    Decimal.ParseNatToString(|entries|);
    var rows := [["Case ID:", caseName], ["Generated:", date], ["Total Exhibits:", Decimal.NatToString(|entries|)]];
    if Truthy(beneficiary) then rows[..1] + [["Beneficiary:", beneficiary.value]] + rows[1..] else rows
  }

  /** With a beneficiary the table is the plain one with one row inserted;
      all other rows keep their order. */
  lemma {:induction false} CaseInfoInsertsOneRow(caseName: string, date: string, entries: seq<TocEntry>, b: string)
    requires b != ""
    ensures var plain := CaseInfo(caseName, date, entries, None);
      CaseInfo(caseName, date, entries, Some(b)) == plain[..1] + [["Beneficiary:", b]] + plain[1..]
  {
  }

  /** Entries with an archive or original URL, in order. */
  function Archived(entries: seq<TocEntry>): (r: seq<TocEntry>)
    ensures |r| <= |entries|
    ensures forall i :: 0 <= i < |r| ==> Truthy(r[i].archiveUrl) || Truthy(r[i].originalUrl)
  {
    if |entries| == 0 then []
    else
      var e := entries[0];
      (if Truthy(e.archiveUrl) || Truthy(e.originalUrl) then [e] else []) + Archived(entries[1..])
  }

  /** Filtering commutes with concatenation, so order is kept. */
  lemma {:induction false} ArchivedAppend(a: seq<TocEntry>, b: seq<TocEntry>)
    ensures Archived(a + b) == Archived(a) + Archived(b)
    decreases |a|
  {
    if |a| > 0 {
      assert (a + b)[1..] == a[1..] + b;
      ArchivedAppend(a[1..], b);
    } else {
      assert a + b == b;
    }
  }

  /** An entry with a URL is kept, one without is dropped. */
  lemma {:induction false} ArchivedSingle(e: TocEntry)
    ensures Archived([e]) == if Truthy(e.archiveUrl) || Truthy(e.originalUrl) then [e] else []
  {
    assert [e][1..] == [];
  }

  /** `d.get(key, 'N/A')[:40] + "..."`. */
  function UrlCell(u: Option<string>): (r: string)
    ensures PyStr.EndsWith(r, "...")
    ensures u.Some? ==> PyStr.StartsWith(u.value, r[..|r| - 3])
    ensures u.Some? ==> |r| == (if |u.value| < UrlWidth then |u.value| else UrlWidth) + 3
    ensures u.None? ==> r == "N/A..."
  {
    var s := PyStr.Take(if u.Some? then u.value else "N/A", UrlWidth);
    assert (s + "...")[..|s|] == s;
    s + "..."
  }

  /** The archived-URL table; absent when no entry has a URL. */
  function UrlRows(entries: seq<TocEntry>): (r: Option<seq<seq<string>>>)
    ensures r.None? <==> |Archived(entries)| == 0
    ensures r.Some? ==> |r.value| == |Archived(entries)| + 1
    ensures r.Some? ==> forall i :: 0 <= i < |Archived(entries)| ==>
      r.value[i + 1] == ["Exhibit " + Archived(entries)[i].number,
        UrlCell(Archived(entries)[i].originalUrl), UrlCell(Archived(entries)[i].archiveUrl)]
  {
    var arch := Archived(entries);
    if |arch| == 0 then None
    else Some([["Exhibit", "Original URL", "Archived URL"]] +
      seq(|arch|, i requires 0 <= i < |arch| =>
        ["Exhibit " + arch[i].number, UrlCell(arch[i].originalUrl), UrlCell(arch[i].archiveUrl)]))
  }

  /** Where `generate_toc` writes: `<case>_TOC.pdf` in the temporary directory. */
  function TocPath(tempDir: string, caseName: string): string
  {
    Paths.JoinPath(tempDir, caseName + "_TOC.pdf")
  }
}

=== FILE: pipeline.dfy ===
/** The exhibit-package pipeline shared by the three drivers (files from
    URLs, from Google Drive, and uploaded): obtain the files, compress
    them, number them, put a table of contents in front, and merge
    everything into one package copied out of the working directory.

    Downloads, the tools, written sizes, the table-of-contents layout and
    the clock are oracles; the file system is a map that every step
    threads through. */
module Pipeline {
  import opened Outcomes
  import opened Documents
  import opened ExhibitList
  import opened Labels
  import Compressor
  import PdfHandler
  import Paths

  // ---------------------------------------------------------------
  // Obtaining the files.

  /** The files whose download succeeded, in source order; a failed
      download is dropped (with a warning) and the rest carry on. */
  function Obtained(downloads: seq<Option<string>>): (r: seq<string>)
    ensures |r| <= |downloads|
  {
    if |downloads| == 0 then []
    else (if downloads[0].Some? then [downloads[0].value] else []) + Obtained(downloads[1..])
  }

  /** Exactly the successful downloads are kept, and order is preserved. */
  lemma {:induction false} ObtainedMembers(downloads: seq<Option<string>>, p: string)
    ensures p in Obtained(downloads) <==> Some(p) in downloads
    decreases |downloads|
  {
    if |downloads| > 0 {
      ObtainedMembers(downloads[1..], p);
      assert downloads == [downloads[0]] + downloads[1..];
    }
  }

  lemma {:induction false} ObtainedAppend(a: seq<Option<string>>, b: seq<Option<string>>)
    ensures Obtained(a + b) == Obtained(a) + Obtained(b)
    decreases |a|
  {
    if |a| > 0 {
      assert (a + b)[1..] == a[1..] + b;
      ObtainedAppend(a[1..], b);
    } else {
      assert a + b == b;
    }
  }

  /** Nothing is obtained exactly when every download failed. */
  lemma {:induction false} NothingObtained(downloads: seq<Option<string>>)
    ensures |Obtained(downloads)| == 0 <==> forall i :: 0 <= i < |downloads| ==> downloads[i].None?
    decreases |downloads|
  {
    if |downloads| > 0 {
      NothingObtained(downloads[1..]);
      assert forall i :: 1 <= i < |downloads| ==> downloads[i] == downloads[1..][i - 1];
    }
  }

  // ---------------------------------------------------------------
  // Compression phase.

  /** One turn of the compression loop: the result when there is one to
      keep (none for a file that is skipped or whose compression failed),
      and the file the turn leaves behind, if any. */
  type CompressStep = (FileSystem, string) -> (Option<Compressor.CompressionResult>, Compressor.Write)

  /** The loop body of the drivers: a missing file is skipped; an
      existing one is compressed to its default output, and only a
      successful result is kept. */
  function HandlerCompression(st: Compressor.Settings, env: Compressor.Env): CompressStep
  {
    (fs: FileSystem, p: string) =>
      if p !in fs then (None, None)
      else
        var res := Compressor.Compress(st, env, fs, p, None).value;
        (if res.success then Some(res) else None, Compressor.CompressWrite(st, env, fs, p, None))
  }

  /** The compression step of a handler, when it has a compressor. */
  function CompressionOf(h: PdfHandler.Handler, env: Compressor.Env): (r: Option<CompressStep>)
    ensures r.Some? <==> h.compression.Some?
  {
    match h.compression
    case None => None
    case Some(st) => Some(HandlerCompression(st, env))
  }

  /** A step that keeps only successes, each of an existing, non-empty
      file. A step writes at most one file, so it removes none. */
  ghost predicate CollectsSuccesses(step: CompressStep)
  {
    forall fs: FileSystem, p: string :: step(fs, p).0.Some? ==>
      p in fs && step(fs, p).0.value.success && step(fs, p).0.value.originalSize > 0
  }

  /** The handler's step keeps exactly the successful compressions of
      existing files. */
  lemma {:induction false} HandlerCompressionMeaning(st: Compressor.Settings, env: Compressor.Env, fs: FileSystem, p: string)
    ensures p !in fs ==> HandlerCompression(st, env)(fs, p) == (None, None)
    ensures p in fs ==>
      var res := Compressor.Compress(st, env, fs, p, None).value;
      (HandlerCompression(st, env)(fs, p).0.Some? <==> res.success) &&
      (res.success ==> HandlerCompression(st, env)(fs, p).0.value == res) &&
      Compressor.Apply(fs, HandlerCompression(st, env)(fs, p).1) == Compressor.AfterCompress(st, env, fs, p, None)
  {
  }

  lemma {:induction false} HandlerCollectsSuccesses(st: Compressor.Settings, env: Compressor.Env)
    ensures CollectsSuccesses(HandlerCompression(st, env))
  {
    var step := HandlerCompression(st, env);
    forall fs: FileSystem, p: string | step(fs, p).0.Some?
      ensures p in fs && step(fs, p).0.value.success && step(fs, p).0.value.originalSize > 0
    {
      HandlerCompressionMeaning(st, env, fs, p);
    }
  }

  /** The compression loop: the kept results in file order, and the file
      system after all of them. */
  function CompressAll(step: CompressStep, fs: FileSystem, paths: seq<string>)
    : (r: (seq<Compressor.CompressionResult>, FileSystem))
    ensures |r.0| <= |paths|
    decreases |paths|
  {
    if |paths| == 0 then ([], fs)
    else
      var (res, w) := step(fs, paths[0]);
      var rest := CompressAll(step, Compressor.Apply(fs, w), paths[1..]);
      if res.Some? then ([res.value] + rest.0, rest.1) else rest
  }

  /** With a step that collects successes, every collected result is a
      success of a non-empty original, and no file is removed. */
  lemma {:induction false} CompressAllSucceeds(step: CompressStep, fs: FileSystem, paths: seq<string>)
    requires CollectsSuccesses(step)
    ensures fs.Keys <= CompressAll(step, fs, paths).1.Keys
    ensures forall k :: 0 <= k < |CompressAll(step, fs, paths).0| ==>
      CompressAll(step, fs, paths).0[k].success && CompressAll(step, fs, paths).0[k].originalSize > 0
    decreases |paths|
  {
    if |paths| > 0 {
      CompressAllSucceeds(step, Compressor.Apply(fs, step(fs, paths[0]).1), paths[1..]);
    }
  }

  /** A file that yields no result leaves no entry: the results of the
      files after it, run against what its turn left on disk, move one
      place forward. */
  lemma {:induction false} FailureShiftsResults(step: CompressStep, fs: FileSystem, paths: seq<string>)
    requires |paths| > 0 && step(fs, paths[0]).0.None?
    ensures CompressAll(step, fs, paths) == CompressAll(step, Compressor.Apply(fs, step(fs, paths[0]).1), paths[1..])
  {
  }

  /** A file that yields a result contributes the first one. */
  lemma {:induction false} SuccessLeadsResults(step: CompressStep, fs: FileSystem, paths: seq<string>)
    requires |paths| > 0 && step(fs, paths[0]).0.Some?
    ensures |CompressAll(step, fs, paths).0| > 0
    ensures CompressAll(step, fs, paths).0[0] == step(fs, paths[0]).0.value
  {
  }

  /** The phase: nothing without a compressor. */
  function CompressionPhase(compress: Option<CompressStep>, fs: FileSystem, paths: seq<string>)
    : (r: (seq<Compressor.CompressionResult>, FileSystem))
    ensures compress.None? ==> r == ([], fs)
    ensures compress.Some? ==> r == CompressAll(compress.value, fs, paths)
    ensures |r.0| <= |paths|
  {
    match compress
    case None => ([], fs)
    case Some(step) => CompressAll(step, fs, paths)
  }

  function SumOriginal(rs: seq<Compressor.CompressionResult>): nat
  {
    if |rs| == 0 then 0 else rs[0].originalSize + SumOriginal(rs[1..])
  }

  function SumCompressed(rs: seq<Compressor.CompressionResult>): nat
  {
    if |rs| == 0 then 0 else rs[0].compressedSize + SumCompressed(rs[1..])
  }

  /** The totals shown after compression; the average reduction is
      derived from them by `AvgReduction`. */
  datatype CompressionStats = CompressionStats(
    originalSize: nat, compressedSize: nat, methodName: string, quality: string)

  /** The average reduction of the totals, guarded against a zero total:
      the saved share of all bytes, as a percentage. */
  function AvgReduction(s: CompressionStats): (r: real)
    ensures s.originalSize == 0 ==> r == 0.0
    ensures s.originalSize > 0 ==>
      r * (s.originalSize as real) == 100.0 * ((s.originalSize as real) - (s.compressedSize as real))
    ensures r <= 100.0
  {
    if s.originalSize > 0 then
      Compressor.ReductionMeaning(s.originalSize, s.compressedSize);
      Compressor.Reduction(s.originalSize, s.compressedSize)
    else 0.0
  }

  /** Statistics over the successful results: the totals and the method
      of the first result; none without results. */
  function Stats(rs: seq<Compressor.CompressionResult>, quality: string): (r: Option<CompressionStats>)
    ensures r.None? <==> |rs| == 0
    ensures r.Some? ==> r.value.originalSize == SumOriginal(rs) && r.value.compressedSize == SumCompressed(rs)
    ensures r.Some? ==> r.value.methodName == rs[0].methodName && r.value.quality == quality
  {
    if |rs| == 0 then None
    else Some(CompressionStats(SumOriginal(rs), SumCompressed(rs), rs[0].methodName, quality))
  }

  lemma {:induction false} SumOriginalPositive(rs: seq<Compressor.CompressionResult>)
    requires |rs| > 0 && rs[0].originalSize > 0
    ensures SumOriginal(rs) > 0
  {
  }

  /** For collected results the total original size is positive, so the
      average reduction is the saved share of all bytes, never the
      zero-total fallback. */
  lemma {:induction false} AverageReduction(step: CompressStep, fs: FileSystem, paths: seq<string>, quality: string)
    requires CollectsSuccesses(step) && |CompressAll(step, fs, paths).0| > 0
    ensures Stats(CompressAll(step, fs, paths).0, quality).value.originalSize > 0
  {
    var rs := CompressAll(step, fs, paths).0;
    CompressAllSucceeds(step, fs, paths);
    SumOriginalPositive(rs);
  }

  // ---------------------------------------------------------------
  // Numbering.

  /** `get_pdf_page_count`: the page count, or 0 when the file cannot be
      read. */
  function PageCount(fs: FileSystem, p: string): (n: nat)
    ensures p !in fs ==> n == 0
    ensures p in fs ==> n == |fs[p].pages|
  {
    if p in fs then |fs[p].pages| else 0
  }

  /** The compression details exhibit `i` shows: those of the i-th
      collected result, whatever file it came from. */
  function CompressionInfoAt(rs: seq<Compressor.CompressionResult>, i: nat): (r: Option<CompressionInfo>)
    ensures r.Some? <==> i < |rs| && rs[i].success
    ensures r.Some? ==> r.value.reduction == rs[i].reductionPercent && r.value.methodName == rs[i].methodName
  {
    if i < |rs| && rs[i].success then Some(CompressionInfo(rs[i].reductionPercent, rs[i].methodName)) else None
  }

  /** Stamping one file with a label: the path of the stamped copy and
      the file system after writing it. */
  type Numbering = (FileSystem, string, string) -> (string, FileSystem)

  /** The handler's `add_exhibit_number` as a numbering step. */
  function HandlerNumbering(h: PdfHandler.Handler, env: Compressor.Env, sizeOf: seq<Page> -> nat): Numbering
  {
    (fs, p, lbl) => PdfHandler.AddExhibitNumber(h, env, fs, sizeOf, p, lbl)
  }

  /** How a numbering step names the copy of a file: from the label and
      the input path. */
  type Naming = (string, string) -> string

  /** The handler's naming: `Exhibit_<label>_<name>` in its directory. */
  function HandlerNaming(h: PdfHandler.Handler): Naming
  {
    (lbl: string, p: string) => PdfHandler.NumberedPath(h.tempDir, lbl, p)
  }

  /** A numbering step that removes no file and names the copy of an
      existing file by `name`. */
  ghost predicate NamesCopies(number: Numbering, name: Naming)
  {
    forall fs: FileSystem, p: string, lbl: string :: fs.Keys <= number(fs, p, lbl).1.Keys &&
      (p in fs ==> number(fs, p, lbl).0 == name(lbl, p))
  }

  lemma {:induction false} HandlerNamesCopies(h: PdfHandler.Handler, env: Compressor.Env, sizeOf: seq<Page> -> nat)
    ensures NamesCopies(HandlerNumbering(h, env, sizeOf), HandlerNaming(h))
  {
    var number := HandlerNumbering(h, env, sizeOf);
    var name := HandlerNaming(h);
    forall fs: FileSystem, p: string, lbl: string
      ensures fs.Keys <= number(fs, p, lbl).1.Keys && (p in fs ==> number(fs, p, lbl).0 == name(lbl, p))
    {
      var step := PdfHandler.AddExhibitNumber(h, env, fs, sizeOf, p, lbl);
      assert number(fs, p, lbl) == step;
    }
  }

  /** Stamp the files from position `i` on with their labels: the paths
      of the numbered files and the page count of each input, read after
      it was numbered. */
  function NumberFrom(number: Numbering, fs: FileSystem, labels: seq<string>, paths: seq<string>, i: nat)
    : (r: (seq<string>, seq<nat>, FileSystem))
    requires |labels| == |paths| && i <= |paths|
    ensures |r.0| == |paths| - i && |r.1| == |paths| - i
    decreases |paths| - i
  {
    if i == |paths| then ([], [], fs)
    else
      var step := number(fs, paths[i], labels[i]);
      var rest := NumberFrom(number, step.1, labels, paths, i + 1);
      ([step.0] + rest.0, [PageCount(step.1, paths[i])] + rest.1, rest.2)
  }

  /** Entry `k` of a numbering from `i` is entry `k` of the numbering
      from `i + 1` that follows the first step. */
  lemma {:induction false} NumberFromShift(number: Numbering, fs: FileSystem, labels: seq<string>, paths: seq<string>, i: nat, k: nat)
    requires |labels| == |paths| && i < k < |paths|
    ensures NumberFrom(number, fs, labels, paths, i).0[k - i] ==
      NumberFrom(number, number(fs, paths[i], labels[i]).1, labels, paths, i + 1).0[k - (i + 1)]
  {
  }

  /** The first entries of a numbering from `i` are the copy made for
      input `i` and the page count of input `i` read after that step. */
  lemma {:induction false} NumberFromHead(number: Numbering, fs: FileSystem, labels: seq<string>, paths: seq<string>, i: nat)
    requires |labels| == |paths| && i < |paths|
    ensures NumberFrom(number, fs, labels, paths, i).0[0] == number(fs, paths[i], labels[i]).0
    ensures NumberFrom(number, fs, labels, paths, i).1[0] == PageCount(number(fs, paths[i], labels[i]).1, paths[i])
  {
  }

  /** With a step that names its copies, numbering removes no file. */
  lemma {:induction false} NumberFromKeeps(number: Numbering, name: Naming, fs: FileSystem, labels: seq<string>, paths: seq<string>, i: nat)
    requires NamesCopies(number, name)
    requires |labels| == |paths| && i <= |paths|
    ensures fs.Keys <= NumberFrom(number, fs, labels, paths, i).2.Keys
    decreases |paths| - i
  {
    if i < |paths| {
      var step := number(fs, paths[i], labels[i]);
      NumberFromKeeps(number, name, step.1, labels, paths, i + 1);
      assert NumberFrom(number, fs, labels, paths, i).2 == NumberFrom(number, step.1, labels, paths, i + 1).2;
    }
  }

  /** With a step that names its copies, the file numbered for an
      existing input `k` is `Exhibit_<label>_<name>` with the label of
      position `k`. */
  lemma {:induction false} NumberFromNames(number: Numbering, name: Naming, fs: FileSystem, labels: seq<string>, paths: seq<string>, i: nat, k: nat)
    requires NamesCopies(number, name)
    requires |labels| == |paths| && i <= k < |paths| && paths[k] in fs
    ensures NumberFrom(number, fs, labels, paths, i).0[k - i] == name(labels[k], paths[k])
    decreases k - i, 1
  {
    if k == i {
      NumberFromHead(number, fs, labels, paths, i);
    } else {
      NumberFromTail(number, name, fs, labels, paths, i, k);
    }
  }

  lemma {:induction false} NumberFromTail(number: Numbering, name: Naming, fs: FileSystem, labels: seq<string>, paths: seq<string>, i: nat, k: nat)
    requires NamesCopies(number, name)
    requires |labels| == |paths| && i < k < |paths| && paths[k] in fs
    ensures NumberFrom(number, fs, labels, paths, i).0[k - i] == name(labels[k], paths[k])
    decreases k - i, 0
  {
      var fs1 := number(fs, paths[i], labels[i]).1;
      assert paths[k] in fs1;
      NumberFromNames(number, name, fs1, labels, paths, i + 1, k);
      NumberFromShift(number, fs, labels, paths, i, k);
  }

  /** The exhibit list: entry `k` has the label of position `k`, the stem
      and base name of file `k`, its page count, and the k-th collected
      compression result. */
  function ListEntries(style: Style, paths: seq<string>, pages: seq<nat>, rs: seq<Compressor.CompressionResult>)
    : (r: seq<ExhibitInfo>)
    requires Labelable(style, |paths|) && |pages| == |paths|
    ensures |r| == |paths| && Labelled(r, style)
    ensures forall k :: 0 <= k < |paths| ==> r[k].compression == CompressionInfoAt(rs, k)
    ensures forall k :: 0 <= k < |paths| ==> r[k].filename == Paths.BaseName(paths[k]) && r[k].pages == pages[k]
    ensures forall k :: 0 <= k < |paths| ==> r[k].title == Paths.Stem(paths[k])
  {
    seq(|paths|, k requires 0 <= k < |paths| =>
      ExhibitInfo(Label(style, k), Paths.Stem(paths[k]), Paths.BaseName(paths[k]), pages[k], CompressionInfoAt(rs, k)))
  }

  // ---------------------------------------------------------------
  // Table of contents and merge.

  /** Options of a run, and the values the environment supplies. */
  datatype Config = Config(
    style: Style,
    enableCompression: bool,
    qualityPreset: string,
    addToc: bool,
    mergePdfs: bool,
    tempDir: string,
    systemTemp: string,
    visaType: string,
    date: string,
    timestamp: string)

  function TocPath(cfg: Config): string
  {
    Paths.JoinPath(cfg.tempDir, "TOC.pdf")
  }

  /** The files to merge: the table of contents, when requested, in front
      of the numbered files. */
  function FileList(cfg: Config, numbered: seq<string>): (r: seq<string>)
    ensures |r| == |numbered| + (if cfg.addToc then 1 else 0)
    ensures cfg.addToc ==> r[0] == TocPath(cfg)
    ensures forall k :: 0 <= k < |numbered| ==> r[k + |r| - |numbered|] == numbered[k]
  {
    if cfg.addToc then [TocPath(cfg)] + numbered else numbered
  }

  /** With a table of contents requested it is written, and inserted in
      front of the numbered files. */
  function WithToc(
    cfg: Config, fs: FileSystem, sizeOf: seq<Page> -> nat,
    layout: (seq<(string, string)>, seq<seq<string>>) -> seq<Page>,
    list: seq<ExhibitInfo>, numbered: seq<string>)
    : (r: (seq<string>, FileSystem))
    ensures r.0 == FileList(cfg, numbered)
    ensures cfg.addToc ==> TocPath(cfg) in r.1
    ensures !cfg.addToc ==> r.1 == fs
    ensures fs.Keys <= r.1.Keys
  {
    if cfg.addToc then
      var (toc, fs1) := PdfHandler.GenerateTableOfContents(fs, sizeOf, layout, list, cfg.visaType, cfg.date, TocPath(cfg));
      ([toc] + numbered, fs1)
    else (numbered, fs)
  }

  predicate AllExist(fs: FileSystem, files: seq<string>)
  {
    forall k :: 0 <= k < |files| ==> files[k] in fs
  }

  function MergedPath(cfg: Config): string
  {
    Paths.JoinPath(cfg.tempDir, "final_package.pdf")
  }

  /** The package copied out of the working directory. */
  function FinalPath(cfg: Config): string
  {
    Paths.JoinPath(cfg.systemTemp, "exhibit_package_" + cfg.timestamp + ".pdf")
  }

  /** Merge (when asked, and, with `checkFiles`, only when every file
      exists), then copy the result out. */
  function MergePhase(cfg: Config, fs: FileSystem, sizeOf: seq<Page> -> nat, files: seq<string>, checkFiles: bool)
    : (r: (Option<string>, FileSystem))
    ensures r.0.Some? <==> cfg.mergePdfs && (checkFiles ==> AllExist(fs, files))
    ensures r.0.Some? ==> (r.0.value == FinalPath(cfg) && FinalPath(cfg) in r.1 &&
      |r.1[FinalPath(cfg)].pages| == PagesOf(fs, files))
    ensures r.0.None? ==> r.1 == fs
  {
    if !cfg.mergePdfs || (checkFiles && !AllExist(fs, files)) then (None, fs)
    else
      var (merged, fs1) := PdfHandler.MergePdfs(fs, sizeOf, files, MergedPath(cfg));
      (Some(FinalPath(cfg)), fs1[FinalPath(cfg) := fs1[merged]])
  }

  /** The package holds the pages of its files in order. */
  lemma {:induction false} PackagePages(cfg: Config, fs: FileSystem, sizeOf: seq<Page> -> nat, files: seq<string>, checkFiles: bool)
    requires MergePhase(cfg, fs, sizeOf, files, checkFiles).0.Some?
    ensures MergePhase(cfg, fs, sizeOf, files, checkFiles).1[FinalPath(cfg)].pages == PdfHandler.MergedPages(fs, files)
  {
  }

  // ---------------------------------------------------------------
  // The whole run.

  /** What a run leaves behind. */
  datatype Package = Package(
    exhibitList: seq<ExhibitInfo>,
    files: seq<string>,
    compression: seq<Compressor.CompressionResult>,
    stats: Option<CompressionStats>,
    output: Option<string>,
    fs: FileSystem)

  /** Compression, numbering, table of contents and merge over the files
      obtained, with the compression and numbering steps given. */
  function Assemble(
    cfg: Config, compress: Option<CompressStep>, number: Numbering, fs: FileSystem,
    sizeOf: seq<Page> -> nat, layout: (seq<(string, string)>, seq<seq<string>>) -> seq<Page>,
    paths: seq<string>, checkFiles: bool)
    : (r: Package)
    requires Labelable(cfg.style, |paths|)
    ensures |r.exhibitList| == |paths| && Labelled(r.exhibitList, cfg.style)
    ensures forall k :: 0 <= k < |paths| ==> r.exhibitList[k].compression == CompressionInfoAt(r.compression, k)
    ensures r.files == FileList(cfg, NumberFrom(number, CompressionPhase(compress, fs, paths).1, LabelsFor(cfg.style, |paths|), paths, 0).0)
    ensures r.compression == CompressionPhase(compress, fs, paths).0
    ensures r.stats.None? <==> |r.compression| == 0
    ensures r.output.Some? ==> cfg.mergePdfs && r.output.value == FinalPath(cfg) && r.output.value in r.fs
  {
    var (rs, fs1) := CompressionPhase(compress, fs, paths);
    var (numbered, pages, fs2) := NumberFrom(number, fs1, LabelsFor(cfg.style, |paths|), paths, 0);
    var list := ListEntries(cfg.style, paths, pages, rs);
    var (files, fs3) := WithToc(cfg, fs2, sizeOf, layout, list, numbered);
    var (output, fs4) := MergePhase(cfg, fs3, sizeOf, files, checkFiles);
    Package(list, files, rs, Stats(rs, cfg.qualityPreset), output, fs4)
  }

  /** With steps that remove no file, a run removes no file. */
  lemma {:induction false} RunKeepsFiles(
    cfg: Config, compress: Option<CompressStep>, number: Numbering, name: Naming, fs: FileSystem,
    sizeOf: seq<Page> -> nat, layout: (seq<(string, string)>, seq<seq<string>>) -> seq<Page>,
    paths: seq<string>, checkFiles: bool)
    requires Labelable(cfg.style, |paths|)
    requires compress.Some? ==> CollectsSuccesses(compress.value)
    requires NamesCopies(number, name)
    ensures fs.Keys <= Assemble(cfg, compress, number, fs, sizeOf, layout, paths, checkFiles).fs.Keys
  {
    var (rs, fs1) := CompressionPhase(compress, fs, paths);
    if compress.Some? {
      CompressAllSucceeds(compress.value, fs, paths);
    }
    NumberFromKeeps(number, name, fs1, LabelsFor(cfg.style, |paths|), paths, 0);
  }

  /** With steps that remove no file and name their copies, the numbered
      file of a run for an existing input `k` is `Exhibit_<label>_<name>`
      with the label of position `k`, whatever compression did before. */
  lemma {:induction false} NumberedInOrder(
    compress: Option<CompressStep>, number: Numbering, name: Naming, fs: FileSystem,
    style: Style, paths: seq<string>, k: nat)
    requires Labelable(style, |paths|)
    requires compress.Some? ==> CollectsSuccesses(compress.value)
    requires NamesCopies(number, name)
    requires k < |paths| && paths[k] in fs
    ensures NumberFrom(number, CompressionPhase(compress, fs, paths).1, LabelsFor(style, |paths|), paths, 0).0[k] ==
      name(Label(style, k), paths[k])
  {
    var fs1 := CompressionPhase(compress, fs, paths).1;
    if compress.Some? {
      CompressAllSucceeds(compress.value, fs, paths);
    }
    assert paths[k] in fs1;
    NumberFromNames(number, name, fs1, LabelsFor(style, |paths|), paths, 0, k);
  }

  /** The URL and Drive drivers: failed downloads are dropped, and the run
      stops only when none succeeded. Files are not re-checked before the
      merge. */
  function GenerateFromDownloads(
    cfg: Config, h: PdfHandler.Handler, env: Compressor.Env, fs: FileSystem,
    sizeOf: seq<Page> -> nat, layout: (seq<(string, string)>, seq<seq<string>>) -> seq<Page>,
    downloads: seq<Option<string>>)
    : (r: Result<Package>)
    requires Labelable(cfg.style, |downloads|)
    requires h.compression.Some? ==> cfg.enableCompression
    ensures r.Err? <==> |Obtained(downloads)| == 0
    ensures r.Ok? ==> |r.value.exhibitList| == |Obtained(downloads)|
  {
    var paths := Obtained(downloads);
    if |paths| == 0 then Err("No PDFs were successfully downloaded")
    else Ok(Assemble(cfg, CompressionOf(h, env), HandlerNumbering(h, env, sizeOf), fs, sizeOf, layout, paths, false))
  }

  /** The upload driver: no files is an error; with compression enabled
      every file must exist before compressing; and the merge is skipped
      when a file to merge is missing. */
  function GenerateFromUploads(
    cfg: Config, h: PdfHandler.Handler, env: Compressor.Env, fs: FileSystem,
    sizeOf: seq<Page> -> nat, layout: (seq<(string, string)>, seq<seq<string>>) -> seq<Page>,
    paths: seq<string>)
    : (r: Result<Package>)
    requires Labelable(cfg.style, |paths|)
    requires h.compression.Some? ==> cfg.enableCompression
    ensures r.Err? <==> |paths| == 0 || (cfg.enableCompression && !AllExist(fs, paths))
    ensures r.Ok? ==> |r.value.exhibitList| == |paths|
  {
    if |paths| == 0 then Err("No files to process")
    else if cfg.enableCompression && !AllExist(fs, paths) then Err("Cannot compress: file(s) not found")
    else Ok(Assemble(cfg, CompressionOf(h, env), HandlerNumbering(h, env, sizeOf), fs, sizeOf, layout, paths, true))
  }

  /** Exhibits and results are paired by position: when the first file
      yields no result and the second does, exhibit 0 shows the second
      file's reduction. */
  lemma {:induction false} FirstExhibitShowsSecondResult(step: CompressStep, fs: FileSystem, paths: seq<string>)
    requires CollectsSuccesses(step) && |paths| >= 2
    requires step(fs, paths[0]).0.None?
    requires step(Compressor.Apply(fs, step(fs, paths[0]).1), paths[1]).0.Some?
    ensures var second := step(Compressor.Apply(fs, step(fs, paths[0]).1), paths[1]).0.value;
      CompressionInfoAt(CompressAll(step, fs, paths).0, 0) == Some(CompressionInfo(second.reductionPercent, second.methodName))
  {
    FailureShiftsResults(step, fs, paths);
    assert paths[1..][0] == paths[1];
    SuccessLeadsResults(step, Compressor.Apply(fs, step(fs, paths[0]).1), paths[1..]);
  }
}

=== FILE: pystr.dfy ===
/** The handful of Python `str` operations the program relies on, with
    Python's exact semantics: `find`, `in`, `split(sep)` with a non-empty
    separator, `sep.join`, `startswith`, `endswith` and the slice `s[:n]`.
    Splitting is modelled exactly because the program indexes its pieces:
    `s.split(p)[1]` is the text between the first and second occurrence of
    `p`, and `s.split(p)[-1]` is the piece after the last non-overlapping
    occurrence found from the left. */
module PyStr {
  import opened Outcomes

  /** `pat` occurs in `s` starting at index `i`. */
  predicate OccursAt(s: string, pat: string, i: int)
  {
    0 <= i && i + |pat| <= |s| && s[i..i + |pat|] == pat
  }

  predicate StartsWith(s: string, p: string)
  {
    |p| <= |s| && s[..|p|] == p
  }

  predicate EndsWith(s: string, p: string)
  {
    |p| <= |s| && s[|s| - |p|..] == p
  }

  /** Leftmost occurrence of `pat` at or after `i`. */
  function FindFrom(s: string, pat: string, i: nat): (r: Option<nat>)
    requires i <= |s|
    ensures r.Some? ==> i <= r.value && OccursAt(s, pat, r.value)
    decreases |s| - i
  {
    if OccursAt(s, pat, i) then Some(i)
    else if i + |pat| >= |s| then None
    else FindFrom(s, pat, i + 1)
  }

  /** `FindFrom` returns the leftmost occurrence, and `None` only when
      there is none. */
  lemma {:induction false} FindFromIsLeftmost(s: string, pat: string, i: nat, j: int)
    requires i <= j <= |s| && OccursAt(s, pat, j)
    ensures FindFrom(s, pat, i).Some? && FindFrom(s, pat, i).value <= j
    decreases |s| - i
  {
    if !OccursAt(s, pat, i) && i + |pat| < |s| {
      if i < j {
        FindFromIsLeftmost(s, pat, i + 1, j);
      }
    }
  }

  /** Python `s.find(pat)`, with `None` for -1. */
  function Find(s: string, pat: string): (r: Option<nat>)
    ensures r.Some? ==> OccursAt(s, pat, r.value)
  {
    FindFrom(s, pat, 0)
  }

  /** No occurrence lies before the one `Find` reports, and `Find` misses none. */
  lemma {:induction false} FindIsLeftmost(s: string, pat: string, j: int)
    requires OccursAt(s, pat, j)
    ensures Find(s, pat).Some? && Find(s, pat).value <= j
  {
    FindFromIsLeftmost(s, pat, 0, j);
  }

  /** Python `pat in s`. */
  predicate Contains(s: string, pat: string)
  {
    Find(s, pat).Some?
  }

  lemma {:induction false} ContainsWitness(s: string, pat: string, j: int)
    requires OccursAt(s, pat, j)
    ensures Contains(s, pat)
  {
    FindIsLeftmost(s, pat, j);
  }

  /** For a one-character pattern, substring search is membership. */
  lemma {:induction false} ContainsChar(s: string, c: char)
    ensures Contains(s, [c]) <==> c in s
  {
    if c in s {
      var j :| 0 <= j < |s| && s[j] == c;
      assert s[j..j + 1] == [c];
      ContainsWitness(s, [c], j);
    }
    if Contains(s, [c]) {
      var j := Find(s, [c]).value;
      assert s[j..j + 1][0] == s[j];
    }
  }

  /** An occurrence inside a prefix is an occurrence in the whole string. */
  lemma {:induction false} OccursInPrefix(s: string, pat: string, p: nat, j: int)
    requires p <= |s|
    requires OccursAt(s[..p], pat, j)
    ensures OccursAt(s, pat, j) && j + |pat| <= p
  {
    assert s[..p][j..j + |pat|] == s[j..j + |pat|];
  }

  /** An occurrence inside a suffix is an occurrence in the whole string. */
  lemma {:induction false} OccursInSuffix(s: string, pat: string, p: nat, j: int)
    requires p <= |s|
    requires OccursAt(s[p..], pat, j)
    ensures OccursAt(s, pat, p + j)
  {
    assert s[p..][j..j + |pat|] == s[p + j..p + j + |pat|];
  }

  /** Python `s.split(sep)` for a non-empty separator: the pieces between
      the non-overlapping occurrences of `sep`, scanning from the left. */
  function Split(s: string, sep: string): (r: seq<string>)
    requires sep != ""
    ensures 1 <= |r|
    decreases |s|
  {
    match Find(s, sep)
    case None => [s]
    case Some(p) =>
      [s[..p]] + Split(s[p + |sep|..], sep)
  }

  /** The separator occurs exactly when the split yields more than one piece. */
  lemma {:induction false} SplitsIffContains(s: string, sep: string)
    requires sep != ""
    ensures |Split(s, sep)| > 1 <==> Contains(s, sep)
  {
    var f := Find(s, sep);
    if f.Some? {
      SplitStep(s, sep, f.value);
    }
  }

  lemma {:induction false} HeadIsFree(s: string, sep: string, p: nat)
    requires sep != "" && Find(s, sep) == Some(p)
    ensures !Contains(s[..p], sep)
  {
    if Contains(s[..p], sep) {
      var j := Find(s[..p], sep).value;
      OccursInPrefix(s, sep, p, j);
      FindIsLeftmost(s, sep, j);
    }
  }

  /** No piece of a split contains the separator. */
  lemma {:induction false} PiecesAreFree(s: string, sep: string, k: nat)
    requires sep != "" && k < |Split(s, sep)|
    ensures !Contains(Split(s, sep)[k], sep)
    decreases |s|
  {
    var f := Find(s, sep);
    if f.Some? {
      var p := f.value;
      SplitStep(s, sep, p);
      if k == 0 {
        HeadIsFree(s, sep, p);
      } else {
        PiecesAreFree(s[p + |sep|..], sep, k - 1);
      }
    }
  }

  /** Python `sep.join(pieces)`. */
  function Join(pieces: seq<string>, sep: string): string
  {
    if |pieces| == 0 then ""
    else if |pieces| == 1 then pieces[0]
    else pieces[0] + sep + Join(pieces[1..], sep)
  }

  /** Splitting loses nothing: joining the pieces back gives the input. */
  lemma {:induction false} JoinSplit(s: string, sep: string)
    requires sep != ""
    ensures Join(Split(s, sep), sep) == s
    decreases |s|
  {
    var f := Find(s, sep);
    if f.Some? {
      var p := f.value;
      var rest := s[p + |sep|..];
      JoinSplit(rest, sep);
      SplitStep(s, sep, p);
      JoinCons(s[..p], Split(rest, sep), sep);
      assert s == s[..p] + sep + rest by {
        assert s[p..p + |sep|] == sep;
        assert s == s[..p] + s[p..p + |sep|] + s[p + |sep|..];
      }
    }
  }

  lemma {:induction false} SplitStep(s: string, sep: string, p: nat)
    requires sep != "" && Find(s, sep) == Some(p)
    ensures Split(s, sep) == [s[..p]] + Split(s[p + |sep|..], sep)
  {
  }

  lemma {:induction false} JoinCons(a: string, t: seq<string>, sep: string)
    requires 1 <= |t|
    ensures Join([a] + t, sep) == a + sep + Join(t, sep)
  {
    assert ([a] + t)[1..] == t;
  }

  /** A joined string ends with its last piece. */
  lemma {:induction false} JoinEndsWithLast(pieces: seq<string>, sep: string)
    requires 1 <= |pieces|
    ensures EndsWith(Join(pieces, sep), pieces[|pieces| - 1])
  {
    if |pieces| > 1 {
      var t := pieces[1..];
      JoinEndsWithLast(t, sep);
      EndsWithExtend(pieces[0] + sep, Join(t, sep), t[|t| - 1]);
    }
  }

  lemma {:induction false} EndsWithExtend(x: string, y: string, t: string)
    requires EndsWith(y, t)
    ensures EndsWith(x + y, t)
  {
    assert (x + y)[|x + y| - |t|..] == y[|y| - |t|..];
  }

  /** A joined string starts with its first piece. */
  lemma {:induction false} JoinStartsWithFirst(pieces: seq<string>, sep: string)
    requires 1 <= |pieces|
    ensures StartsWith(Join(pieces, sep), pieces[0])
  {
    if |pieces| > 1 {
      var rest := sep + Join(pieces[1..], sep);
      assert Join(pieces, sep) == pieces[0] + rest;
      assert (pieces[0] + rest)[..|pieces[0]|] == pieces[0];
    }
  }

  /** The first piece of a split is a prefix of the input. */
  lemma {:induction false} FirstIsPrefix(s: string, sep: string)
    requires sep != ""
    ensures StartsWith(s, Split(s, sep)[0])
  {
    var pieces := Split(s, sep);
    JoinSplit(s, sep);
    JoinStartsWithFirst(pieces, sep);
  }

  /** The last piece of a split is a suffix of the input. */
  lemma {:induction false} LastIsSuffix(s: string, sep: string)
    requires sep != ""
    ensures EndsWith(s, Split(s, sep)[|Split(s, sep)| - 1])
  {
    var pieces := Split(s, sep);
    JoinEndsWithLast(pieces, sep);
    JoinSplit(s, sep);
    SameEndsWith(Join(pieces, sep), s, pieces[|pieces| - 1]);
  }

  lemma {:induction false} SameEndsWith(a: string, b: string, t: string)
    requires a == b && EndsWith(a, t)
    ensures EndsWith(b, t)
  {
  }

  /** `s.split(sep)[0]`: the text before the first `sep`, or all of `s`
      when `sep` does not occur. */
  function First(s: string, sep: string): (r: string)
    requires sep != ""
    ensures StartsWith(s, r) && !Contains(r, sep)
    ensures !Contains(s, sep) ==> r == s
    ensures Contains(s, sep) ==> Find(s, sep) == Some(|r|)
  {
    SplitsIffContains(s, sep);
    PiecesAreFree(s, sep, 0);
    FirstIsPrefix(s, sep);
    if Contains(s, sep) then SplitStep(s, sep, Find(s, sep).value); Split(s, sep)[0]
    else Split(s, sep)[0]
  }

  /** Cutting `n` characters off the end of `s` leaves a text ending in
      `sep`, given that the same holds of the text after an occurrence of
      `sep` at `p`, or that exactly that text was cut. */
  lemma {:induction false} CutEndsWithSep(s: string, sep: string, p: nat, n: nat)
    requires OccursAt(s, sep, p) && n <= |s| - p - |sep|
    requires n == |s| - p - |sep| || EndsWith(s[p + |sep|..][..|s| - p - |sep| - n], sep)
    ensures EndsWith(s[..|s| - n], sep)
  {
    var q := p + |sep|;
    if n == |s| - q {
      assert s[..|s| - n][|s| - n - |sep|..] == s[p..q];
    } else {
      assert s[..|s| - n] == s[..q] + s[q..][..|s| - q - n];
      EndsWithExtend(s[..q], s[q..][..|s| - q - n], sep);
    }
  }

  /** The last piece of a split. */
  function LastPiece(s: string, sep: string): string
    requires sep != ""
  {
    Split(s, sep)[|Split(s, sep)| - 1]
  }

  lemma {:induction false} LastPieceStep(s: string, sep: string, p: nat)
    requires sep != "" && Find(s, sep) == Some(p)
    ensures LastPiece(s, sep) == LastPiece(s[p + |sep|..], sep)
  {
    SplitStep(s, sep, p);
  }

  lemma {:induction false} SplitFree(s: string, sep: string)
    requires sep != "" && !Contains(s, sep)
    ensures LastPiece(s, sep) == s
  {
  }

  /** The last piece of a split that found `sep` comes right after an
      occurrence of `sep`. */
  lemma {:induction false} LastFollowsSep(s: string, sep: string)
    requires sep != "" && Contains(s, sep)
    ensures |LastPiece(s, sep)| + |sep| <= |s|
    ensures EndsWith(s[..|s| - |LastPiece(s, sep)|], sep)
    decreases |s|
  {
    var p := Find(s, sep).value;
    var rest := s[p + |sep|..];
    LastPieceStep(s, sep, p);
    if Contains(rest, sep) {
      LastFollowsSep(rest, sep);
    } else {
      SplitFree(rest, sep);
    }
    CutEndsWithSep(s, sep, p, |LastPiece(rest, sep)|);
  }

  /** Where the last occurrence of `sep` starts in the chain that `split`
      follows: find the leftmost occurrence, then search again right after
      it, so occurrences never overlap. `None` when `sep` does not occur. */
  function LastCut(s: string, sep: string): (r: Option<nat>)
    requires sep != ""
    ensures r.Some? ==> r.value + |sep| <= |s|
    decreases |s|
  {
    if Find(s, sep).None? then None
    else
      var p := Find(s, sep).value;
      var c := LastCut(s[p + |sep|..], sep);
      if c.None? then Some(p)
      else Some(p + |sep| + c.value)
  }

  /** One step of the chain: after the leftmost occurrence at `p`, the
      last cut is that of the text after it, shifted, or `p` itself. */
  lemma {:induction false} LastCutStep(s: string, sep: string, p: nat)
    requires sep != "" && Find(s, sep) == Some(p)
    ensures LastCut(s[p + |sep|..], sep).None? ==> LastCut(s, sep) == Some(p)
    ensures LastCut(s[p + |sep|..], sep).Some? ==> LastCut(s, sep) == Some(p + |sep| + LastCut(s[p + |sep|..], sep).value)
  {
  }

  /** There is a last cut exactly when `sep` occurs. */
  lemma {:induction false} LastCutFound(s: string, sep: string)
    requires sep != ""
    ensures LastCut(s, sep).None? <==> !Contains(s, sep)
  {
  }

  /** The last cut is an occurrence of `sep`. */
  lemma {:induction false} LastCutOccurs(s: string, sep: string)
    requires sep != ""
    ensures LastCut(s, sep).Some? ==> OccursAt(s, sep, LastCut(s, sep).value)
    decreases |s|
  {
    var f := Find(s, sep);
    if f.Some? {
      var p := f.value;
      var rest := s[p + |sep|..];
      var c := LastCut(rest, sep);
      LastCutStep(s, sep, p);
      if c.Some? {
        LastCutOccurs(rest, sep);
        OccursInSuffix(s, sep, p + |sep|, c.value);
      }
    }
  }

  /** The last piece of a split starts right after the last occurrence of
      the chain. */
  lemma {:induction false} LastPieceAtCut(s: string, sep: string)
    requires sep != ""
    ensures LastCut(s, sep).None? ==> LastPiece(s, sep) == s
    ensures LastCut(s, sep).Some? ==> LastPiece(s, sep) == s[LastCut(s, sep).value + |sep|..]
    decreases |s|
  {
    if !Contains(s, sep) {
      SplitFree(s, sep);
    } else {
      var p := Find(s, sep).value;
      var rest := s[p + |sep|..];
      LastPieceStep(s, sep, p);
      LastPieceAtCut(rest, sep);
      LastCutStep(s, sep, p);
      if LastCut(rest, sep).Some? {
        var c := LastCut(rest, sep).value;
        assert rest[c + |sep|..] == s[p + |sep| + c + |sep|..];
      }
    }
  }

  /** What `Last` promises, stated of the last piece of the split. */
  lemma {:induction false} LastPieceFacts(s: string, sep: string)
    requires sep != ""
    ensures EndsWith(s, LastPiece(s, sep)) && !Contains(LastPiece(s, sep), sep)
    ensures !Contains(s, sep) ==> LastPiece(s, sep) == s
    ensures Contains(s, sep) ==> |LastPiece(s, sep)| + |sep| <= |s| && EndsWith(s[..|s| - |LastPiece(s, sep)|], sep)
  {
    SplitsIffContains(s, sep);
    LastIsSuffix(s, sep);
    PiecesAreFree(s, sep, |Split(s, sep)| - 1);
    if Contains(s, sep) {
      LastFollowsSep(s, sep);
    }
  }

  /** `s.split(sep)[-1]`: the text after the last occurrence of `sep` in
      the non-overlapping chain found from the left, or all of `s` when
      `sep` does not occur. */
  function Last(s: string, sep: string): (r: string)
    requires sep != ""
    ensures EndsWith(s, r) && !Contains(r, sep)
    ensures !Contains(s, sep) ==> r == s
    ensures Contains(s, sep) ==> |r| + |sep| <= |s| && EndsWith(s[..|s| - |r|], sep)
    ensures LastCut(s, sep).Some? ==> r == s[LastCut(s, sep).value + |sep|..]
  {
    LastPieceAtCut(s, sep);
    LastPieceFacts(s, sep);
    LastPiece(s, sep)
  }

  /** A prefix cut by `First` at a one-character separator stops right
      before that character, or takes the whole string. */
  lemma {:induction false} FirstStopsAt(s: string, c: char)
    ensures var r := First(s, [c]); |r| < |s| ==> s[|r|] == c
  {
    var r := First(s, [c]);
    if |r| < |s| {
      assert s[|r|..|r| + 1] == [c];
    }
  }

  /** `s.split(sep)[1]`, defined when `sep` occurs in `s`. */
  function Second(s: string, sep: string): (r: string)
    requires sep != "" && Contains(s, sep)
    ensures !Contains(r, sep)
  {
    SplitsIffContains(s, sep);
    PiecesAreFree(s, sep, 1);
    Split(s, sep)[1]
  }

  /** `s.split(sep)[1]` is the text right after the first `sep`. */
  lemma {:induction false} SecondFollowsSep(s: string, sep: string)
    requires sep != "" && Contains(s, sep)
    ensures OccursAt(s, sep + Second(s, sep), Find(s, sep).value)
  {
    var p := Find(s, sep).value;
    var rest := s[p + |sep|..];
    SplitStep(s, sep, p);
    FirstIsPrefix(rest, sep);
    var piece := Second(s, sep);
    assert piece == Split(rest, sep)[0];
    assert s[p..p + |sep| + |piece|] == s[p..p + |sep|] + rest[..|piece|];
  }

  /** `s.split(sep)[0]` is all of `s` or is followed by `sep`. */
  lemma {:induction false} FirstEndsAtSep(t: string, sep: string)
    requires sep != ""
    ensures |First(t, sep)| == |t| || OccursAt(t, sep, |First(t, sep)|)
  {
  }

  lemma {:induction false} SecondIsFirstOfRest(s: string, sep: string)
    requires sep != "" && Contains(s, sep)
    ensures Second(s, sep) == First(s[Find(s, sep).value + |sep|..], sep)
  {
    SplitStep(s, sep, Find(s, sep).value);
  }

  /** `s.split(sep)[1]` runs up to the next `sep` or to the end of `s`. */
  lemma {:induction false} SecondEndsAtSep(s: string, sep: string)
    requires sep != "" && Contains(s, sep)
    ensures var q := Find(s, sep).value + |sep| + |Second(s, sep)|;
      q == |s| || OccursAt(s, sep, q)
  {
    var p := Find(s, sep).value;
    var rest := s[p + |sep|..];
    SecondIsFirstOfRest(s, sep);
    FirstEndsAtSep(rest, sep);
    if |Second(s, sep)| < |rest| {
      OccursInSuffix(s, sep, p + |sep|, |Second(s, sep)|);
    }
  }

  lemma {:induction false} StartsWithTrans(s: string, t: string, u: string)
    requires StartsWith(s, t) && StartsWith(t, u)
    ensures StartsWith(s, u)
  {
    assert s[..|t|][..|u|] == s[..|u|];
  }

  /** A prefix of a string free of `pat` is free of it too. */
  lemma {:induction false} PrefixKeepsFree(t: string, u: string, pat: string)
    requires StartsWith(t, u) && !Contains(t, pat)
    ensures !Contains(u, pat)
  {
    if Contains(u, pat) {
      var j := Find(u, pat).value;
      OccursInPrefix(t, pat, |u|, j);
      ContainsWitness(t, pat, j);
    }
  }

  /** A suffix of a string free of `pat` is free of it too. */
  lemma {:induction false} SuffixKeepsFree(t: string, u: string, pat: string)
    requires EndsWith(t, u) && !Contains(t, pat)
    ensures !Contains(u, pat)
  {
    if Contains(u, pat) {
      var j := Find(u, pat).value;
      assert t[|t| - |u|..] == u;
      OccursInSuffix(t, pat, |t| - |u|, j);
      ContainsWitness(t, pat, |t| - |u| + j);
    }
  }

  /** Cutting the text after a marker keeps it right after the marker. */
  lemma {:induction false} OccursShorter(s: string, a: string, b: string, c: string, p: int)
    requires OccursAt(s, a + b, p) && StartsWith(b, c)
    ensures OccursAt(s, a + c, p)
  {
    assert s[p..p + |a| + |c|] == s[p..p + |a| + |b|][..|a| + |c|];
    assert (a + b)[..|a| + |c|] == a + c;
  }

  /** Whatever contains `a + b` contains `b`. */
  lemma {:induction false} ContainsTail(s: string, a: string, b: string)
    requires Contains(s, a + b)
    ensures Contains(s, b)
  {
    var p := Find(s, a + b).value;
    assert s[p + |a|..p + |a| + |b|] == s[p..p + |a + b|][|a|..];
    ContainsWitness(s, b, p + |a|);
  }

  /** Python slice `s[:n]`. */
  function Take(s: string, n: nat): (r: string)
    ensures |r| <= n && StartsWith(s, r)
    ensures |s| <= n ==> r == s
    ensures n <= |s| ==> |r| == n
  {
    if n < |s| then s[..n] else s
  }
}

=== FILE: roman.dfy ===
/** Roman numerals, as the numbering style "roman" renders exhibit labels
    (`to_roman` in app.py). The renderer is the greedy table walk of
    `to_roman`; its partner is the usual subtractive reading of a numeral, and
    the two are proved inverse. */
module Roman {

  /** The value/symbol table of `to_roman`, largest value first, with the six
      subtractive pairs in between. */
  const Values: seq<nat> := [1000, 900, 500, 400, 100, 90, 50, 40, 10, 9, 5, 4, 1]
  const Symbols: seq<string> := ["M", "CM", "D", "CD", "C", "XC", "L", "XL", "X", "IX", "V", "IV", "I"]
  const TableSize: nat := 13

  /** Value of one numeral character; any other character counts 0. */
  function CharValue(c: char): nat
  {
    match c
    case 'M' => 1000
    case 'D' => 500
    case 'C' => 100
    case 'L' => 50
    case 'X' => 10
    case 'V' => 5
    case 'I' => 1
    case _ => 0
  }

  predicate IsNumeralChar(c: char)
  {
    c in "MDCLXVI"
  }

  /** Reading a numeral: a character worth less than its right neighbour
      is subtracted, every other character is added. */
  function RomanValue(s: string): int
  {
    if |s| == 0 then 0
    else if |s| > 1 && CharValue(s[0]) < CharValue(s[1]) then RomanValue(s[1..]) - CharValue(s[0])
    else RomanValue(s[1..]) + CharValue(s[0])
  }

  /** Table positions in the order the renderer emits them. */
  predicate Walk(idx: seq<nat>)
  {
    (forall k :: 0 <= k < |idx| ==> idx[k] < TableSize) &&
    (forall k :: 0 <= k < |idx| - 1 ==> idx[k] <= idx[k + 1])
  }

  /** Value of the table entry at `i`; 0 past the end of the table. */
  function ValueAt(i: nat): nat
  {
    if i < TableSize then Values[i] else 0
  }

  /** Symbol of the table entry at `i`; empty past the end of the table. */
  function SymbolAt(i: nat): string
  {
    if i < TableSize then Symbols[i] else ""
  }

  function Sum(idx: seq<nat>): nat
  {
    if |idx| == 0 then 0 else ValueAt(idx[0]) + Sum(idx[1..])
  }

  /** The numeral spelled by a sequence of table positions. */
  function Render(idx: seq<nat>): (r: string)
  {
    if |idx| == 0 then "" else SymbolAt(idx[0]) + Render(idx[1..])
  }

  /** The table positions the loops of `to_roman` visit for `num`, starting
      at position `i`: a symbol is emitted while it still fits, then the
      walk moves on to the next smaller one. */
  function Greedy(num: nat, i: nat): (r: seq<nat>)
    requires i <= TableSize && (num > 0 ==> i < TableSize)
    ensures forall k :: 0 <= k < |r| ==> i <= r[k] < TableSize
    decreases num, TableSize - i
  {
    if num == 0 then []
    else if num >= Values[i] then [i] + Greedy(num - Values[i], i)
    else Greedy(num, i + 1)
  }

  /** `to_roman(n)`. */
  function ToRoman(n: nat): (r: string)
    ensures RomanValue(r) == n
    ensures forall k :: 0 <= k < |r| ==> IsNumeralChar(r[k])
  {
    GreedyWalk(n, 0);
    RenderReads(Greedy(n, 0));
    RenderChars(Greedy(n, 0));
    Render(Greedy(n, 0))
  }

  /** The greedy walk is ordered and its values add up to the number. */
  lemma {:induction false} GreedyWalk(num: nat, i: nat)
    requires i <= TableSize && (num > 0 ==> i < TableSize)
    ensures Walk(Greedy(num, i))
    ensures Sum(Greedy(num, i)) == num
  {
    GreedyOrdered(num, i);
    GreedySum(num, i);
  }

  /** The greedy walk never moves back up the table. */
  lemma {:induction false} GreedyOrdered(num: nat, i: nat)
    requires i <= TableSize && (num > 0 ==> i < TableSize)
    ensures Walk(Greedy(num, i))
    decreases num, TableSize - i
  {
    if num == 0 {
    } else if num >= Values[i] {
      ValuePositive(i);
      GreedyOrdered(num - Values[i], i);
      WalkCons(i, Greedy(num - Values[i], i));
    } else {
      GreedyOrdered(num, i + 1);
    }
  }

  /** The values of the greedy walk add up to the number. */
  lemma {:induction false} GreedySum(num: nat, i: nat)
    requires i <= TableSize && (num > 0 ==> i < TableSize)
    ensures Sum(Greedy(num, i)) == num
    decreases num, TableSize - i
  {
    if num == 0 {
    } else if num >= Values[i] {
      ValuePositive(i);
      var t := Greedy(num - Values[i], i);
      GreedySum(num - Values[i], i);
      assert ([i] + t)[1..] == t;
    } else {
      GreedySum(num, i + 1);
    }
  }

  /** A position no later than every position of a walk extends it in
      front. */
  lemma {:induction false} WalkCons(i: nat, t: seq<nat>)
    requires i < TableSize && Walk(t)
    requires forall k :: 0 <= k < |t| ==> i <= t[k]
    ensures Walk([i] + t)
  {
    var w := [i] + t;
    forall k | 0 <= k < |w| - 1
      ensures w[k] <= w[k + 1]
    {
      assert w[k + 1] == t[k];
      if k > 0 {
        assert w[k] == t[k - 1];
      }
    }
  }

  /** Shape of each table entry: one character worth its value, or a
      smaller character before a larger one, worth their difference. */
  lemma {:induction false} SymbolShape(i: nat)
    requires i < TableSize
    ensures 1 <= |Symbols[i]| <= 2
    ensures |Symbols[i]| == 1 ==> Values[i] == CharValue(Symbols[i][0])
    ensures |Symbols[i]| == 2 ==>
      CharValue(Symbols[i][0]) < CharValue(Symbols[i][1]) &&
      Values[i] == CharValue(Symbols[i][1]) - CharValue(Symbols[i][0])
    ensures forall k :: 0 <= k < |Symbols[i]| ==> IsNumeralChar(Symbols[i][k])
  {
  }

  /** Along a walk, the character that follows a symbol is never worth
      more than that symbol's last character, so it never turns the last
      character into a subtraction. */
  lemma {:induction false} NextDoesNotSubtract(i: nat, j: nat)
    requires i <= j < TableSize
    ensures CharValue(Symbols[j][0]) <= CharValue(Symbols[i][|Symbols[i]| - 1])
  {
  }

  /** A non-empty rendering starts with the first symbol's first character. */
  lemma {:induction false} RenderHead(idx: seq<nat>)
    requires forall k :: 0 <= k < |idx| ==> idx[k] < TableSize
    requires |idx| > 0
    ensures |Render(idx)| > 0 && Render(idx)[0] == Symbols[idx[0]][0]
  {
    SymbolShape(idx[0]);
  }

  /** Prefixing one symbol adds its value, provided what follows does not
      start with a larger character than the symbol ends with. */
  lemma {:induction false} ReadSymbol(i: nat, rest: string)
    requires i < TableSize
    requires |rest| > 0 ==> CharValue(rest[0]) <= CharValue(Symbols[i][|Symbols[i]| - 1])
    ensures RomanValue(Symbols[i] + rest) == Values[i] + RomanValue(rest)
  {
    SymbolShape(i);
    var s := Symbols[i] + rest;
    if |Symbols[i]| == 1 {
      assert s[1..] == rest;
    } else {
      assert s[1..] == [Symbols[i][1]] + rest;
      assert s[1..][1..] == rest;
    }
  }

  /** The rest of a walk is a walk. */
  lemma {:induction false} WalkTail(idx: seq<nat>)
    requires Walk(idx) && |idx| > 0
    ensures Walk(idx[1..])
  {
    var t := idx[1..];
    forall k | 0 <= k < |t| - 1
      ensures t[k] <= t[k + 1]
    {
      assert t[k] == idx[k + 1] && t[k + 1] == idx[k + 2];
    }
  }

  /** Reading a rendered walk takes its first symbol's value whole. */
  lemma {:induction false} ReadFirst(idx: seq<nat>)
    requires Walk(idx) && |idx| > 0
    ensures RomanValue(Render(idx)) == Values[idx[0]] + RomanValue(Render(idx[1..]))
  {
    var t := idx[1..];
    if |t| > 0 {
      assert t[0] == idx[1];
      RenderHead(t);
      NextDoesNotSubtract(idx[0], t[0]);
    }
    ReadSymbol(idx[0], Render(t));
  }

  /** Reading a rendered walk gives the sum of its values. */
  lemma {:induction false} RenderReads(idx: seq<nat>)
    requires Walk(idx)
    ensures RomanValue(Render(idx)) == Sum(idx)
  {
    if |idx| > 0 {
      WalkTail(idx);
      RenderReads(idx[1..]);
      ReadFirst(idx);
    }
  }

  /** A rendering consists of numeral characters only. */
  lemma {:induction false} RenderChars(idx: seq<nat>)
    requires forall k :: 0 <= k < |idx| ==> idx[k] < TableSize
    ensures forall k :: 0 <= k < |Render(idx)| ==> IsNumeralChar(Render(idx)[k])
  {
    if |idx| > 0 {
      var t := idx[1..];
      RenderChars(t);
      SymbolShape(idx[0]);
      var r := Render(idx);
      forall k | 0 <= k < |r|
        ensures IsNumeralChar(r[k])
      {
        if k >= |Symbols[idx[0]]| {
          assert r[k] == Render(t)[k - |Symbols[idx[0]]|];
        } else {
          assert r[k] == Symbols[idx[0]][k];
        }
      }
    }
  }

  /** Only 0 renders as the empty numeral. */
  lemma {:induction false} ToRomanEmptyIffZero(n: nat)
    ensures ToRoman(n) == "" <==> n == 0
  {
    if n == 0 {
      assert Greedy(0, 0) == [];
    }
  }

  /** Distinct numbers get distinct numerals. */
  lemma {:induction false} ToRomanInjective(a: nat, b: nat)
    requires ToRoman(a) == ToRoman(b)
    ensures a == b
  {
  }

  lemma {:induction false} ValuePositive(i: nat)
    requires i < TableSize
    ensures Values[i] >= 1
    ensures i == TableSize - 1 ==> Values[i] == 1
  {
  }

  /** `a * v` as repeated addition, so that the loop proof stays linear. */
  function Times(a: nat, v: nat): nat
  {
    if a == 0 then 0 else v + Times(a - 1, v)
  }

  lemma {:induction false} TimesIsProduct(a: nat, v: nat)
    ensures Times(a, v) == a * v
  {
    if a > 0 {
      TimesIsProduct(a - 1, v);
    }
  }

  /** Before the inner loop: `num` is `num // v` copies of `v` plus the remainder. */
  lemma {:induction false} DivMod(num: nat, v: nat)
    requires v > 0
    ensures num == num % v + Times(num / v, v) && num % v < v
  {
    TimesIsProduct(num / v, v);
  }

  /** One turn of the inner loop: emitting the current symbol leaves the
      rendering of what remains. */
  lemma {:induction false} GreedyStep(num: nat, i: nat)
    requires i < TableSize && num >= Values[i] >= 1
    ensures Render(Greedy(num, i)) == Symbols[i] + Render(Greedy(num - Values[i], i))
  {
    var t := Greedy(num - Values[i], i);
    assert ([i] + t)[1..] == t;
  }

  /** Emitting one more symbol keeps what is emitted followed by the
      rendering of what remains equal to the whole numeral. */
  lemma {:induction false} EmitOne(out: string, left: nat, i: nat, whole: string, out': string, left': nat)
    requires i < TableSize && left >= Values[i] >= 1
    requires out + Render(Greedy(left, i)) == whole
    requires out' == out + Symbols[i] && left' == left - Values[i]
    ensures out' + Render(Greedy(left', i)) == whole
  {
    GreedyStep(left, i);
    var sym, rest := Symbols[i], Render(Greedy(left', i));
    assert Render(Greedy(left, i)) == sym + rest;
    AppendAssoc(out, sym, rest);
  }

  lemma {:induction false} AppendAssoc(a: string, b: string, c: string)
    ensures a + (b + c) == (a + b) + c
  {
  }

  /** Leaving a table position once its symbol no longer fits. */
  lemma {:induction false} GreedySkip(num: nat, i: nat)
    requires i < TableSize && num < Values[i]
    requires num > 0 ==> i + 1 < TableSize
    ensures Greedy(num, i) == Greedy(num, i + 1)
  {
  }

  /** The inner loop of `to_roman` at table position `i`: emit the symbol
      `num // val[i]` times, taking its value off each time. */
  method EmitRepeated(num: nat, i: nat) returns (out: string, left: nat)
    requires i < TableSize
    ensures left == num % Values[i] && left < Values[i]
    ensures out + Render(Greedy(left, i)) == Render(Greedy(num, i))
  {
    var v := Values[i];
    ValuePositive(i);
    var q := num / v;
    DivMod(num, v);
    ghost var rem := num % v;
    out := "";
    left := num;
    var k := 0;
    ghost var whole := Render(Greedy(num, i));
    while k < q
      invariant 0 <= k <= q
      invariant left == rem + Times(q - k, v)
      invariant out + Render(Greedy(left, i)) == whole
    {
      assert Times(q - k, v) == v + Times(q - k - 1, v);
      ghost var out0, left0 := out, left;
      out := out + Symbols[i];
      left := left - v;
      EmitOne(out0, left0, i, whole, out, left);
      k := k + 1;
    }
  }

  /** The outer loop of `to_roman`: walk the table while something is left. */
  method ToRomanLoop(n: nat) returns (r: string)
    ensures r == ToRoman(n)
    ensures RomanValue(r) == n
  {
    ghost var whole := Render(Greedy(n, 0));
    var num := n;
    var i := 0;
    r := "";
    while num > 0
      invariant i <= TableSize && (num > 0 ==> i < TableSize)
      invariant r + Render(Greedy(num, i)) == whole
      decreases TableSize - i
    {
      var emitted, left := EmitRepeated(num, i);
      GreedySkip(left, i);
      assert r + Render(Greedy(num, i)) == (r + emitted) + Render(Greedy(left, i + 1));
      r := r + emitted;
      num := left;
      i := i + 1;
    }
    assert r + "" == r;
  }
}
